=== FILE: README.md ===
# cell2sentence4longevity MCP — a Dafny model of the prompt and knockout core

The system predicts the age of a donor from a *cell sentence* (aging-related
gene symbols ordered by expression) by asking a fine-tuned language model,
served behind a vLLM completions endpoint, and runs *in-silico knockouts*:
the same prediction with one gene removed from the prompt, reported together
with the difference of the two ages. This project models the parts of it that
are pure text and bookkeeping, and proves what they guarantee:

- `Text` — the Python string operations the core relies on: `split()` and
  `strip()` with Python's whitespace, `split('\n')`, `"\n".join`, the leftmost
  non-overlapping `str.replace`, `re.sub(r'\s+', ' ', …)` and `rstrip("/")`.
- `Numbers` — decimal digits, `str(int)` and the `int()` of a smoking status
  (underscores between digit groups included).
- `Failures` — the ways a prediction can fail: an empty sentence, a service
  failure (timeout, HTTP status, malformed body), a reply without a number,
  a payload prompt without a sentence, a smoking value `int()` refuses.
- `Inference` — the completions request: endpoint URL, model, prompt,
  generation parameters (defaults 20 tokens, temperature 0.0, top-p 1.0),
  `n = 1`, the three stop tokens and the 60-second timeout. The HTTP service
  is an `Oracle` parameter from request to reply.
- `AgeParser` — the first match of `\d+\.?\d*` in a reply, its value, and the
  strict parse of the knockout module (no number is an error) beside the
  lenient parse of the server (no number is an absent age).
- `Prompt` — the metadata prompt builder (header, then sex, smoking status,
  tissue and cell type when given, the sentence line and two instruction
  lines) and the removal of a gene from a prompt, both as the code writes it
  and as token removal.
- `GeneRemoval` — what the code's removal does to a prompt whose sentence is
  single-spaced words: pass by pass, and in the end exactly token removal
  when the gene occurs nowhere but as whole words of the sentence.
- `Knockout` — `predict_age_from_sentence` and `insilico_knockout`: the two
  requests, the warning for a gene not in the sentence, the knockout sentence
  and the delta.
- `Server` — the three MCP tools: `predict_age` with its own plain template,
  `predict_age_with_metadata`, and `insilico_knockout_tool`.
- `Cli` — the payload commands `knockout-from-payload` and `ko`: reading
  metadata and sentence back out of a payload prompt line by line, the default
  gene (first token), the model choice (`--model`, else the payload's, else the
  default), the generation parameters with their defaults, and the CSV header
  and row.

All functions are total: every error the code raises is a `Failure` of a
`Result`, and every `requires` is a condition the code's own callers meet
(for instance that a metadata value is a single line, which is what makes the
line-by-line reading of a prompt possible at all).

## Model

| member | source | states |
|---|---|---|
| Prompt.BuildPromptLines | src/cell2sentence4longevity_mcp/knockout.py:59-76 | The built prompt, cut at newlines, is the header, a blank line (the header's own trailing newline), a line for each given field in the order sex, smoking status, tissue, cell type, the sentence line, and the two instruction lines — for any single-line values. |
| Server.SexAndTissueLines | src/cell2sentence4longevity_mcp/server.py:258-275 | With a non-empty sex and tissue and nothing else, exactly their two lines appear, sex first, between the blank line and the sentence line. |
| Server.SmokingKeptEmptySexDropped | src/cell2sentence4longevity_mcp/knockout.py:63-66 | A smoking status is written whatever its value (0 included, the test is `is not None`), while an empty sex is dropped (the test is truthiness). |
| Server.PlainPromptIsBuilt | src/cell2sentence4longevity_mcp/server.py:171-175 | The plain template of `predict_age` is exactly the metadata builder's prompt with no metadata. |
| Server.PredictAgeWithoutMetadata | src/cell2sentence4longevity_mcp/server.py:146-221 | `predict_age` gives the same result as `predict_age_with_metadata` with no metadata, for every reply of the service. |
| Prompt.RemoveGene | src/cell2sentence4longevity_mcp/knockout.py:79-87 | Corrected removal: with a gene given, the words of the result are the words of the prompt with every occurrence of the gene dropped and all others kept in order; the gene is no longer a word; with no gene the prompt is unchanged. |
| Prompt.RemoveGeneAsWritten | src/cell2sentence4longevity_mcp/knockout.py:79-87 | The three replacements and the whitespace collapse as the code writes them: the result is single-spaced; when the gene does not occur it is only the collapsed prompt; with no gene (or an empty one) the prompt is unchanged. |
| Prompt.RemovalAgreesWhenAbsent | src/cell2sentence4longevity_mcp/knockout.py:83-87 | When the gene does not occur in the prompt, both removals leave its words as they were. |
| Prompt.NoWiderOccurrence | src/cell2sentence4longevity_mcp/knockout.py:83-85 | Each of the three patterns can only occur where the gene itself occurs. |
| Prompt.FusesNeighbours | src/cell2sentence4longevity_mcp/knockout.py:83-87 | As written, `x g gB` (a gene that is a prefix of the next word) loses the whole middle and fuses `x` with the tail of the next word. |
| Prompt.AsWrittenFusesNeighbours | src/cell2sentence4longevity_mcp/knockout.py:83-87 | Concretely, removing FOS from "JUN FOS FOSB" gives "JUNB" as written and "JUN FOSB" under token removal. |
| Prompt.TokenRemovalKeeps | src/cell2sentence4longevity_mcp/knockout.py:79-80 | Token removal of `g` from `x g gB` keeps both neighbours: the result is `x gB`. |
| Prompt.Without | src/cell2sentence4longevity_mcp/knockout.py:178 | The filtered list never holds the gene and holds only words when the input does. |
| Prompt.WithoutCounts | src/cell2sentence4longevity_mcp/knockout.py:178 | Every other word keeps its number of occurrences, and the length drops by the gene's count. |
| Prompt.WithoutAppend | src/cell2sentence4longevity_mcp/knockout.py:178 | Filtering distributes over concatenation, so order is kept. |
| Prompt.WithoutAbsent | src/cell2sentence4longevity_mcp/knockout.py:173-178 | Filtering a gene that is not in the list returns the list unchanged. |
| GeneRemoval.FirstPass | src/cell2sentence4longevity_mcp/knockout.py:83 | Replacing `" g "` by `" "` over space-led words, followed by nothing or by whitespace other than a space in text without `" g "`, drops each `g` that has a word after it, except one right after a dropped `g`, whose leading space the scan has already used. |
| GeneRemoval.FirstPassKeeps | src/cell2sentence4longevity_mcp/knockout.py:83 | The first pass only ever drops copies of the gene, so the remaining non-gene words are those of the input, in order. |
| GeneRemoval.SecondPass | src/cell2sentence4longevity_mcp/knockout.py:84 | Replacing `" g"` by `""` over space-led words, followed by nothing or by whitespace in text without `" g"`, drops every `g` when no word starts with `g` without being it, and keeps the other words. |
| GeneRemoval.ThirdPass | src/cell2sentence4longevity_mcp/knockout.py:85 | Replacing `"g "` by `""` changes nothing when no word ends with `g` and the text after the words does not contain `"g "`. |
| GeneRemoval.NoneStartsInPrefix | src/cell2sentence4longevity_mcp/knockout.py:83-85 | None of the three patterns starts inside text that does not contain the gene, does not end in whitespace, and is followed by whitespace. |
| GeneRemoval.ThreePasses | src/cell2sentence4longevity_mcp/knockout.py:83-85 | Around the sentence, the three replacements together turn the space-led words into the same words without the gene and leave the text before and after them as it was. |
| GeneRemoval.AsWrittenInContext | src/cell2sentence4longevity_mcp/knockout.py:83-87 | The code's removal of such a prompt is the whitespace collapse of the prompt with the gene's words dropped from the sentence. |
| GeneRemoval.AsWrittenAgreesInContext | src/cell2sentence4longevity_mcp/knockout.py:79-87 | On such a prompt, the code's removal and token removal give the same words: those before the sentence, the sentence's without the gene, and those after it. |
| GeneRemoval.AsWrittenIsTokenRemoval | src/cell2sentence4longevity_mcp/knockout.py:79-87 | With trimmed text around the sentence and a line break right after it, the two removals give the same string, the words joined by single spaces. |
| GeneRemoval.AsWrittenOnWords | src/cell2sentence4longevity_mcp/knockout.py:83-87 | On words joined by single spaces alone, the code's removal gives the words without the gene joined by single spaces, except that when every word is the gene one copy of it is left, since the last pass needs a space after it. |
| GeneRemoval.AsWrittenRemovesWord | src/cell2sentence4longevity_mcp/knockout.py:79-87 | On such words, when some word other than the gene is left, the code's removal is token removal, and its words are the input's without the gene. |
| Text.Split | src/cell2sentence4longevity_mcp/knockout.py:166 | Every token `split()` returns is a non-empty run of non-whitespace. |
| Text.SplitJoin | src/cell2sentence4longevity_mcp/knockout.py:178-179 | Joining words with single spaces and splitting again gives the same words back. |
| Text.Strip | src/cell2sentence4longevity_mcp/knockout.py:107 | The result has no whitespace at either end and is the input with only whitespace removed around it. |
| Text.StripUnique | src/cell2sentence4longevity_mcp/knockout.py:107 | There is only one trimmed core of a string, so `strip()` is determined by that property. |
| Text.StripIdempotent | src/cell2sentence4longevity_mcp/knockout.py:107 | Stripping twice is stripping once. |
| Text.Collapse | src/cell2sentence4longevity_mcp/knockout.py:87 | Collapsing never lengthens, keeps emptiness, and starts with a space exactly when the input starts with whitespace. |
| Text.CollapseIsSingleSpaced | src/cell2sentence4longevity_mcp/knockout.py:87 | After `re.sub(r'\s+', ' ', …)` the only whitespace is single spaces. |
| Text.CollapseIdempotent | src/cell2sentence4longevity_mcp/knockout.py:87 | Collapsing twice is collapsing once. |
| Text.SplitCollapse | src/cell2sentence4longevity_mcp/knockout.py:87 | Collapsing whitespace does not change the words. |
| Text.ReplaceAbsent | src/cell2sentence4longevity_mcp/knockout.py:83-85 | For any string and a non-empty pattern it does not contain, the replacement returns the string unchanged. |
| Text.ReplaceLeftmost | src/cell2sentence4longevity_mcp/knockout.py:83-85 | When the pattern first occurs right after `u`, the replacement keeps `u`, puts the replacement there, and continues the scan after that occurrence, so occurrences never overlap. |
| Text.JoinSplit | src/cell2sentence4longevity_mcp/knockout.py:87 | Joining the words of a string with single spaces is collapsing the whitespace of the stripped string, so `" ".join(s.split())` and the collapse of a trimmed prompt agree. |
| Text.JoinHasMiddle | src/cell2sentence4longevity_mcp/knockout.py:87 | A run of consecutive words appears, single-spaced, inside the single-spaced join of a list that holds it. |
| Text.SplitOn | src/cell2sentence4longevity_mcp/cli.py:139 | Cutting at a separator yields at least one piece, no piece holds the separator, and joining the pieces with it gives the input back. |
| Text.SplitOnJoin | src/cell2sentence4longevity_mcp/cli.py:139 | The other direction: pieces free of the separator, joined and cut again, come back as they were. |
| Text.SplitJoinLines | src/cell2sentence4longevity_mcp/knockout.py:76 | The words of lines joined by a newline are the words of the lines, in order. |
| AgeParser.FirstNumber | src/cell2sentence4longevity_mcp/knockout.py:112 | No match exactly when the reply has no digit; otherwise the match is the first number: it starts at the first digit, takes the maximal digit run, and a dot with the following digits when a dot follows. |
| AgeParser.FirstNumberUnique | src/cell2sentence4longevity_mcp/knockout.py:112 | Any match meeting the first-number description is the one found, so the description determines the match. |
| AgeParser.Value | src/cell2sentence4longevity_mcp/knockout.py:117 | The number's value lies between its whole part and the next integer. |
| AgeParser.ParseAgeStrict | src/cell2sentence4longevity_mcp/knockout.py:111-117 | Fails exactly when the reply has no digit, with the reply in the error; otherwise the age is the value of the first number and is never negative. |
| AgeParser.ParseAgeLenient | src/cell2sentence4longevity_mcp/server.py:199-205 | Absent exactly when the reply has no digit; otherwise the value of the first number, never negative. |
| AgeParser.LenientMatchesStrict | src/cell2sentence4longevity_mcp/server.py:298-307 | The server's lenient parse is absent exactly when the strict parse fails, and equal to it otherwise. |
| AgeParser.ValueExact | src/cell2sentence4longevity_mcp/knockout.py:117 | The value of a number is its digits, whole and fraction together, read as an integer and divided by ten to the number of fraction digits. |
| AgeParser.ExampleInteger | src/cell2sentence4longevity_mcp/knockout.py:112-117 | A reply "7" reads as 7.0. |
| AgeParser.ExampleDecimal | src/cell2sentence4longevity_mcp/knockout.py:112-117 | A reply "Age: 42.5 years" reads as 42.5. |
| AgeParser.ExampleMinusIgnored | src/cell2sentence4longevity_mcp/knockout.py:112 | A minus sign is not part of the pattern, so "-5" reads as 5. |
| AgeParser.ExampleStripReply | src/cell2sentence4longevity_mcp/knockout.py:107 | A reply " 43.5" followed by a newline is stripped to "43.5" before it is parsed. |
| Inference.CompletionsUrl | src/cell2sentence4longevity_mcp/knockout.py:102 | The URL ends with `/v1/completions`, and what precedes it is the base URL with exactly its trailing slashes removed. |
| Inference.MakeRequest | src/cell2sentence4longevity_mcp/knockout.py:91-99 | The request carries the model, the prompt and the three generation parameters unchanged, `n = 1`, the three stop tokens and the 60-second timeout. |
| Inference.Complete | src/cell2sentence4longevity_mcp/knockout.py:103-107 | A completion succeeds exactly when the service does, and its text is stripped. |
| Knockout.PredictAgeFromSentence | src/cell2sentence4longevity_mcp/knockout.py:22-119 | A service failure is passed on; a reply without a digit is an unparseable-age error naming the stripped reply; otherwise the age is the value of the reply's first number. |
| Knockout.InsilicoKnockout | src/cell2sentence4longevity_mcp/knockout.py:122-231 | Empty-sentence error exactly for a whitespace-only sentence; success exactly when both predictions succeed; the two ages are those predictions (the second on the prompt after the code's removal of the gene) and the delta is their difference; gene, sentence and model are echoed; the knockout sentence is the sentence's words without the gene joined by single spaces, so its words are exactly those; a warning appears exactly when the gene is not a word of the sentence, with the code's wording; a failed experiment reports the first prediction's error, or the second's when only the second fails. |
| Knockout.KnockoutRequests | src/cell2sentence4longevity_mcp/knockout.py:190-217 | The two requests differ only in their prompts; the first is the built prompt, the second is that prompt put through the code's removal, which leaves it single-spaced, and when the gene does not occur in the prompt only collapses its whitespace. |
| Knockout.KnockoutDropsOneToken | src/cell2sentence4longevity_mcp/knockout.py:178-179 | A gene that occurs once in the sentence leaves a knockout sentence one word shorter. |
| Knockout.PromptWords | src/cell2sentence4longevity_mcp/knockout.py:59-76 | The words of a built prompt are those of the header and metadata lines, the sentence tag, the sentence, and the instruction lines, in order. |
| Knockout.KnockoutPromptWords | src/cell2sentence4longevity_mcp/knockout.py:78-79 | Under token removal (what the comment at line 78 describes), the knockout prompt's words are those of the unedited prompt with the gene filtered out of each part, and the sentence part is exactly the knockout sentence's words. |
| Knockout.KnockoutPromptsAgree | src/cell2sentence4longevity_mcp/knockout.py:59-87 | When the gene is a word, every word of the sentence either is the gene or neither starts nor ends with it, the sentence is single-spaced, and the fixed text around the sentence does not contain the gene, the code's three replacements and collapse give exactly the token-removal prompt: the words before the sentence, the sentence's words without the gene, and the words after it, joined by single spaces. |
| Knockout.KnockoutPromptWordsAsWritten | src/cell2sentence4longevity_mcp/knockout.py:79-87 | Under the same conditions, the words of the code's knockout prompt are the words of the full prompt with the gene filtered out, and the gene is no longer one of them. |
| Knockout.ExampleKnockoutPrompt | src/cell2sentence4longevity_mcp/knockout.py:59-87 | For female blood metadata and "MT-CO1 FTL EEF1A1", the code's knockout prompt for MT-CO1 contains "Aging related cell sentence: FTL EEF1A1 Predict": the remaining genes stay in place, and the newlines are flattened into single spaces. |
| Knockout.WarningWhenAbsent | src/cell2sentence4longevity_mcp/knockout.py:172-174 | For any gene that is not a word of the sentence, a successful knockout carries the not-found warning. |
| Knockout.SentenceInPrompt | src/cell2sentence4longevity_mcp/knockout.py:72 | Every word of the sentence is a word of the built prompt. |
| Knockout.ExampleKnockout | src/cell2sentence4longevity_mcp/knockout.py:166-231 | With a service answering "45" while MT-CO1 is a word of the prompt and " 43.5" with a newline otherwise, knocking out MT-CO1 from "MT-CO1 FTL EEF1A1" with female blood metadata gives 45, 43.5, delta -1.5, knockout sentence "FTL EEF1A1" and no warning; the second prompt is the one the code's replacements produce. |
| Knockout.ExampleGeneNotFound | src/cell2sentence4longevity_mcp/knockout.py:172-174 | Knocking out TP53, absent from the sentence, is no error: whenever both predictions succeed the result carries the not-found warning. |
| Knockout.ExampleEmptySentence | src/cell2sentence4longevity_mcp/knockout.py:166-169 | A whitespace-only sentence is refused before any request. |
| Server.Predict | src/cell2sentence4longevity_mcp/server.py:277-321 | The tool fails exactly when the service does, re-raised as a prediction error; otherwise it reports the stripped reply, the prompt, the configured model, and the first number of the reply as the age, absent exactly when there is no digit. |
| Server.KnockoutTool | src/cell2sentence4longevity_mcp/server.py:359-371 | The tool fails with the empty-sentence error for a whitespace-only sentence and succeeds exactly when the sentence has a word and both predictions at the server's endpoint succeed. Its knockout runs against the server's endpoint and model: its two ages are the predictions for the unedited and the edited prompt sent to `config.baseUrl` with `config.model`, the first being the age the server's own prediction tool reports for the same sentence and metadata; it echoes the gene and sentence, and its delta is the knockout age minus the original. |
| Server.ServerAgreesWithKnockoutPath | src/cell2sentence4longevity_mcp/server.py:209-214 | For the same sentence and metadata the server reports an age exactly when the knockout module's strict prediction succeeds, and the two ages are equal. |
| Cli.ParseLine | src/cell2sentence4longevity_mcp/cli.py:140-150 | Reading one line keeps every field trimmed, and can fail only on a smoking value `int()` refuses. |
| Cli.StepFields | src/cell2sentence4longevity_mcp/cli.py:140-150 | After a successful step on any line, the field whose label starts the stripped line holds the stripped text after the label's ':' (the smoking status its `int()`), and every other field keeps its value. |
| Cli.StepFails | src/cell2sentence4longevity_mcp/cli.py:143-144 | A step fails exactly when the stripped line starts with the smoking label and `int()` refuses the text after it. |
| Cli.ParseLines | src/cell2sentence4longevity_mcp/cli.py:139-150 | The same for the loop over all lines, which stops at the first failure. |
| Cli.ParsePrompt | src/cell2sentence4longevity_mcp/cli.py:139-153 | A payload prompt reads to trimmed fields with a non-empty sentence, or fails with a missing sentence or an invalid smoking value. |
| Cli.ParseLinesFails | src/cell2sentence4longevity_mcp/cli.py:139-150 | The loop over the lines fails exactly when some line carries a smoking value that `int()` refuses. |
| Cli.ParseLinesLatest | src/cell2sentence4longevity_mcp/cli.py:139-150 | A successful loop leaves each field holding the value of the last line labelled with its tag, or its old value when no line is; the smoking status is the `int()` of its last value. |
| Cli.ParsePromptLatest | src/cell2sentence4longevity_mcp/cli.py:139-153 | Reading a payload prompt fails with an invalid integer when some smoking value is not one, fails for a missing sentence exactly when none is and no sentence line has a non-empty value, and otherwise gives each field the value of its last labelled line. |
| Cli.ParseBuiltPrompt | src/cell2sentence4longevity_mcp/cli.py:139-153 | Reading back a prompt the builder wrote (single-line trimmed values, non-empty sentence) recovers its metadata and sentence exactly. |
| Cli.SmokingStep | src/cell2sentence4longevity_mcp/cli.py:143-144 | A smoking line written with `str()` is read back by `int()` as the same number. |
| Cli.TagsExclusive | src/cell2sentence4longevity_mcp/cli.py:141-150 | No line starts with two different labels, so the order of the `elif` tests does not matter for built lines. |
| Cli.MetadataLinesRead | src/cell2sentence4longevity_mcp/cli.py:141-148 | The metadata lines of the builder read back to exactly the given metadata (empty texts count as absent). |
| Cli.LaterSexLineWins | src/cell2sentence4longevity_mcp/cli.py:141-142 | Whenever the lines before it read, a final sex line decides the sex, whatever earlier lines said. |
| Cli.EmptyPromptHasNoSentence | src/cell2sentence4longevity_mcp/cli.py:130-153 | The empty prompt (what a payload without one reads as) is refused for its missing sentence. |
| Cli.ResolveGene | src/cell2sentence4longevity_mcp/cli.py:155-161 | A gene on the command line is used as is; otherwise the first token of the sentence, which exists exactly when the sentence is not all whitespace. |
| Cli.KnockoutFromPayload | src/cell2sentence4longevity_mcp/cli.py:129-178 | A payload without a prompt fails for the missing sentence; the empty-sentence error cannot come out; the gene knocked out is the command line's, or else the first token of the read sentence, for which no warning is given; the result's model is the command line's when one is given and non-empty, else the payload's `model` entry, else the default model. |
| Cli.PayloadRunsKnockout | src/cell2sentence4longevity_mcp/cli.py:156-178 | Once the prompt has been read, the command is the knockout of the read sentence and metadata, for the command line's gene or else the sentence's first token, with the command line's or payload's model and the payload's `max_tokens`, `temperature` and `top_p` (20, 0.0 and 1.0 when absent). |
| Cli.PayloadDefaults | src/cell2sentence4longevity_mcp/cli.py:175-177 | A payload without generation entries runs with the defaults 20, 0.0 and 1.0. |
| Cli.KoShortIsPayloadWithGene | src/cell2sentence4longevity_mcp/cli.py:229-271 | `ko g` behaves exactly as `knockout-from-payload --gene-symbol g`. |
| Cli.KoShort | src/cell2sentence4longevity_mcp/cli.py:229-271 | A payload without a prompt fails for the missing sentence; a successful `ko` reports the gene it was given and the command line's model when one is given and non-empty, else the payload's `model` entry, else the default model; with KoShortIsPayloadWithGene and PayloadRunsKnockout, it runs the knockout with the payload's generation entries. |
| Cli.PayloadReplaysExperiment | src/cell2sentence4longevity_mcp/cli.py:229-271 | Replaying a payload whose prompt the builder wrote, with any generation entries, runs the same knockout as the direct call with that metadata, sentence, model and the entries (or their defaults): `ko g` for gene g, and `knockout-from-payload` without a gene for the sentence's first token. |
| Cli.SamePromptSameKnockout | src/cell2sentence4longevity_mcp/knockout.py:190-217 | The knockout sees the metadata only through the prompt it builds. |
| Cli.NormalisedSamePrompt | src/cell2sentence4longevity_mcp/knockout.py:63-70 | Metadata with empty texts dropped builds the same prompt as the original. |
| Cli.CsvHeaderColumns | src/cell2sentence4longevity_mcp/cli.py:87 | The CSV header has the five column names in order. |
| Cli.CsvRowFields | src/cell2sentence4longevity_mcp/cli.py:89 | A row whose values hold no comma splits into gene, the two ages, the delta and the warning (empty when absent), one per header column. |
| Cli.KnockoutCsvRow | src/cell2sentence4longevity_mcp/cli.py:185-187 | The row of any successful knockout of a comma-free gene has as many fields as the header. |
| Cli.WarningCommaFree | src/cell2sentence4longevity_mcp/knockout.py:174 | The not-found warning of a comma-free gene holds no comma. |
| Numbers.IntToString | src/cell2sentence4longevity_mcp/knockout.py:66 | `str(int)` is non-empty, starts with '-' exactly for a negative number, and is otherwise all digits. |
| Numbers.NatToString | src/cell2sentence4longevity_mcp/knockout.py:66 | The digits of a natural number denote it and have no leading zero. |
| Numbers.ParseInt | src/cell2sentence4longevity_mcp/cli.py:144 | `int(text)`: a value that is plain ASCII digits once stripped reads as its decimal value, and a negative result needs a leading '-'. |
| Numbers.ParseIntAccepts | src/cell2sentence4longevity_mcp/cli.py:144 | `int()` accepts only a text that, once stripped, is an optional sign, then a digit, then digits and underscores, ending in a digit; anything else (no digit, a letter, a decimal point, an inner space, a leading or trailing underscore) is refused. |
| Numbers.ExampleWordRefused | src/cell2sentence4longevity_mcp/cli.py:144 | `int("yes")` is refused. |
| Numbers.ExampleFractionRefused | src/cell2sentence4longevity_mcp/cli.py:144 | `int("1.5")` is refused. |
| Numbers.ParseIntToString | src/cell2sentence4longevity_mcp/cli.py:144 | `int(str(n)) == n` for every integer. |

## Left out

- The HTTP call, JSON encoding and decoding, and the 60-second timeout's effect: the service is the `Oracle` parameter, whose failures are the three kinds in `Failures`.
- Floating point: ages are exact reals, and `float()` of a match is its exact decimal value; `CsvRow` takes the rendering of a float as a parameter.
- `\d` is modelled as the ASCII digits; Python's `re` also matches the other Unicode decimal digits, which are left out. Whitespace is Python's full `str.isspace` set.
- Logging (eliot actions), the FastMCP registration, resources and transport, environment-variable configuration, and typer's option handling are not modelled; the defaults are constants.
- The file reading of the payload commands and the `ko` exit when the payload file is missing (cli.py:217-222) are left out; a payload is given as a record. Payload entries that are JSON null or of the wrong type are not modelled.
- The JSON and text output formats of the CLI are left out; only the CSV header and row are modelled.
- The `knockout` and `predict` CLI commands that take the sentence directly, `filter.py`, `extract_first_genes.py` and `vllm.py` are not part of this model.
- Cli.KnockoutFromPayload: the `if not genes` test after the first-token lookup is dead once a sentence was found, so its error is proved never to come out rather than modelled.
- Knockout.KnockoutPromptsAgree: the agreement of the code's removal with token removal is proved only for prompts whose sentence is single-spaced words, where no word starts or ends with the gene without being it and the fixed text does not contain it; outside those conditions only the general facts of `Prompt.RemoveGeneAsWritten` are stated, and `Prompt.FusesNeighbours` shows one way they differ.
- GeneRemoval.AsWrittenOnWords: when every word is the gene, the code's removal leaves one copy of it rather than the empty string; this case is stated, not corrected.
- Exception message texts are not modelled; each error is a `Failures.Error` constructor carrying the values its message would name.
- Numbers.ParseInt: only the ASCII digits are digits; Python's `int()` also accepts the other Unicode decimal digits (Arabic-Indic digits, for instance), which the model rejects as an invalid integer.

## Findings

The knockout itself follows the code: its second prompt is the as-written
removal. `Knockout.CorrectedPredictionPrompt` is the token-removal prompt, and
`Knockout.KnockoutPromptsAgree` proves the two equal on prompts whose sentence
words do not start or end with the gene without being it.

| source | as written | input that shows it | evidently intended | confidence | as-written member | corrected member |
|---|---|---|---|---|---|---|
| src/cell2sentence4longevity_mcp/knockout.py:83-87 | the gene is removed by plain substring replacement of `" g "`, `" g"` and `"g "`, so the pattern `" g"` also matches the start of a longer word `gB` | removing FOS from a prompt containing "JUN FOS FOSB" leaves "JUNB" | the gene is removed as a token ("JUN FOSB"), as the comment and the knockout sentence at knockout.py:178-179 do | high, not executed | Prompt.FusesNeighbours, Prompt.AsWrittenFusesNeighbours | Prompt.RemoveGene, Prompt.TokenRemovalKeeps, Knockout.KnockoutPromptWords |

=== FILE: age_parser.dfy ===
/**
 * Reading the predicted age out of a completion: the first match of the
 * regular expression `\d+\.?\d*`, converted to a number. The knockout path
 * fails when there is no match; the plain prediction path reports no age.
 */
module AgeParser {
  import opened Wrappers
  import opened Text
  import opened Numbers
  import opened Failures

  /** One match of `\d+\.?\d*` at `start`: the digits before the point and, when
      a point was matched, the (possibly empty) digits after it. */
  datatype NumberMatch = NumberMatch(start: nat, whole: string, fraction: Option<string>) {

    /** The matched text, as `re.findall` returns it. */
    function Matched(): string {
      whole + (if fraction.Some? then "." + fraction.value else "")
    }

    predicate WellFormed() {
      |whole| > 0 && AllDigits(whole) && (fraction.Some? ==> AllDigits(fraction.value))
    }
  }

  /** `m` is the leftmost match in `s`: no digit before it, and the greedy
      pattern could not have taken another character. */
  ghost predicate IsFirstNumber(s: string, m: NumberMatch) {
    && m.WellFormed()
    && OccursAt(s, m.Matched(), m.start)
    && NoDigit(s[..m.start])
    && var e := m.start + |m.Matched()|;
       e == |s| || (!IsDigit(s[e]) && (m.fraction.Some? || s[e] != '.'))
  }

  /** End of the run of digits starting at `i`. */
  function DigitRunEnd(s: string, i: nat): (e: nat)
    requires i <= |s|
    ensures i <= e <= |s|
    ensures forall k :: i <= k < e ==> IsDigit(s[k])
    ensures e == |s| || !IsDigit(s[e])
    decreases |s| - i
  {
    if i < |s| && IsDigit(s[i]) then DigitRunEnd(s, i + 1) else i
  }

  /** Position of the first digit at or after `i`. */
  function FirstDigitFrom(s: string, i: nat): (r: Option<nat>)
    requires i <= |s|
    ensures r.None? ==> forall k :: i <= k < |s| ==> !IsDigit(s[k])
    ensures r.Some? ==> i <= r.value < |s| && IsDigit(s[r.value])
    ensures r.Some? ==> forall k :: i <= k < r.value ==> !IsDigit(s[k])
    decreases |s| - i
  {
    if i == |s| then None
    else if IsDigit(s[i]) then Some(i)
    else FirstDigitFrom(s, i + 1)
  }

  /** `re.findall(r'\d+\.?\d*', s)[0]`, or `None` when the list is empty. */
  function FirstNumber(s: string): (r: Option<NumberMatch>)
    ensures r.None? <==> NoDigit(s)
    ensures r.Some? ==> IsFirstNumber(s, r.value)
  {
    match FirstDigitFrom(s, 0)
    case None => None
    case Some(i) =>
      var d := DigitRunEnd(s, i);
      assert NoDigit(s[..i]);
      assert AllDigits(s[i..d]) && |s[i..d]| > 0;
      if d < |s| && s[d] == '.' then
        var e := DigitRunEnd(s, d + 1);
        assert AllDigits(s[d + 1..e]);
        var m := NumberMatch(i, s[i..d], Some(s[d + 1..e]));
        assert s[i..e] == s[i..d] + "." + s[d + 1..e];
        assert m.Matched() == s[i..e];
        Some(m)
      else
        var m := NumberMatch(i, s[i..d], None);
        assert m.Matched() == s[i..d];
        Some(m)
  }

  lemma {:induction false} DigitsBelowPow10(s: string)
    requires AllDigits(s)
    ensures DigitsValue(s) < Pow10(|s|)
    decreases |s|
  {
    if |s| > 0 {
      DigitsBelowPow10(s[..|s| - 1]);
    }
  }

  /** The digits after the point contribute less than one. */
  lemma FractionBelowOne(f: string)
    requires AllDigits(f)
    ensures 0.0 <= (DigitsValue(f) as real) / (Pow10(|f|) as real) < 1.0
  {
    DigitsBelowPow10(f);
    RatioBelowOne(DigitsValue(f) as real, Pow10(|f|) as real);
  }

  lemma RatioBelowOne(a: real, b: real)
    requires 0.0 <= a < b
    ensures 0.0 <= a / b < 1.0
  {
    assert (a / b) * b == a;
  }

  /** `float(text)` of a match, computed exactly: the whole digits plus the
      fraction digits scaled down. */
  function Value(m: NumberMatch): (v: real)
    requires m.WellFormed()
    ensures DigitsValue(m.whole) as real <= v < DigitsValue(m.whole) as real + 1.0
    ensures m.fraction.None? ==> v == DigitsValue(m.whole) as real
  {
    var w := DigitsValue(m.whole) as real;
    match m.fraction
    case None => w
    case Some(f) =>
      FractionBelowOne(f);
      w + (DigitsValue(f) as real) / (Pow10(|f|) as real)
  }

  /** The exact value: the integer that all the matched digits spell
      together, scaled down by the width of the fraction. */
  lemma ValueExact(m: NumberMatch)
    requires m.WellFormed()
    ensures AllDigits(m.whole + m.fraction.GetOr(""))
    ensures Value(m) == (DigitsValue(m.whole + m.fraction.GetOr("")) as real) / (Pow10(|m.fraction.GetOr("")|) as real)
  {
    match m.fraction
    case None =>
      assert m.whole + "" == m.whole;
    case Some(f) =>
      ScaleBack(m.whole, f, Value(m));
  }

  lemma ScaleBack(whole: string, f: string, v: real)
    requires AllDigits(whole) && AllDigits(f)
    requires v == DigitsValue(whole) as real + (DigitsValue(f) as real) / (Pow10(|f|) as real)
    ensures AllDigits(whole + f)
    ensures v == (DigitsValue(whole + f) as real) / (Pow10(|f|) as real)
  {
    DigitsAppend(whole, f);
    ScaleNat(DigitsValue(whole), DigitsValue(f), Pow10(|f|), DigitsValue(whole + f), v);
  }

  /** A whole part `x` plus `y` scaled down by `p` is `x * p + y` scaled down
      by `p`. */
  lemma ScaleNat(x: nat, y: nat, p: nat, n: nat, v: real)
    requires p > 0 && n == x * p + y
    requires v == (x as real) + (y as real) / (p as real)
    ensures v == (n as real) / (p as real)
  {
    Rescale(x as real, y as real, p as real);
    CastProduct(x, p);
    Unscale(v, n as real, p as real);
  }

  lemma Unscale(v: real, n: real, p: real)
    requires p > 0.0 && v * p == n
    ensures v == n / p
  {
  }

  lemma Rescale(w: real, a: real, b: real)
    requires b > 0.0
    ensures (w + a / b) * b == w * b + a
  {
    assert (a / b) * b == a;
  }

  lemma CastProduct(x: nat, p: nat)
    ensures (x * p) as real == (x as real) * (p as real)
  {
  }

  /** A maximal digit run is the one `DigitRunEnd` finds. */
  lemma DigitRunEndUnique(s: string, i: nat, e: nat)
    requires i <= e <= |s|
    requires forall k :: i <= k < e ==> IsDigit(s[k])
    requires e == |s| || !IsDigit(s[e])
    ensures DigitRunEnd(s, i) == e
    decreases e - i
  {
    if i < e {
      DigitRunEndUnique(s, i + 1, e);
    }
  }

  /** The pieces of a match, read back from the text it occurs in. */
  lemma MatchPieces(s: string, m: NumberMatch)
    requires m.WellFormed() && OccursAt(s, m.Matched(), m.start)
    ensures m.start + |m.whole| <= |s| && s[m.start..m.start + |m.whole|] == m.whole
    ensures m.fraction.Some? ==>
      var d := m.start + |m.whole|;
      d + 1 + |m.fraction.value| <= |s| && s[d] == '.' &&
      s[d + 1..d + 1 + |m.fraction.value|] == m.fraction.value
  {
    var i, w, t := m.start, m.whole, m.Matched();
    var d := i + |w|;
    assert s[i..i + |t|] == t;
    assert s[i..d] == t[..|w|];
    if m.fraction.Some? {
      var f := m.fraction.value;
      assert t == w + "." + f;
      assert t[..|w|] == w;
      assert s[d] == t[|w|];
      assert s[d + 1..d + 1 + |f|] == t[|w| + 1..];
      assert t[|w| + 1..] == f;
    }
  }

  lemma DigitsInRange(s: string, i: nat, w: string)
    requires AllDigits(w) && i + |w| <= |s| && s[i..i + |w|] == w
    ensures forall k :: i <= k < i + |w| ==> IsDigit(s[k])
  {
    forall k | i <= k < i + |w| ensures IsDigit(s[k]) {
      assert s[k] == s[i..i + |w|][k - i];
    }
  }

  /** The leftmost greedy match is unique: `FirstNumber` finds exactly it. */
  lemma FirstNumberUnique(s: string, m: NumberMatch)
    requires IsFirstNumber(s, m)
    ensures FirstNumber(s) == Some(m)
  {
    var i, w := m.start, m.whole;
    var d := i + |w|;
    MatchPieces(s, m);
    DigitsInRange(s, i, w);
    FirstDigitAt(s, i);
    DigitRunEndUnique(s, i, d);
    if m.fraction.Some? {
      var f := m.fraction.value;
      FractionRunEnd(s, d, f);
      FoundWithFraction(s, i, d, d + 1 + |f|);
      assert m == NumberMatch(i, s[i..d], Some(s[d + 1..d + 1 + |f|]));
    } else {
      FoundWhole(s, m);
    }
  }

  lemma FoundWhole(s: string, m: NumberMatch)
    requires IsFirstNumber(s, m) && m.fraction.None?
    requires FirstDigitFrom(s, 0) == Some(m.start)
    requires DigitRunEnd(s, m.start) == m.start + |m.whole|
    requires s[m.start..m.start + |m.whole|] == m.whole
    ensures FirstNumber(s) == Some(m)
  {
    var d := m.start + |m.whole|;
    assert m.Matched() == m.whole;
    assert !(d < |s| && s[d] == '.');
  }

  lemma FoundWithFraction(s: string, i: nat, d: nat, e: nat)
    requires FirstDigitFrom(s, 0) == Some(i)
    requires i <= d < |s| && DigitRunEnd(s, i) == d && s[d] == '.'
    requires d + 1 <= e <= |s| && DigitRunEnd(s, d + 1) == e
    ensures FirstNumber(s) == Some(NumberMatch(i, s[i..d], Some(s[d + 1..e])))
  {
  }

  /** The first digit of a text is the one with no digit before it. */
  lemma FirstDigitAt(s: string, i: nat)
    requires i < |s| && IsDigit(s[i]) && NoDigit(s[..i])
    ensures FirstDigitFrom(s, 0) == Some(i)
  {
    var first := FirstDigitFrom(s, 0);
    assert first.value <= i;
    forall k | 0 <= k < i ensures !IsDigit(s[k]) {
      assert s[..i][k] == s[k];
    }
  }

  lemma FractionRunEnd(s: string, d: nat, f: string)
    requires AllDigits(f) && d + 1 + |f| <= |s| && s[d + 1..d + 1 + |f|] == f
    requires d + 1 + |f| == |s| || !IsDigit(s[d + 1 + |f|])
    ensures DigitRunEnd(s, d + 1) == d + 1 + |f|
  {
    DigitsInRange(s, d + 1, f);
    DigitRunEndUnique(s, d + 1, d + 1 + |f|);
  }

  /** The strict parse of the knockout path: the first number, or a failure
      carrying the response when there is none. */
  function ParseAgeStrict(raw: string): (r: Result<real, Error>)
    ensures r.Failure? <==> NoDigit(raw)
    ensures r.Failure? ==> r.error == Unparseable(raw)
    ensures r.Success? ==> r.value >= 0.0
    ensures forall m :: IsFirstNumber(raw, m) ==> r == Success(Value(m))
  {
    UniqueMatches(raw);
    match FirstNumber(raw)
    case None => Failure(Unparseable(raw))
    case Some(m) => Success(Value(m))
  }

  /** The lenient parse of `predict_age`: the first number, or no age. */
  function ParseAgeLenient(raw: string): (r: Option<real>)
    ensures r.None? <==> NoDigit(raw)
    ensures r.Some? ==> r.value >= 0.0
    ensures forall m :: IsFirstNumber(raw, m) ==> r == Some(Value(m))
  {
    UniqueMatches(raw);
    match FirstNumber(raw)
    case None => None
    case Some(m) => Some(Value(m))
  }

  lemma UniqueMatches(s: string)
    ensures forall m :: IsFirstNumber(s, m) ==> FirstNumber(s) == Some(m)
  {
    forall m | IsFirstNumber(s, m) ensures FirstNumber(s) == Some(m) {
      FirstNumberUnique(s, m);
    }
  }

  /** The two parses agree: the lenient one is `None` exactly where the strict
      one fails, and otherwise holds the same age. */
  lemma LenientMatchesStrict(raw: string)
    ensures ParseAgeLenient(raw).None? <==> ParseAgeStrict(raw).Failure?
    ensures ParseAgeStrict(raw).Success? ==> ParseAgeLenient(raw) == Some(ParseAgeStrict(raw).value)
  {
  }

  // Worked examples

  lemma ExampleDecimal()
    ensures ParseAgeStrict("Age: 42.5 years") == Success(42.5)
  {
    var s := "Age: 42.5 years";
    var m := NumberMatch(5, "42", Some("5"));
    assert m.Matched() == "42.5";
    assert s[5..9] == "42.5";
    assert s[..5] == "Age: ";
    assert IsFirstNumber(s, m);
    assert DigitsValue("42") == 42 by {
      assert "42"[..1] == "4";
    }
    assert Value(m) == 42.5;
  }

  lemma ExampleInteger()
    ensures ParseAgeStrict("7") == Success(7.0)
  {
    var m := NumberMatch(0, "7", None);
    assert m.Matched() == "7";
    assert IsFirstNumber("7", m);
  }

  /** A leading minus sign is not part of the match: the age is a magnitude. */
  lemma ExampleMinusIgnored()
    ensures ParseAgeStrict("-5") == Success(5.0)
  {
    var s := "-5";
    var m := NumberMatch(1, "5", None);
    assert m.Matched() == "5";
    assert s[1..2] == "5";
    assert IsFirstNumber(s, m);
  }

  lemma ExampleBareReply()
    ensures ParseAgeStrict(Strip("45")) == Success(45.0)
  {
    assert Trimmed("45");
    StripTrimmed("45");
    ExampleBareInteger();
  }

  lemma ExampleBareInteger()
    ensures ParseAgeStrict("45") == Success(45.0)
  {
    var m := NumberMatch(0, "45", None);
    assert m.Matched() == "45";
    assert "45"[0..2] == "45";
    assert IsFirstNumber("45", m);
    assert DigitsValue("45") == 45 by {
      assert "45"[..1] == "4";
    }
  }

  lemma ExamplePaddedReply()
    ensures ParseAgeStrict(Strip(" 43.5\n")) == Success(43.5)
  {
    ExampleStripReply();
    ExampleBareDecimal();
  }

  lemma ExampleStripReply()
    ensures Strip(" 43.5\n") == "43.5"
  {
    assert " 43.5\n"[1..5] == "43.5";
    assert " 43.5\n"[..1] == " " && " 43.5\n"[5..] == "\n";
    StripPadded(" 43.5\n", "43.5", 1);
  }

  lemma ExampleBareDecimal()
    ensures ParseAgeStrict("43.5") == Success(43.5)
  {
    var m := NumberMatch(0, "43", Some("5"));
    assert m.Matched() == "43.5";
    assert "43.5"[0..4] == "43.5";
    assert IsFirstNumber("43.5", m);
    assert DigitsValue("43") == 43 by {
      assert "43"[..1] == "4";
    }
    assert Value(m) == 43.5;
  }
}

=== FILE: cli.dfy ===
/**
 * The command-line knockout commands that start from a saved completion
 * payload: reading the metadata and the cell sentence back out of the payload's
 * prompt, choosing the gene and the model, and the CSV report.
 */
module Cli {
  import opened Wrappers
  import opened Text
  import opened Numbers
  import opened Failures
  import opened Inference
  import opened Prompt
  import opened Knockout

  /** What the prompt parser recovers: the metadata and the cell sentence. */
  datatype PromptFields = PromptFields(meta: Metadata, sentence: string)

  const NoFields := PromptFields(NoMetadata, "")

  /** A line label: non-empty, ending in its only ':'. */
  predicate IsTag(tag: string) {
    |tag| > 0 && !IsSpace(tag[0]) && tag[|tag| - 1] == ':' && ':' !in tag[..|tag| - 1]
  }

  lemma {:induction false} TagsAreTags()
    ensures IsTag(SexTag) && IsTag(SmokingTag) && IsTag(TissueTag) && IsTag(CellTypeTag)
    ensures IsTag(SentenceTag)
  {
    assert SexTag[..3] == "Sex";
    assert SmokingTag[..14] == "Smoking status";
    assert TissueTag[..6] == "Tissue";
    assert CellTypeTag[..9] == "Cell type";
    assert SentenceTag[..27] == "Aging related " + "cell sentence";
  }

  /** `line.split(":", 1)[1].strip()` for a line that starts with a tag: the
      text after the tag, stripped. */
  function FieldValue(line: string, tag: string): (v: string)
    requires StartsWith(line, tag) && IsTag(tag)
    ensures v == Strip(line[|tag|..])
  {
    AfterLabel(line, tag, ':');
    Strip(AfterFirst(line, ':'))
  }

  /** The value a raw line gives the field labelled `tag`: the stripped text
      after the tag when the stripped line starts with it. */
  function LabelValue(raw: string, tag: string): Option<string> {
    var line := Strip(raw);
    if StartsWith(line, tag) then Some(Strip(line[|tag|..])) else None
  }

  /** A smoking line whose value `int()` rejects. */
  predicate BadSmoking(raw: string) {
    LabelValue(raw, SmokingTag).Some? && ParseInt(LabelValue(raw, SmokingTag).value).None?
  }

  /** The value of the last line among `lines` labelled `tag`, if any. */
  function Latest(lines: seq<string>, tag: string): Option<string>
    decreases |lines|
  {
    if |lines| == 0 then None
    else
      var later := Latest(lines[1..], tag);
      if later.Some? then later else LabelValue(lines[0], tag)
  }

  /** `later` when it is present, else `current`. */
  function Override<T>(later: Option<T>, current: Option<T>): Option<T> {
    if later.Some? then later else current
  }

  /** Every text field read from a prompt is stripped. */
  predicate FieldsTrimmed(f: PromptFields) {
    && Trimmed(f.sentence)
    && (f.meta.sex.Some? ==> Trimmed(f.meta.sex.value))
    && (f.meta.tissue.Some? ==> Trimmed(f.meta.tissue.value))
    && (f.meta.cellType.Some? ==> Trimmed(f.meta.cellType.value))
  }

  /** One step of the loop over the prompt's lines: the stripped line is compared
      against the tags in order and the first match sets its field; a line
      matching none leaves the fields alone. A smoking value `int()` rejects is
      an error. */
  function ParseLine(f: PromptFields, raw: string): (r: Result<PromptFields, Error>)
    ensures FieldsTrimmed(f) && r.Success? ==> FieldsTrimmed(r.value)
    ensures r.Failure? ==> r.error.InvalidInt?
  {
    var line := Strip(raw);
    TagsAreTags();
    if StartsWith(line, SexTag) then
      Success(f.(meta := f.meta.(sex := Some(FieldValue(line, SexTag)))))
    else if StartsWith(line, SmokingTag) then
      var text := FieldValue(line, SmokingTag);
      match ParseInt(text)
      case None => Failure(InvalidInt(text))
      case Some(n) => Success(f.(meta := f.meta.(smokingStatus := Some(n))))
    else if StartsWith(line, TissueTag) then
      Success(f.(meta := f.meta.(tissue := Some(FieldValue(line, TissueTag)))))
    else if StartsWith(line, CellTypeTag) then
      Success(f.(meta := f.meta.(cellType := Some(FieldValue(line, CellTypeTag)))))
    else if StartsWith(line, SentenceTag) then
      Success(f.(sentence := FieldValue(line, SentenceTag)))
    else Success(f)
  }

  lemma StepSex(f: PromptFields, raw: string)
    requires LabelValue(raw, SexTag).Some?
    ensures ParseLine(f, raw) == Success(f.(meta := f.meta.(sex := LabelValue(raw, SexTag))))
  {
    TagsAreTags();
  }

  lemma StepSmoking(f: PromptFields, raw: string)
    requires LabelValue(raw, SmokingTag).Some?
    ensures ParseLine(f, raw).Failure? <==> ParseInt(LabelValue(raw, SmokingTag).value).None?
    ensures ParseLine(f, raw).Failure? ==> ParseLine(f, raw).error == InvalidInt(LabelValue(raw, SmokingTag).value)
    ensures ParseLine(f, raw).Success? ==>
              ParseLine(f, raw).value == f.(meta := f.meta.(smokingStatus := ParseInt(LabelValue(raw, SmokingTag).value)))
  {
    var line := Strip(raw);
    var v := LabelValue(raw, SmokingTag).value;
    TagsAreTags();
    TagsExclusive(line);
    assert !StartsWith(line, SexTag);
    assert FieldValue(line, SmokingTag) == v;
    match ParseInt(v)
    case None =>
    case Some(n) =>
  }

  lemma StepTissue(f: PromptFields, raw: string)
    requires LabelValue(raw, TissueTag).Some?
    ensures ParseLine(f, raw) == Success(f.(meta := f.meta.(tissue := LabelValue(raw, TissueTag))))
  {
    TagsAreTags();
    TagsExclusive(Strip(raw));
  }

  lemma StepCellType(f: PromptFields, raw: string)
    requires LabelValue(raw, CellTypeTag).Some?
    ensures ParseLine(f, raw) == Success(f.(meta := f.meta.(cellType := LabelValue(raw, CellTypeTag))))
  {
    TagsAreTags();
    TagsExclusive(Strip(raw));
  }

  lemma StepSentence(f: PromptFields, raw: string)
    requires LabelValue(raw, SentenceTag).Some?
    ensures ParseLine(f, raw) == Success(f.(sentence := LabelValue(raw, SentenceTag).value))
  {
    TagsAreTags();
    TagsExclusive(Strip(raw));
  }

  /** A line with none of the tags changes nothing. */
  lemma StepUnlabelled(f: PromptFields, raw: string)
    requires LabelValue(raw, SexTag).None? && LabelValue(raw, SmokingTag).None?
    requires LabelValue(raw, TissueTag).None? && LabelValue(raw, CellTypeTag).None?
    requires LabelValue(raw, SentenceTag).None?
    ensures ParseLine(f, raw) == Success(f)
  {
  }

  /** A line fails exactly when it is a smoking line `int()` rejects. */
  lemma StepFails(f: PromptFields, raw: string)
    ensures ParseLine(f, raw).Failure? <==> BadSmoking(raw)
  {
    if LabelValue(raw, SexTag).Some? {
      StepSex(f, raw);
      TagsAreTags();
      TagsExclusive(Strip(raw));
    } else if LabelValue(raw, SmokingTag).Some? {
      StepSmoking(f, raw);
    } else if LabelValue(raw, TissueTag).Some? {
      StepTissue(f, raw);
    } else if LabelValue(raw, CellTypeTag).Some? {
      StepCellType(f, raw);
    } else if LabelValue(raw, SentenceTag).Some? {
      StepSentence(f, raw);
    } else {
      StepUnlabelled(f, raw);
    }
  }

  /** The loop over the lines, stopping at the first error. */
  function ParseLines(f: PromptFields, lines: seq<string>): (r: Result<PromptFields, Error>)
    ensures FieldsTrimmed(f) && r.Success? ==> FieldsTrimmed(r.value)
    ensures r.Failure? ==> r.error.InvalidInt?
    decreases |lines|
  {
    if |lines| == 0 then Success(f)
    else
      var g :- ParseLine(f, lines[0]);
      ParseLines(g, lines[1..])
  }

  /** How a successful step changes each field: a field whose tag labels the
      line takes the line's value, every other field keeps its value. */
  lemma StepFields(f: PromptFields, raw: string)
    requires ParseLine(f, raw).Success?
    ensures ParseLine(f, raw).value.meta.sex == Override(LabelValue(raw, SexTag), f.meta.sex)
    ensures ParseLine(f, raw).value.meta.smokingStatus
              == if LabelValue(raw, SmokingTag).Some? then ParseInt(LabelValue(raw, SmokingTag).value)
                 else f.meta.smokingStatus
    ensures ParseLine(f, raw).value.meta.tissue == Override(LabelValue(raw, TissueTag), f.meta.tissue)
    ensures ParseLine(f, raw).value.meta.cellType == Override(LabelValue(raw, CellTypeTag), f.meta.cellType)
    ensures ParseLine(f, raw).value.sentence == LabelValue(raw, SentenceTag).GetOr(f.sentence)
  {
    TagsAreTags();
    TagsExclusive(Strip(raw));
    if LabelValue(raw, SexTag).Some? {
      StepSex(f, raw);
    } else if LabelValue(raw, SmokingTag).Some? {
      StepSmoking(f, raw);
    } else if LabelValue(raw, TissueTag).Some? {
      StepTissue(f, raw);
    } else if LabelValue(raw, CellTypeTag).Some? {
      StepCellType(f, raw);
    } else if LabelValue(raw, SentenceTag).Some? {
      StepSentence(f, raw);
    } else {
      StepUnlabelled(f, raw);
    }
  }

  /** The loop fails exactly when some smoking value is not an integer. */
  lemma {:induction false} ParseLinesFails(f: PromptFields, lines: seq<string>)
    ensures ParseLines(f, lines).Failure? <==> exists i :: 0 <= i < |lines| && BadSmoking(lines[i])
    decreases |lines|
  {
    if |lines| > 0 {
      var rest := lines[1..];
      StepFails(f, lines[0]);
      BadSmokingStep(lines);
      match ParseLine(f, lines[0])
      case Failure(_) =>
        assert BadSmoking(lines[0]);
      case Success(g) =>
        ParseLinesStep(f, lines);
        ParseLinesFails(g, rest);
    }
  }

  lemma BadSmokingStep(lines: seq<string>)
    requires |lines| > 0
    ensures (exists i :: 0 <= i < |lines| && BadSmoking(lines[i]))
        <==> BadSmoking(lines[0]) || exists i :: 0 <= i < |lines[1..]| && BadSmoking(lines[1..][i])
  {
    var rest := lines[1..];
    if exists i :: 0 <= i < |rest| && BadSmoking(rest[i]) {
      var i :| 0 <= i < |rest| && BadSmoking(rest[i]);
      assert BadSmoking(lines[i + 1]);
    }
    if exists i :: 0 <= i < |lines| && BadSmoking(lines[i]) {
      var i :| 0 <= i < |lines| && BadSmoking(lines[i]);
      if i > 0 {
        assert BadSmoking(rest[i - 1]);
      }
    }
  }

  /** A successful loop leaves each field holding the value of the last line
      labelled with its tag, or its old value when no line is. */
  lemma {:induction false} ParseLinesLatest(f: PromptFields, lines: seq<string>)
    requires ParseLines(f, lines).Success?
    ensures ParseLines(f, lines).value.meta.sex == Override(Latest(lines, SexTag), f.meta.sex)
    ensures ParseLines(f, lines).value.meta.smokingStatus
              == if Latest(lines, SmokingTag).Some? then ParseInt(Latest(lines, SmokingTag).value)
                 else f.meta.smokingStatus
    ensures ParseLines(f, lines).value.meta.tissue == Override(Latest(lines, TissueTag), f.meta.tissue)
    ensures ParseLines(f, lines).value.meta.cellType == Override(Latest(lines, CellTypeTag), f.meta.cellType)
    ensures ParseLines(f, lines).value.sentence == Latest(lines, SentenceTag).GetOr(f.sentence)
    decreases |lines|
  {
    if |lines| > 0 {
      var g := ParseLine(f, lines[0]).value;
      ParseLinesStep(f, lines);
      ParseLinesLatest(g, lines[1..]);
      ReadsLatestStep(f, lines, g, ParseLines(f, lines).value);
    }
  }

  /** `r` holds, field by field, the value of the last line labelled with the
      field's tag, or `f`'s value when no line is. */
  predicate ReadsLatest(f: PromptFields, lines: seq<string>, r: PromptFields) {
    && r.meta.sex == Override(Latest(lines, SexTag), f.meta.sex)
    && r.meta.smokingStatus
         == (if Latest(lines, SmokingTag).Some? then ParseInt(Latest(lines, SmokingTag).value)
             else f.meta.smokingStatus)
    && r.meta.tissue == Override(Latest(lines, TissueTag), f.meta.tissue)
    && r.meta.cellType == Override(Latest(lines, CellTypeTag), f.meta.cellType)
    && r.sentence == Latest(lines, SentenceTag).GetOr(f.sentence)
  }

  lemma ReadsLatestStep(f: PromptFields, lines: seq<string>, g: PromptFields, r: PromptFields)
    requires |lines| > 0 && ParseLine(f, lines[0]) == Success(g)
    requires ReadsLatest(g, lines[1..], r)
    ensures ReadsLatest(f, lines, r)
  {
    StepFields(f, lines[0]);
    LatestStep(lines, SexTag);
    LatestStep(lines, SmokingTag);
    LatestStep(lines, TissueTag);
    LatestStep(lines, CellTypeTag);
    LatestStep(lines, SentenceTag);
  }

  lemma ParseLinesStep(f: PromptFields, lines: seq<string>)
    requires |lines| > 0 && ParseLine(f, lines[0]).Success?
    ensures ParseLines(f, lines) == ParseLines(ParseLine(f, lines[0]).value, lines[1..])
  {
  }

  lemma LatestStep(lines: seq<string>, tag: string)
    requires |lines| > 0
    ensures Latest(lines, tag) == Override(Latest(lines[1..], tag), LabelValue(lines[0], tag))
  {
  }

  /** Reading a payload prompt: its fields, or an error when a smoking value is
      not an integer or no non-empty sentence line was found. */
  function ParsePrompt(prompt: string): (r: Result<PromptFields, Error>)
    ensures r.Success? ==> FieldsTrimmed(r.value) && |r.value.sentence| > 0
    ensures r.Failure? ==> r.error == MissingSentence || r.error.InvalidInt?
  {
    var f :- ParseLines(NoFields, SplitOn(prompt, '\n'));
    if |f.sentence| == 0 then Failure(MissingSentence) else Success(f)
  }

  /** The prompt reader, field by field: each field is the value of the last
      line of the prompt that carries its tag; a smoking value that is not an
      integer is an error, and otherwise a missing or empty sentence is. */
  lemma ParsePromptLatest(prompt: string)
    ensures var lines := SplitOn(prompt, '\n');
      (exists i :: 0 <= i < |lines| && BadSmoking(lines[i])) ==>
        ParsePrompt(prompt).Failure? && ParsePrompt(prompt).error.InvalidInt?
    ensures var lines := SplitOn(prompt, '\n');
      ParsePrompt(prompt) == Failure(MissingSentence) <==>
        && (forall i :: 0 <= i < |lines| ==> !BadSmoking(lines[i]))
        && |Latest(lines, SentenceTag).GetOr("")| == 0
    ensures var lines := SplitOn(prompt, '\n');
      ParsePrompt(prompt).Success? ==>
        && ParsePrompt(prompt).value.sentence == Latest(lines, SentenceTag).GetOr("")
        && ParsePrompt(prompt).value.meta == Metadata(
             Latest(lines, SexTag),
             if Latest(lines, SmokingTag).Some? then ParseInt(Latest(lines, SmokingTag).value) else None,
             Latest(lines, TissueTag),
             Latest(lines, CellTypeTag))
  {
    ParsePromptFails(prompt);
    ParsePromptFields(prompt);
  }

  lemma ParsePromptFails(prompt: string)
    ensures var lines := SplitOn(prompt, '\n');
      (exists i :: 0 <= i < |lines| && BadSmoking(lines[i])) ==>
        ParsePrompt(prompt).Failure? && ParsePrompt(prompt).error.InvalidInt?
    ensures var lines := SplitOn(prompt, '\n');
      ParsePrompt(prompt) == Failure(MissingSentence) <==>
        && (forall i :: 0 <= i < |lines| ==> !BadSmoking(lines[i]))
        && |Latest(lines, SentenceTag).GetOr("")| == 0
  {
    var lines := SplitOn(prompt, '\n');
    ParseLinesFails(NoFields, lines);
    if ParseLines(NoFields, lines).Success? {
      ParseLinesLatest(NoFields, lines);
    }
  }

  lemma ParsePromptFields(prompt: string)
    ensures var lines := SplitOn(prompt, '\n');
      ParsePrompt(prompt).Success? ==>
        && ParsePrompt(prompt).value.sentence == Latest(lines, SentenceTag).GetOr("")
        && ParsePrompt(prompt).value.meta == Metadata(
             Latest(lines, SexTag),
             if Latest(lines, SmokingTag).Some? then ParseInt(Latest(lines, SmokingTag).value) else None,
             Latest(lines, TissueTag),
             Latest(lines, CellTypeTag))
  {
    var lines := SplitOn(prompt, '\n');
    var read := ParseLines(NoFields, lines);
    ParsePromptRead(prompt);
    if read.Success? {
      ParseLinesLatest(NoFields, lines);
      NoFieldsLatest(read.value, lines);
    }
  }

  /** A prompt that reads successfully has the fields its lines give. */
  lemma ParsePromptRead(prompt: string)
    ensures ParsePrompt(prompt).Success? ==>
      ParseLines(NoFields, SplitOn(prompt, '\n')) == Success(ParsePrompt(prompt).value)
  {
  }

  /** The reader starts from no fields, so an unlabelled field stays absent. */
  lemma NoFieldsLatest(r: PromptFields, lines: seq<string>)
    requires r.meta.sex == Override(Latest(lines, SexTag), NoFields.meta.sex)
    requires r.meta.smokingStatus
               == if Latest(lines, SmokingTag).Some? then ParseInt(Latest(lines, SmokingTag).value)
                  else NoFields.meta.smokingStatus
    requires r.meta.tissue == Override(Latest(lines, TissueTag), NoFields.meta.tissue)
    requires r.meta.cellType == Override(Latest(lines, CellTypeTag), NoFields.meta.cellType)
    requires r.sentence == Latest(lines, SentenceTag).GetOr(NoFields.sentence)
    ensures r.sentence == Latest(lines, SentenceTag).GetOr("")
    ensures r.meta == Metadata(Latest(lines, SexTag),
                               if Latest(lines, SmokingTag).Some? then ParseInt(Latest(lines, SmokingTag).value) else None,
                               Latest(lines, TissueTag), Latest(lines, CellTypeTag))
  {
  }

  lemma {:induction false} ParseLinesAppend(f: PromptFields, a: seq<string>, b: seq<string>)
    ensures ParseLines(f, a + b) == (match ParseLines(f, a)
                                     case Success(g) => ParseLines(g, b)
                                     case Failure(e) => Failure(e))
    decreases |a|
  {
    if |a| == 0 {
      assert a + b == b;
    } else {
      assert (a + b)[0] == a[0];
      assert (a + b)[1..] == a[1..] + b;
      match ParseLine(f, a[0])
      case Failure(_) =>
      case Success(g) =>
        ParseLinesAppend(g, a[1..], b);
    }
  }

  // ---------------------------------------------------------------------------
  // Reading back the lines the prompt builder writes

  lemma NotStartsWith(s: string, p: string, i: nat)
    requires i < |s| && i < |p| && s[i] != p[i]
    ensures !StartsWith(s, p)
  {
    if |p| <= |s| {
      assert s[..|p|][i] == s[i];
    }
  }

  /** A stripped value after one space strips back to itself. */
  lemma {:induction false} StripAfterSpace(v: string)
    requires Trimmed(v)
    ensures Strip(" " + v) == v
  {
    var s := " " + v;
    assert s[1..1 + |v|] == v;
    assert s[..1] == " ";
    assert s[1 + |v|..] == [];
    StripPadded(s, v, 1);
  }

  /** A labelled line with a stripped, non-empty value reads back as that value. */
  lemma {:induction false} ReadLabelled(tag: string, v: string)
    requires IsTag(tag) && |v| > 0 && Trimmed(v)
    ensures var line := Line(tag, v);
      && Strip(line) == line
      && StartsWith(line, tag)
      && FieldValue(line, tag) == v
  {
    var line := Line(tag, v);
    assert line == tag + (" " + v);
    assert line[0] == tag[0];
    assert line[|line| - 1] == v[|v| - 1];
    StripTrimmed(line);
    assert line[..|tag|] == tag;
    AfterLabel(line, tag, ':');
    assert line[|tag|..] == " " + v;
    StripAfterSpace(v);
  }

  /** A stripped line that carries none of the five labels changes nothing. */
  predicate Unlabelled(line: string) {
    && !StartsWith(line, SexTag) && !StartsWith(line, SmokingTag) && !StartsWith(line, TissueTag)
    && !StartsWith(line, CellTypeTag) && !StartsWith(line, SentenceTag)
  }

  lemma UnlabelledIgnored(f: PromptFields, line: string)
    requires Trimmed(line) && Unlabelled(line)
    ensures ParseLine(f, line) == Success(f)
  {
    StripTrimmed(line);
  }

  lemma HeaderIgnored(f: PromptFields)
    ensures ParseLine(f, Header) == Success(f)
  {
    assert Header[0] == 'T' && Header[1] == 'h' && Header[|Header| - 1] == '.';
    NotStartsWith(Header, SexTag, 0);
    NotStartsWith(Header, SmokingTag, 0);
    NotStartsWith(Header, TissueTag, 1);
    NotStartsWith(Header, CellTypeTag, 0);
    NotStartsWith(Header, SentenceTag, 0);
    UnlabelledIgnored(f, Header);
  }

  lemma BlankIgnored(f: PromptFields)
    ensures ParseLine(f, "") == Success(f)
  {
    UnlabelledIgnored(f, "");
  }

  lemma PredictLineIgnored(f: PromptFields)
    ensures ParseLine(f, PredictLine) == Success(f)
  {
    assert PredictLine[0] == 'P' && PredictLine[|PredictLine| - 1] == '.';
    NotStartsWith(PredictLine, SexTag, 0);
    NotStartsWith(PredictLine, SmokingTag, 0);
    NotStartsWith(PredictLine, TissueTag, 0);
    NotStartsWith(PredictLine, CellTypeTag, 0);
    NotStartsWith(PredictLine, SentenceTag, 0);
    UnlabelledIgnored(f, PredictLine);
  }

  lemma AnswerLineIgnored(f: PromptFields)
    ensures ParseLine(f, AnswerLine) == Success(f)
  {
    assert AnswerLine[0] == 'A' && AnswerLine[1] == 'n' && AnswerLine[|AnswerLine| - 1] == ':';
    NotStartsWith(AnswerLine, SexTag, 0);
    NotStartsWith(AnswerLine, SmokingTag, 0);
    NotStartsWith(AnswerLine, TissueTag, 0);
    NotStartsWith(AnswerLine, CellTypeTag, 0);
    NotStartsWith(AnswerLine, SentenceTag, 1);
    UnlabelledIgnored(f, AnswerLine);
  }

  /** The fold over a single line is that line's step. */
  lemma SingleLine(f: PromptFields, line: string)
    ensures ParseLines(f, [line]) == ParseLine(f, line)
  {
    assert [line][1..] == [];
  }

  /** Two lines that each leave the fields alone leave them alone together. */
  lemma {:induction false} TwoLinesIgnored(f: PromptFields, a: string, b: string)
    requires ParseLine(f, a) == Success(f) && ParseLine(f, b) == Success(f)
    ensures ParseLines(f, [a, b]) == Success(f)
  {
    assert [a, b][1..] == [b];
    SingleLine(f, b);
  }

  lemma InstructionsIgnored(f: PromptFields)
    ensures ParseLines(f, [PredictLine, AnswerLine]) == Success(f)
  {
    PredictLineIgnored(f);
    AnswerLineIgnored(f);
    TwoLinesIgnored(f, PredictLine, AnswerLine);
  }

  /** The header and the blank line after it leave the fields alone. */
  lemma PreambleIgnored(f: PromptFields)
    ensures ParseLines(f, [Header, ""]) == Success(f)
  {
    HeaderIgnored(f);
    BlankIgnored(f);
    TwoLinesIgnored(f, Header, "");
  }

  /** `m` with the text fields a prompt cannot carry (absent or empty) set to
      absent: what reading a built prompt back can recover. */
  function Normalised(m: Metadata): Metadata {
    Metadata(
      if Given(m.sex) then m.sex else None,
      m.smokingStatus,
      if Given(m.tissue) then m.tissue else None,
      if Given(m.cellType) then m.cellType else None)
  }

  predicate MetadataTrimmed(m: Metadata) {
    && (m.sex.Some? ==> Trimmed(m.sex.value))
    && (m.tissue.Some? ==> Trimmed(m.tissue.value))
    && (m.cellType.Some? ==> Trimmed(m.cellType.value))
  }

  lemma SexLineRead(f: PromptFields, v: Option<string>)
    requires v.Some? ==> Trimmed(v.value)
    ensures ParseLines(f, TextLine(SexTag, v)) == Success(if Given(v) then f.(meta := f.meta.(sex := v)) else f)
  {
    if Given(v) {
      TagsAreTags();
      ReadLabelled(SexTag, v.value);
      SingleLine(f, Line(SexTag, v.value));
    }
  }

  /** No line starts with two different labels. */
  lemma {:induction false} TagsExclusive(line: string)
    ensures StartsWith(line, SmokingTag) ==> !StartsWith(line, SexTag)
    ensures StartsWith(line, TissueTag) ==> !StartsWith(line, SexTag) && !StartsWith(line, SmokingTag)
    ensures StartsWith(line, CellTypeTag) ==>
      !StartsWith(line, SexTag) && !StartsWith(line, SmokingTag) && !StartsWith(line, TissueTag)
    ensures StartsWith(line, SentenceTag) ==>
      !StartsWith(line, SexTag) && !StartsWith(line, SmokingTag) && !StartsWith(line, TissueTag)
      && !StartsWith(line, CellTypeTag)
  {
    if StartsWith(line, SmokingTag) {
      assert line[1] == SmokingTag[1] == 'm';
      NotStartsWith(line, SexTag, 1);
    }
    if StartsWith(line, TissueTag) {
      assert line[0] == TissueTag[0] == 'T';
      NotStartsWith(line, SexTag, 0);
      NotStartsWith(line, SmokingTag, 0);
    }
    if StartsWith(line, CellTypeTag) {
      assert line[0] == CellTypeTag[0] == 'C';
      NotStartsWith(line, SexTag, 0);
      NotStartsWith(line, SmokingTag, 0);
      NotStartsWith(line, TissueTag, 0);
    }
    if StartsWith(line, SentenceTag) {
      assert line[0] == SentenceTag[0] == 'A';
      NotStartsWith(line, SexTag, 0);
      NotStartsWith(line, SmokingTag, 0);
      NotStartsWith(line, TissueTag, 0);
      NotStartsWith(line, CellTypeTag, 0);
    }
  }

  /** The smoking line's step: `int()` reads back the number `str()` wrote. */
  lemma SmokingStep(f: PromptFields, n: int)
    ensures ParseLine(f, Line(SmokingTag, IntToString(n))) == Success(f.(meta := f.meta.(smokingStatus := Some(n))))
  {
    TagsAreTags();
    var digits := IntToString(n);
    assert !IsSpace(digits[0]) && !IsSpace(digits[|digits| - 1]);
    ReadLabelled(SmokingTag, digits);
    TagsExclusive(Line(SmokingTag, digits));
    ParseIntToString(n);
  }

  lemma SmokingLineRead(f: PromptFields, v: Option<int>)
    ensures ParseLines(f, SmokingLine(v)) == Success(if v.Some? then f.(meta := f.meta.(smokingStatus := v)) else f)
  {
    if v.Some? {
      SmokingStep(f, v.value);
      SingleLine(f, Line(SmokingTag, IntToString(v.value)));
    }
  }

  lemma TissueLineRead(f: PromptFields, v: Option<string>)
    requires v.Some? ==> Trimmed(v.value)
    ensures ParseLines(f, TextLine(TissueTag, v)) == Success(if Given(v) then f.(meta := f.meta.(tissue := v)) else f)
  {
    if Given(v) {
      TagsAreTags();
      ReadLabelled(TissueTag, v.value);
      var line := Line(TissueTag, v.value);
      TagsExclusive(line);
      SingleLine(f, line);
    }
  }

  lemma CellTypeLineRead(f: PromptFields, v: Option<string>)
    requires v.Some? ==> Trimmed(v.value)
    ensures ParseLines(f, TextLine(CellTypeTag, v)) == Success(if Given(v) then f.(meta := f.meta.(cellType := v)) else f)
  {
    if Given(v) {
      TagsAreTags();
      ReadLabelled(CellTypeTag, v.value);
      var line := Line(CellTypeTag, v.value);
      TagsExclusive(line);
      SingleLine(f, line);
    }
  }

  lemma SentenceLineRead(f: PromptFields, s: string)
    requires |s| > 0 && Trimmed(s)
    ensures ParseLines(f, [Line(SentenceTag, s)]) == Success(f.(sentence := s))
  {
    TagsAreTags();
    ReadLabelled(SentenceTag, s);
    var line := Line(SentenceTag, s);
    TagsExclusive(line);
    SingleLine(f, line);
  }

  lemma {:induction false} MetadataLinesRead(f: PromptFields, m: Metadata)
    requires MetadataTrimmed(m)
    ensures ParseLines(f, MetadataLines(m)) == Success(f.(meta := Metadata(
      if Given(m.sex) then m.sex else f.meta.sex,
      if m.smokingStatus.Some? then m.smokingStatus else f.meta.smokingStatus,
      if Given(m.tissue) then m.tissue else f.meta.tissue,
      if Given(m.cellType) then m.cellType else f.meta.cellType)))
  {
    var a, b, c, d := TextLine(SexTag, m.sex), SmokingLine(m.smokingStatus),
                      TextLine(TissueTag, m.tissue), TextLine(CellTypeTag, m.cellType);
    ParseLinesAppend(f, a + b + c, d);
    ParseLinesAppend(f, a + b, c);
    ParseLinesAppend(f, a, b);
    SexLineRead(f, m.sex);
    var f1 := ParseLines(f, a).value;
    SmokingLineRead(f1, m.smokingStatus);
    var f2 := ParseLines(f1, b).value;
    TissueLineRead(f2, m.tissue);
    var f3 := ParseLines(f2, c).value;
    CellTypeLineRead(f3, m.cellType);
  }

  /** Reading back a built prompt recovers the sentence and every metadata value
      the prompt carries, provided the values are single stripped lines and the
      sentence is not empty. */
  lemma {:induction false} ParseBuiltPrompt(m: Metadata, s: string)
    requires MetadataOneLine(m) && MetadataTrimmed(m)
    requires OneLine(s) && Trimmed(s) && |s| > 0
    ensures ParsePrompt(BuildPrompt(m, s)) == Success(PromptFields(Normalised(m), s))
  {
    BuildPromptLines(m, s);
    var head := [Header, ""] + MetadataLines(m);
    var line := Line(SentenceTag, s);
    var f := PromptFields(Normalised(m), "");
    HeadRead(m);
    SentenceLineRead(f, s);
    InstructionsIgnored(f.(sentence := s));
    ThreePartsRead(NoFields, head, line, [PredictLine, AnswerLine], f, f.(sentence := s));
    SplitLast(head, line, PredictLine, AnswerLine);
    ReadPrompt(BuildPrompt(m, s), f.(sentence := s));
  }

  /** Reading lines in three parts, each starting from where the last stopped. */
  lemma ThreePartsRead(f0: PromptFields, head: seq<string>, line: string, tail: seq<string>,
                       f1: PromptFields, f2: PromptFields)
    requires ParseLines(f0, head) == Success(f1)
    requires ParseLines(f1, [line]) == Success(f2)
    requires ParseLines(f2, tail) == Success(f2)
    ensures ParseLines(f0, head + [line] + tail) == Success(f2)
  {
    ParseLinesAppend(f0, head + [line], tail);
    ParseLinesAppend(f0, head, [line]);
  }

  lemma SplitLast(head: seq<string>, a: string, b: string, c: string)
    ensures head + [a, b, c] == head + [a] + [b, c]
  {
  }

  /** A prompt whose lines read to fields with a sentence is read as those fields. */
  lemma ReadPrompt(prompt: string, f: PromptFields)
    ensures ParseLines(NoFields, SplitOn(prompt, '\n')) == Success(f) && |f.sentence| > 0 ==>
      ParsePrompt(prompt) == Success(f)
  {
  }

  /** The header, the blank line and the metadata lines set the metadata. */
  lemma {:induction false} HeadRead(m: Metadata)
    requires MetadataTrimmed(m)
    ensures ParseLines(NoFields, [Header, ""] + MetadataLines(m)) == Success(PromptFields(Normalised(m), ""))
  {
    ParseLinesAppend(NoFields, [Header, ""], MetadataLines(m));
    PreambleIgnored(NoFields);
    MetadataLinesRead(NoFields, m);
  }

  /** The last line with a given tag wins: a later sex line overrides earlier ones. */
  lemma LaterSexLineWins(f: PromptFields, lines: seq<string>, v: string)
    requires |v| > 0 && Trimmed(v)
    ensures ParseLines(f, lines).Success? ==> ParseLines(f, lines + [Line(SexTag, v)]).Success?
    ensures ParseLines(f, lines).Success? ==> ParseLines(f, lines + [Line(SexTag, v)]).value.meta.sex == Some(v)
  {
    ParseLinesAppend(f, lines, [Line(SexTag, v)]);
    if ParseLines(f, lines).Success? {
      SexLineRead(ParseLines(f, lines).value, Some(v));
    }
  }

  // ---------------------------------------------------------------------------
  // Gene, model and generation parameters

  /** The gene to knock out: the one given on the command line, or else the
      first token of the sentence. */
  function ResolveGene(cliGene: Option<string>, sentence: string): (r: Result<string, Error>)
    ensures cliGene.Some? ==> r == Success(cliGene.value)
    ensures cliGene.None? ==> (r.Success? <==> !AllSpace(sentence))
    ensures cliGene.None? && r.Failure? ==> r.error == EmptySentence
    ensures cliGene.None? && r.Success? ==> |Split(sentence)| > 0 && r.value == Split(sentence)[0]
  {
    SplitEmptyIff(sentence);
    if cliGene.Some? then Success(cliGene.value)
    else
      var genes := Split(sentence);
      if |genes| == 0 then Failure(EmptySentence) else Success(genes[0])
  }

  /** The model: the command line's when non-empty, else the payload's `model`
      entry when present, else the default. */
  function ChooseModel(cliModel: Option<string>, payloadModel: Option<string>): string {
    if Given(cliModel) then cliModel.value else payloadModel.GetOr(DefaultModel)
  }

  /** The JSON payload file, with the entries the commands read. */
  datatype Payload = Payload(
    prompt: Option<string>,
    model: Option<string>,
    maxTokens: Option<int>,
    temperature: Option<real>,
    topP: Option<real>)

  function PayloadParams(p: Payload): GenerationParams {
    GenerationParams(p.maxTokens.GetOr(20), p.temperature.GetOr(0.0), p.topP.GetOr(1.0))
  }

  /** A payload without generation entries uses the defaults. */
  lemma PayloadDefaults(p: Payload)
    requires p.maxTokens.None? && p.temperature.None? && p.topP.None?
    ensures PayloadParams(p) == DefaultParams
  {
  }

  /** `knockout-from-payload`. The sentence always has a first token once the
      prompt parsed, so the empty-sentence error cannot come out of it; and the
      default gene is always found, so no warning is given for it. */
  function KnockoutFromPayload(oracle: Oracle, payload: Payload, cliGene: Option<string>, baseUrl: string,
                               cliModel: Option<string>): (r: Result<KnockoutResult, Error>)
    ensures payload.prompt.None? ==> r == Failure(MissingSentence)
    ensures !(r.Failure? && r.error == EmptySentence)
    ensures cliGene.None? && r.Success? ==> r.value.warning.None?
    ensures r.Success? ==> r.value.model == ChooseModel(cliModel, payload.model)
    ensures cliGene.Some? && r.Success? ==> r.value.geneKnockedOut == cliGene.value
    ensures Given(cliModel) && r.Success? ==> r.value.model == cliModel.value
    ensures !Given(cliModel) && payload.model.Some? && r.Success? ==> r.value.model == payload.model.value
    ensures !Given(cliModel) && payload.model.None? && r.Success? ==> r.value.model == DefaultModel
    ensures cliGene.None? && r.Success? ==>
      |Split(r.value.originalGeneSentence)| > 0 && r.value.geneKnockedOut == Split(r.value.originalGeneSentence)[0]
  {
    EmptyPromptHasNoSentence();
    var fields :- ParsePrompt(payload.prompt.GetOr(""));
    TrimmedNonEmptyNotSpace(fields.sentence);
    match ResolveGene(cliGene, fields.sentence)
    case Failure(e) => Failure(e)
    case Success(gene) =>
      var r := InsilicoKnockout(oracle, gene, fields.sentence, baseUrl, ChooseModel(cliModel, payload.model),
                                fields.meta, PayloadParams(payload));
      assert r.Success? && cliGene.None? ==> r.value.warning.None?;
      r
  }

  /** `ko`: the gene is required, and the payload is read the same way. */
  function KoShort(oracle: Oracle, payload: Payload, gene: string, baseUrl: string,
                   cliModel: Option<string>): (r: Result<KnockoutResult, Error>)
    ensures r.Success? ==> r.value.geneKnockedOut == gene
    ensures r.Success? ==> r.value.model == ChooseModel(cliModel, payload.model)
    ensures Given(cliModel) && r.Success? ==> r.value.model == cliModel.value
    ensures !Given(cliModel) && payload.model.Some? && r.Success? ==> r.value.model == payload.model.value
    ensures !Given(cliModel) && payload.model.None? && r.Success? ==> r.value.model == DefaultModel
    ensures payload.prompt.None? ==> r == Failure(MissingSentence)
  {
    EmptyPromptHasNoSentence();
    var fields :- ParsePrompt(payload.prompt.GetOr(""));
    InsilicoKnockout(oracle, gene, fields.sentence, baseUrl, ChooseModel(cliModel, payload.model),
                     fields.meta, PayloadParams(payload))
  }

  /** Once the payload's prompt has been read, `knockout-from-payload` is the
      knockout of the read sentence and metadata, for the command line's gene or
      else the sentence's first token, with the payload's generation entries
      (20 tokens, temperature 0.0 and top-p 1.0 where an entry is absent). */
  lemma PayloadRunsKnockout(oracle: Oracle, payload: Payload, cliGene: Option<string>, baseUrl: string,
                            cliModel: Option<string>, f: PromptFields)
    ensures ParsePrompt(payload.prompt.GetOr("")) == Success(f) ==>
      && (cliGene.Some? || |Split(f.sentence)| > 0)
      && KnockoutFromPayload(oracle, payload, cliGene, baseUrl, cliModel)
           == InsilicoKnockout(oracle, if cliGene.Some? then cliGene.value else Split(f.sentence)[0],
                               f.sentence, baseUrl, ChooseModel(cliModel, payload.model), f.meta,
                               GenerationParams(payload.maxTokens.GetOr(20), payload.temperature.GetOr(0.0),
                                                payload.topP.GetOr(1.0)))
  {
    if ParsePrompt(payload.prompt.GetOr("")) == Success(f) {
      TrimmedNonEmptyNotSpace(f.sentence);
      SplitEmptyIff(f.sentence);
    }
  }

  lemma EmptyPromptHasNoSentence()
    ensures ParsePrompt("") == Failure(MissingSentence)
  {
    assert SplitOn("", '\n') == [""];
    BlankIgnored(NoFields);
    SingleLine(NoFields, "");
    NoSentenceRead("", NoFields);
  }

  /** A prompt whose lines read to fields without a sentence is refused. */
  lemma NoSentenceRead(prompt: string, f: PromptFields)
    ensures ParseLines(NoFields, SplitOn(prompt, '\n')) == Success(f) && |f.sentence| == 0 ==>
      ParsePrompt(prompt) == Failure(MissingSentence)
  {
  }

  lemma TrimmedNonEmptyNotSpace(s: string)
    requires Trimmed(s) && |s| > 0
    ensures !AllSpace(s)
  {
  }

  /** `ko g` is `knockout-from-payload --gene-symbol g`. */
  lemma KoShortIsPayloadWithGene(oracle: Oracle, payload: Payload, gene: string, baseUrl: string,
                                 cliModel: Option<string>)
    ensures KoShort(oracle, payload, gene, baseUrl, cliModel)
         == KnockoutFromPayload(oracle, payload, Some(gene), baseUrl, cliModel)
  {
    if payload.prompt.None? {
      EmptyPromptHasNoSentence();
    }
  }

  /** The metadata a prompt can carry builds the same prompt as the original. */
  lemma NormalisedSamePrompt(m: Metadata, s: string)
    ensures BuildPrompt(Normalised(m), s) == BuildPrompt(m, s)
  {
    assert MetadataLines(Normalised(m)) == MetadataLines(m);
  }

  /** Replaying a payload whose prompt the builder wrote runs the same
      experiment: the same two requests, hence the same result, with the
      payload's generation entries or their defaults. Without a gene on the
      command line, the sentence's first token is knocked out. */
  lemma {:induction false} PayloadReplaysExperiment(oracle: Oracle, m: Metadata, s: string, gene: string,
                                                    baseUrl: string, model: string,
                                                    maxTokens: Option<int>, temperature: Option<real>,
                                                    topP: Option<real>)
    requires MetadataOneLine(m) && MetadataTrimmed(m)
    requires OneLine(s) && Trimmed(s) && |s| > 0
    ensures var payload := Payload(Some(BuildPrompt(m, s)), Some(model), maxTokens, temperature, topP);
      var params := GenerationParams(maxTokens.GetOr(20), temperature.GetOr(0.0), topP.GetOr(1.0));
      && KoShort(oracle, payload, gene, baseUrl, None)
           == InsilicoKnockout(oracle, gene, s, baseUrl, model, m, params)
      && |Split(s)| > 0
      && KnockoutFromPayload(oracle, payload, None, baseUrl, None)
           == InsilicoKnockout(oracle, Split(s)[0], s, baseUrl, model, m, params)
  {
    var payload := Payload(Some(BuildPrompt(m, s)), Some(model), maxTokens, temperature, topP);
    var params := GenerationParams(maxTokens.GetOr(20), temperature.GetOr(0.0), topP.GetOr(1.0));
    var f := PromptFields(Normalised(m), s);
    ParseBuiltPrompt(m, s);
    NormalisedSamePrompt(m, s);
    assert ChooseModel(None, payload.model) == model;
    KoShortIsPayloadWithGene(oracle, payload, gene, baseUrl, None);
    PayloadRunsKnockout(oracle, payload, Some(gene), baseUrl, None, f);
    PayloadRunsKnockout(oracle, payload, None, baseUrl, None, f);
    SamePromptSameKnockout(oracle, gene, s, baseUrl, model, Normalised(m), m, params);
    SamePromptSameKnockout(oracle, Split(s)[0], s, baseUrl, model, Normalised(m), m, params);
  }

  /** The knockout sees the metadata only through the prompt it builds. */
  lemma SamePromptSameKnockout(oracle: Oracle, gene: string, s: string, baseUrl: string, model: string,
                               m1: Metadata, m2: Metadata, params: GenerationParams)
    requires BuildPrompt(m1, s) == BuildPrompt(m2, s)
    ensures InsilicoKnockout(oracle, gene, s, baseUrl, model, m1, params)
         == InsilicoKnockout(oracle, gene, s, baseUrl, model, m2, params)
  {
    assert PredictionRequest(baseUrl, model, m1, s, params, None)
        == PredictionRequest(baseUrl, model, m2, s, params, None);
    assert PredictionRequest(baseUrl, model, m1, s, params, Some(gene))
        == PredictionRequest(baseUrl, model, m2, s, params, Some(gene));
    assert PredictAgeFromSentence(oracle, s, baseUrl, model, m1, params, None)
        == PredictAgeFromSentence(oracle, s, baseUrl, model, m2, params, None);
    assert PredictAgeFromSentence(oracle, s, baseUrl, model, m1, params, Some(gene))
        == PredictAgeFromSentence(oracle, s, baseUrl, model, m2, params, Some(gene));
  }

  // ---------------------------------------------------------------------------
  // CSV report

  const CsvColumns: seq<string> := ["gene_knocked_out", "age_prediction", "age_prediction_with_knockout", "delta_age", "warning"]

  /** The header line, spelled with its separators apart. */
  const CsvHeader: string := "gene_knocked_out" + "," + ("age_prediction" + ","
    + ("age_prediction_with_knockout" + "," + ("delta_age" + "," + "warning")))

  /** The data line; `show` is how Python prints a float, left as a parameter. */
  function CsvRow(r: KnockoutResult, show: real -> string): string {
    Join(",", [r.geneKnockedOut, show(r.agePrediction), show(r.agePredictionWithKnockout),
               show(r.deltaAge), r.warning.GetOr("")])
  }

  /** The header names the five columns. */
  lemma CsvHeaderColumns()
    ensures SplitOn(CsvHeader, ',') == CsvColumns
  {
    var c0, c1, c2, c3, c4 := "gene_knocked_out", "age_prediction", "age_prediction_with_knockout", "delta_age", "warning";
    JoinFive(c0, c1, c2, c3, c4);
    assert c0 + "," + (c1 + "," + (c2 + "," + (c3 + "," + c4))) == CsvHeader;
    assert ',' !in c0 && ',' !in c1 && ',' !in c2;
    assert ',' !in c3 && ',' !in c4;
    FiveCommaFree(c0, c1, c2, c3, c4);
  }

  lemma JoinFive(a: string, b: string, c: string, d: string, e: string)
    ensures Join(",", [a, b, c, d, e]) == a + "," + (b + "," + (c + "," + (d + "," + e)))
  {
    JoinCons(",", d, [e]);
    assert [d] + [e] == [d, e];
    JoinCons(",", c, [d, e]);
    assert [c] + [d, e] == [c, d, e];
    JoinCons(",", b, [c, d, e]);
    assert [b] + [c, d, e] == [b, c, d, e];
    JoinCons(",", a, [b, c, d, e]);
    assert [a] + [b, c, d, e] == [a, b, c, d, e];
  }

  lemma FiveCommaFree(a: string, b: string, c: string, d: string, e: string)
    requires ',' !in a && ',' !in b && ',' !in c && ',' !in d && ',' !in e
    ensures SplitOn(Join(",", [a, b, c, d, e]), ',') == [a, b, c, d, e]
  {
    var ws := [a, b, c, d, e];
    assert forall i :: 0 <= i < |ws| ==> ',' !in ws[i];
    SplitOnJoin(ws, ',');
  }

  /** With comma-free values the row splits back into its five fields, in the
      header's order. */
  lemma CsvRowFields(r: KnockoutResult, show: real -> string)
    requires ',' !in r.geneKnockedOut
    requires forall x: real :: ',' !in show(x)
    requires r.warning.Some? ==> ',' !in r.warning.value
    ensures SplitOn(CsvRow(r, show), ',')
      == [r.geneKnockedOut, show(r.agePrediction), show(r.agePredictionWithKnockout),
          show(r.deltaAge), r.warning.GetOr("")]
    ensures |SplitOn(CsvRow(r, show), ',')| == |CsvColumns|
  {
    FiveCommaFree(r.geneKnockedOut, show(r.agePrediction), show(r.agePredictionWithKnockout),
                  show(r.deltaAge), r.warning.GetOr(""));
  }

  /** A knockout's warning has a comma only if the gene symbol does, so the row
      of a knockout for a comma-free gene has exactly the header's columns. */
  lemma KnockoutCsvRow(oracle: Oracle, gene: string, sentence: string, baseUrl: string, model: string,
                       meta: Metadata, params: GenerationParams, show: real -> string)
    requires ',' !in gene
    requires forall x: real :: ',' !in show(x)
    ensures InsilicoKnockout(oracle, gene, sentence, baseUrl, model, meta, params).Success? ==>
      |SplitOn(CsvRow(InsilicoKnockout(oracle, gene, sentence, baseUrl, model, meta, params).value, show), ',')|
        == |CsvColumns|
  {
    if InsilicoKnockout(oracle, gene, sentence, baseUrl, model, meta, params).Success? {
      var r := InsilicoKnockout(oracle, gene, sentence, baseUrl, model, meta, params).value;
      WarningCommaFree(gene);
      CsvRowFields(r, show);
    }
  }

  lemma WarningCommaFree(gene: string)
    requires ',' !in gene
    ensures ',' !in NotFoundWarning(gene)
  {
    var a, b := "Warning: Gene '", "' not found in the gene sentence";
    assert ',' !in a;
    assert ',' !in b;
    assert NotFoundWarning(gene) == a + gene + b;
  }
}

=== FILE: failures.dfy ===
/** The ways a prediction, a knockout or a payload command can fail. */
module Failures {

  /** Failures of the completion service: no answer within the timeout, a
      non-2xx status, or a body without `choices[0].text`. */
  datatype UpstreamError =
    | Timeout
    | HttpStatus(status: int, body: string)
    | MalformedBody

  datatype Error =
    /** The gene sentence has no whitespace-separated token. */
    | EmptySentence
    /** The completion service failed during a knockout; the exception is
        passed on as raised and nothing after it is attempted. */
    | Upstream(cause: UpstreamError)
    /** The completion service failed during a server prediction; the server
        re-raises it under its own message. */
    | PredictionFailed(cause: UpstreamError)
    /** The completion text holds no number (strict parsing only). */
    | Unparseable(response: string)
    /** A payload prompt has no non-empty `Aging related cell sentence:` line. */
    | MissingSentence
    /** A `Smoking status:` line whose value `int()` rejects. */
    | InvalidInt(text: string)
}

=== FILE: inference.dfy ===
/**
 * The request sent to the completion endpoint. The endpoint itself is outside
 * the model: it is an `Oracle`, any total function from request to either the
 * completion text or an upstream failure.
 */
module Inference {
  import opened Wrappers
  import opened Text
  import opened Failures

  /** `max_tokens`, `temperature`, `top_p`. */
  datatype GenerationParams = GenerationParams(maxTokens: int, temperature: real, topP: real)

  /** The defaults every entry point uses: 20 tokens, temperature 0, top-p 1. */
  const DefaultParams := GenerationParams(20, 0.0, 1.0)

  /** The endpoint and model used when the environment names none. */
  const DefaultBaseUrl := "http://89.169.110.141:8000"
  const DefaultModel := "transhumanist-already-exists/" + "C2S-Scale-Gemma-2-27B-" + "age-prediction-fullft"

  const CompletionsPath := "/v1/completions"
  const StopTokens := ["<ctrl100>", "<end_of_turn>", "<eos>"]
  const TimeoutSeconds := 60

  /** The POST: target URL, JSON payload fields, and the client timeout. */
  datatype Request = Request(
    url: string,
    model: string,
    prompt: string,
    maxTokens: int,
    temperature: real,
    topP: real,
    n: int,
    stop: seq<string>,
    timeout: int)

  /** The completion service: `choices[0].text` of the reply, or why there is none. */
  type Oracle = Request -> Result<string, UpstreamError>

  /** `base.rstrip("/") + "/v1/completions"`. */
  function CompletionsUrl(baseUrl: string): (url: string)
    ensures EndsWith(url, CompletionsPath)
    ensures var root := url[..|url| - |CompletionsPath|];
      && StartsWith(baseUrl, root)
      && (forall i :: |root| <= i < |baseUrl| ==> baseUrl[i] == '/')
      && (|root| == 0 || root[|root| - 1] != '/')
  {
    var root := TrimEnd(baseUrl, '/');
    AppendSplits(root, CompletionsPath);
    root + CompletionsPath
  }

  lemma AppendSplits(a: string, b: string)
    ensures (a + b)[..|a + b| - |b|] == a
    ensures (a + b)[|a + b| - |b|..] == b
  {
  }

  /** The request every prediction sends for `prompt`. */
  function MakeRequest(baseUrl: string, model: string, prompt: string, params: GenerationParams): (r: Request)
    ensures r.url == CompletionsUrl(baseUrl)
    ensures r.model == model && r.prompt == prompt
    ensures r.maxTokens == params.maxTokens && r.temperature == params.temperature && r.topP == params.topP
    ensures r.n == 1 && r.stop == StopTokens && r.timeout == TimeoutSeconds
  {
    Request(CompletionsUrl(baseUrl), model, prompt, params.maxTokens, params.temperature,
            params.topP, 1, StopTokens, TimeoutSeconds)
  }

  /** Send `req`; the reply text with surrounding whitespace stripped. */
  function Complete(oracle: Oracle, req: Request): (r: Result<string, Error>)
    ensures r.Success? <==> oracle(req).Success?
    ensures r.Success? ==> Trimmed(r.value) && r.value == Strip(oracle(req).value)
    ensures r.Failure? ==> r.error == Upstream(oracle(req).error)
  {
    match oracle(req)
    case Success(text) => Success(Strip(text))
    case Failure(e) => Failure(Upstream(e))
  }
}

=== FILE: knockout.dfy ===
/**
 * The in silico knockout experiment: predict the donor's age from a cell
 * sentence, predict it again with one gene symbol removed from the whole
 * prompt, and report both ages, their difference and whether the gene was in
 * the sentence at all.
 */
module Knockout {
  import opened Wrappers
  import opened Text
  import opened Numbers
  import opened Failures
  import opened Inference
  import opened AgeParser
  import opened Prompt
  import opened GeneRemoval

  datatype KnockoutResult = KnockoutResult(
    geneKnockedOut: string,
    agePrediction: real,
    agePredictionWithKnockout: real,
    deltaAge: real,
    originalGeneSentence: string,
    knockoutGeneSentence: string,
    model: string,
    warning: Option<string>)

  function NotFoundWarning(gene: string): string {
    "Warning: Gene '" + gene + "' not found in the gene sentence"
  }

  /** The prompt of one prediction: the built prompt, with `geneToRemove` taken
      out of it by the code's three replacements when that is a non-empty
      symbol. */
  function PredictionPrompt(meta: Metadata, sentence: string, geneToRemove: Option<string>): string {
    RemoveGeneAsWritten(BuildPrompt(meta, sentence), geneToRemove)
  }

  /** The same prompt with the gene removed as a token, as intended. */
  function CorrectedPredictionPrompt(meta: Metadata, sentence: string, geneToRemove: Option<string>): string {
    RemoveGene(BuildPrompt(meta, sentence), geneToRemove)
  }

  function PredictionRequest(baseUrl: string, model: string, meta: Metadata, sentence: string,
                             params: GenerationParams, geneToRemove: Option<string>): Request {
    MakeRequest(baseUrl, model, PredictionPrompt(meta, sentence, geneToRemove), params)
  }

  /** One strict prediction: send the request, strip the reply, and read the
      first number out of it. A service failure propagates unchanged; a reply
      without a digit is an error carrying the reply. */
  function PredictAgeFromSentence(oracle: Oracle, sentence: string, baseUrl: string, model: string,
                                  meta: Metadata, params: GenerationParams,
                                  geneToRemove: Option<string>): (r: Result<real, Error>)
    ensures var reply := oracle(PredictionRequest(baseUrl, model, meta, sentence, params, geneToRemove));
      && (reply.Failure? ==> r == Failure(Upstream(reply.error)))
      && (reply.Success? ==> (r.Failure? <==> NoDigit(Strip(reply.value))))
      && (reply.Success? && r.Failure? ==> r.error == Unparseable(Strip(reply.value)))
      && (reply.Success? ==> forall m :: IsFirstNumber(Strip(reply.value), m) ==> r == Success(Value(m)))
  {
    var text :- Complete(oracle, PredictionRequest(baseUrl, model, meta, sentence, params, geneToRemove));
    ParseAgeStrict(text)
  }

  /** The knockout sentence: the sentence's tokens without the gene, joined by
      single spaces. */
  function KnockoutSentence(genes: seq<string>, gene: string): string {
    Join(" ", Without(genes, gene))
  }

  /** The experiment. An all-whitespace sentence fails before any request.
      Otherwise two predictions run on the original sentence, the first on the
      plain prompt and the second with the gene removed from the prompt; the
      first failure ends the experiment. */
  function InsilicoKnockout(oracle: Oracle, gene: string, sentence: string, baseUrl: string,
                            model: string, meta: Metadata, params: GenerationParams): (r: Result<KnockoutResult, Error>)
    ensures (r.Failure? && r.error == EmptySentence) <==> AllSpace(sentence)
    ensures r.Success? <==>
      && !AllSpace(sentence)
      && PredictAgeFromSentence(oracle, sentence, baseUrl, model, meta, params, None).Success?
      && PredictAgeFromSentence(oracle, sentence, baseUrl, model, meta, params, Some(gene)).Success?
    ensures r.Success? ==>
      && r.value.agePrediction == PredictAgeFromSentence(oracle, sentence, baseUrl, model, meta, params, None).value
      && r.value.agePredictionWithKnockout == PredictAgeFromSentence(oracle, sentence, baseUrl, model, meta, params, Some(gene)).value
      && r.value.deltaAge == r.value.agePredictionWithKnockout - r.value.agePrediction
    ensures r.Success? ==>
      && r.value.geneKnockedOut == gene
      && r.value.originalGeneSentence == sentence
      && r.value.model == model
    ensures r.Success? ==> r.value.knockoutGeneSentence == Join(" ", Without(Split(sentence), gene))
    ensures r.Success? ==> Split(r.value.knockoutGeneSentence) == Without(Split(sentence), gene)
    ensures r.Success? ==> (r.value.warning.None? <==> gene in Split(sentence))
    ensures r.Success? && r.value.warning.Some? ==> r.value.warning.value == NotFoundWarning(gene)
    ensures var first := PredictAgeFromSentence(oracle, sentence, baseUrl, model, meta, params, None);
      !AllSpace(sentence) && first.Failure? ==> r == Failure(first.error)
    ensures var first := PredictAgeFromSentence(oracle, sentence, baseUrl, model, meta, params, None);
      var second := PredictAgeFromSentence(oracle, sentence, baseUrl, model, meta, params, Some(gene));
      !AllSpace(sentence) && first.Success? && second.Failure? ==> r == Failure(second.error)
  {
    var genes := Split(sentence);
    SplitEmptyIff(sentence);
    if |genes| == 0 then Failure(EmptySentence)
    else
      SplitJoin(Without(genes, gene));
      Assemble(gene, sentence, model,
               PredictAgeFromSentence(oracle, sentence, baseUrl, model, meta, params, None),
               PredictAgeFromSentence(oracle, sentence, baseUrl, model, meta, params, Some(gene)))
  }

  /** The result record of a non-empty sentence, from its two predictions; the
      first failure, in the order the predictions are made, is the error. */
  function Assemble(gene: string, sentence: string, model: string,
                    original: Result<real, Error>, knocked: Result<real, Error>): Result<KnockoutResult, Error>
  {
    var genes := Split(sentence);
    var warning := if gene !in genes then Some(NotFoundWarning(gene)) else None;
    var o :- original;
    var k :- knocked;
    Success(KnockoutResult(gene, o, k, k - o, sentence, KnockoutSentence(genes, gene), model, warning))
  }

  /** The first request carries the full prompt; the second carries the first
      one's prompt put through the code's removal, so it is single-spaced, and
      merely collapsed when the gene does not occur in it. Everything else in
      the two requests is the same. */
  lemma KnockoutRequests(baseUrl: string, model: string, meta: Metadata, sentence: string,
                         params: GenerationParams, gene: string)
    requires |gene| > 0
    ensures var first := PredictionRequest(baseUrl, model, meta, sentence, params, None);
      var second := PredictionRequest(baseUrl, model, meta, sentence, params, Some(gene));
      && first.prompt == BuildPrompt(meta, sentence)
      && second.prompt == RemoveGeneAsWritten(first.prompt, Some(gene))
      && SingleSpaced(second.prompt)
      && (!Contains(first.prompt, gene) ==> second.prompt == Collapse(first.prompt))
      && first.(prompt := second.prompt) == second
  {
  }

  /** A gene listed exactly once leaves one token fewer. */
  lemma KnockoutDropsOneToken(sentence: string, gene: string)
    requires multiset(Split(sentence))[gene] == 1
    ensures |Split(KnockoutSentence(Split(sentence), gene))| == |Split(sentence)| - 1
  {
    SplitJoin(Without(Split(sentence), gene));
    WithoutCounts(Split(sentence), gene);
  }

  /** The parts of a built prompt before the sentence line's value. */
  function Lead(meta: Metadata): seq<string> {
    [Header + "\n"] + MetadataLines(meta)
  }

  /** The words of a built prompt: those of the header and metadata lines, of
      the sentence tag, of the sentence, then of the two instruction lines. */
  lemma PromptWords(meta: Metadata, sentence: string)
    ensures Split(BuildPrompt(meta, sentence))
      == Words(Lead(meta)) + Split(SentenceTag) + Split(sentence) + Words([PredictLine, AnswerLine])
  {
    var parts := Lead(meta) + Tail(sentence);
    assert [Header + "\n"] + MetadataLines(meta) + Tail(sentence) == parts;
    SplitJoinLines('\n', parts);
    WordsAppend(Lead(meta), Tail(sentence));
    TailWords(SentenceTag, sentence, PredictLine, AnswerLine);
    WordsRegroup(Words(Lead(meta)), Split(SentenceTag), Split(sentence), Words([PredictLine, AnswerLine]));
  }

  /** The words of the sentence line and the two lines after it. */
  lemma TailWords(tag: string, sentence: string, p: string, q: string)
    ensures Words([Line(tag, sentence), p, q]) == Split(tag) + Split(sentence) + Words([p, q])
  {
    var line := Line(tag, sentence);
    ConsPair(line, p, q);
    WordsAppend([line], [p, q]);
    assert line == tag + [' '] + sentence;
    SplitAround(tag, ' ', sentence);
    WordsOne(line);
  }

  lemma WordsRegroup(x: seq<string>, a: seq<string>, b: seq<string>, c: seq<string>)
    ensures x + (a + b + c) == x + a + b + c
  {
  }

  /** Word for word, the corrected knockout prompt is the original prompt
      without the gene, and the knockout sentence sits where the sentence was. */
  lemma KnockoutPromptWords(meta: Metadata, sentence: string, gene: string)
    requires |gene| > 0
    ensures Split(CorrectedPredictionPrompt(meta, sentence, Some(gene)))
      == Without(Words(Lead(meta)) + Split(SentenceTag), gene)
         + Split(KnockoutSentence(Split(sentence), gene))
         + Without(Words([PredictLine, AnswerLine]), gene)
  {
    PromptWords(meta, sentence);
    var a, b, c := Words(Lead(meta)) + Split(SentenceTag), Split(sentence), Words([PredictLine, AnswerLine]);
    WithoutAppend(a + b, c, gene);
    WithoutAppend(a, b, gene);
    SplitJoin(Without(b, gene));
  }

  /** The built prompt around the sentence: everything up to the sentence tag,
      then a space and the sentence, then the two instruction lines. */
  function BeforeSentence(meta: Metadata): string {
    Join("\n", Lead(meta)) + "\n" + SentenceTag
  }

  const AfterSentence: string := "\n" + PredictLine + "\n" + AnswerLine

  lemma PromptAroundSentence(meta: Metadata, sentence: string)
    ensures BuildPrompt(meta, sentence) == BeforeSentence(meta) + (" " + sentence + AfterSentence)
  {
    var lead, line := Lead(meta), Line(SentenceTag, sentence);
    assert [Header + "\n"] + MetadataLines(meta) + Tail(sentence) == lead + Tail(sentence);
    JoinAppend("\n", lead, Tail(sentence));
    ConsPair(line, PredictLine, AnswerLine);
    JoinCons("\n", line, [PredictLine, AnswerLine]);
    TwoLines(PredictLine, AnswerLine);
    AroundRegroup(Join("\n", lead), SentenceTag, sentence, PredictLine, AnswerLine);
  }

  lemma TwoLines(x: string, y: string)
    ensures Join("\n", [x, y]) == x + "\n" + y
  {
    JoinCons("\n", x, [y]);
    assert [x, y] == [x] + [y];
  }

  lemma AroundRegroup(j: string, tag: string, s: string, p: string, q: string)
    ensures j + "\n" + (tag + " " + s + "\n" + (p + "\n" + q))
         == (j + "\n" + tag) + (" " + s + ("\n" + p + "\n" + q))
  {
  }

  /** For a sentence of single-spaced symbols, none of which but the gene
      itself starts or ends with the gene's symbol, and a symbol found nowhere
      else in the prompt, the code's removal gives exactly the corrected
      knockout prompt. */
  lemma KnockoutPromptsAgree(meta: Metadata, sentence: string, gene: string)
    requires IsWord(gene)
    requires |Split(sentence)| > 0 && sentence == Join(" ", Split(sentence))
    requires Isolated(Split(sentence), gene)
    requires !Contains(BeforeSentence(meta), gene) && !Contains(AfterSentence, gene)
    ensures PredictionPrompt(meta, sentence, Some(gene)) == CorrectedPredictionPrompt(meta, sentence, Some(gene))
    ensures PredictionPrompt(meta, sentence, Some(gene))
         == Join(" ", Split(BeforeSentence(meta)) + Without(Split(sentence), gene) + Split(AfterSentence))
  {
    PromptShape(meta, sentence);
    BeforeSentenceEnds(meta);
    AfterSentenceEnds();
    AsWrittenIsTokenRemoval(BeforeSentence(meta), Split(sentence), AfterSentence, gene);
  }

  lemma PromptShape(meta: Metadata, sentence: string)
    requires |Split(sentence)| > 0 && sentence == Join(" ", Split(sentence))
    ensures BuildPrompt(meta, sentence) == BeforeSentence(meta) + (Spaced(Split(sentence)) + AfterSentence)
  {
    var ws := Split(sentence);
    PromptAroundSentence(meta, sentence);
    SpacedJoin(ws);
    SpaceThen(sentence, Spaced(ws), AfterSentence);
  }

  lemma SpaceThen(s: string, x: string, t: string)
    requires x == " " + s
    ensures " " + s + t == x + t
  {
  }

  lemma BeforeSentenceEnds(meta: Metadata)
    ensures var a := BeforeSentence(meta); |a| > 0 && !IsSpace(a[0]) && !IsSpace(a[|a| - 1])
  {
    JoinHead("\n", Lead(meta));
    assert (Header + "\n")[0] == 'T';
  }

  lemma AfterSentenceEnds()
    ensures var t := AfterSentence; |t| > 0 && IsSpace(t[0]) && t[0] != ' ' && !IsSpace(t[|t| - 1])
  {
  }

  /** Under the same conditions the code's knockout prompt has the words of
      the corrected one. */
  lemma KnockoutPromptWordsAsWritten(meta: Metadata, sentence: string, gene: string)
    requires IsWord(gene)
    requires |Split(sentence)| > 0 && sentence == Join(" ", Split(sentence))
    requires Isolated(Split(sentence), gene)
    requires !Contains(BeforeSentence(meta), gene) && !Contains(AfterSentence, gene)
    ensures Split(PredictionPrompt(meta, sentence, Some(gene))) == Without(Split(BuildPrompt(meta, sentence)), gene)
    ensures gene !in Split(PredictionPrompt(meta, sentence, Some(gene)))
  {
    KnockoutPromptsAgree(meta, sentence, gene);
  }

  /** The words of the sentence appear in order in the full prompt. */
  lemma {:induction false} SentenceInPrompt(meta: Metadata, sentence: string, k: nat)
    requires k < |Split(sentence)|
    ensures Split(sentence)[k] in Split(BuildPrompt(meta, sentence))
  {
    var pre, mid, post := Words(Lead(meta)) + Split(SentenceTag), Split(sentence), Words([PredictLine, AnswerLine]);
    PromptWords(meta, sentence);
    InMiddle(pre, mid, post, k);
  }

  lemma InMiddle(pre: seq<string>, mid: seq<string>, post: seq<string>, k: nat)
    requires k < |mid|
    ensures mid[k] in pre + mid + post
  {
    assert (pre + mid + post)[|pre| + k] == mid[k];
  }

  // Worked examples

  /** A reply service that answers 45 while MT-CO1 is among the prompt's words
      and 43.5 once it is gone. */
  function ExampleOracle(): Oracle {
    (req: Request) => if "MT-CO1" in Split(req.prompt) then Success("45") else Success(" 43.5\n")
  }

  lemma ExampleSentenceWords()
    ensures Split("MT-CO1 FTL EEF1A1") == ["MT-CO1", "FTL", "EEF1A1"]
    ensures Join(" ", ["MT-CO1", "FTL", "EEF1A1"]) == "MT-CO1 FTL EEF1A1"
  {
    assert IsWord("MT-CO1") && IsWord("FTL") && IsWord("EEF1A1");
    ThreeWords("MT-CO1", "FTL", "EEF1A1");
    assert "MT-CO1" + " " + "FTL" + " " + "EEF1A1" == "MT-CO1 FTL EEF1A1";
  }

  lemma ThreeWords(a: string, b: string, c: string)
    requires IsWord(a) && IsWord(b) && IsWord(c)
    ensures Join(" ", [a, b, c]) == a + " " + b + " " + c
    ensures Split(a + " " + b + " " + c) == [a, b, c]
  {
    var r := [a, b, c];
    JoinCons(" ", b, [c]);
    JoinCons(" ", a, [b, c]);
    assert [a] + [b, c] == r;
    assert [b] + [c] == [b, c];
    assert a + " " + (b + " " + c) == a + " " + b + " " + c;
    SplitJoin(r);
  }

  lemma ExampleKnockoutSentence()
    ensures KnockoutSentence(["MT-CO1", "FTL", "EEF1A1"], "MT-CO1") == "FTL EEF1A1"
  {
    ExampleWithout();
    TwoJoined("FTL", "EEF1A1");
    assert "FTL" + " " + "EEF1A1" == "FTL EEF1A1";
  }

  lemma TwoJoined(a: string, b: string)
    ensures Join(" ", [a, b]) == a + " " + b
  {
    JoinCons(" ", a, [b]);
    assert [a] + [b] == [a, b];
  }

  const ExampleMeta := Metadata(Some("female"), None, Some("blood"), None)

  lemma ExampleSentenceShape()
    ensures var ws := ["MT-CO1", "FTL", "EEF1A1"];
      && Split("MT-CO1 FTL EEF1A1") == ws
      && Join(" ", ws) == "MT-CO1 FTL EEF1A1"
      && IsWord("MT-CO1")
      && Isolated(ws, "MT-CO1")
  {
    ExampleSentenceWords();
    ExampleIsolated();
  }

  lemma ExampleIsolated()
    ensures IsWord("MT-CO1") && Isolated(["MT-CO1", "FTL", "EEF1A1"], "MT-CO1")
  {
    var g, e := "MT-CO1", "EEF1A1";
    assert IsWord(g);
    assert !StartsWith("FTL", g) && !EndsWith("FTL", g);
    assert !StartsWith(e, g) by {
      assert e[0] != g[0];
    }
    assert !EndsWith(e, g) by {
      assert e[|e| - |g|..][0] == e[0] != g[0];
    }
  }

  /** MT-CO1 contains a '-', which the example prompt's fixed text does not. */
  lemma ExampleGeneOnlyInSentence()
    ensures !Contains(BeforeSentence(ExampleMeta), "MT-CO1") && !Contains(AfterSentence, "MT-CO1")
  {
    var lead := Lead(ExampleMeta);
    assert lead == [Header + "\n", Line(SexTag, "female"), Line(TissueTag, "blood")];
    NoDashInFixedText();
    CharNotInJoin('-', "\n", lead);
    assert '-' !in BeforeSentence(ExampleMeta);
    assert '-' !in AfterSentence;
    AbsentChar(BeforeSentence(ExampleMeta), "MT-CO1", 2);
    AbsentChar(AfterSentence, "MT-CO1", 2);
  }

  lemma NoDashInFixedText()
    ensures '-' !in Header && '-' !in SentenceTag && '-' !in PredictLine && '-' !in AnswerLine
  {
    NoDash("The following is a list of aging ");
    NoDash("related gene names ordered by ");
    NoDash("descending expression level ");
    NoDash("in a cell.");
    NoDash("Aging related ");
    NoDash("cell sentence:");
    NoDash("Predict the Age of the donor ");
    NoDash("from whom these cells were taken.");
    NoDash("Answer only with age value ");
    NoDash("in years:");
  }

  lemma NoDash(s: string)
    requires forall i :: 0 <= i < |s| ==> s[i] != '-'
    ensures '-' !in s
  {
  }

  /** The code's knockout prompt for the example keeps the sentence line's
      other genes in place, now on one line with the instructions:
      "Aging related cell sentence: FTL EEF1A1 Predict" occurs in it. */
  lemma ExampleKnockoutPrompt()
    ensures Contains(PredictionPrompt(ExampleMeta, "MT-CO1 FTL EEF1A1", Some("MT-CO1")),
                     SentenceTag + " " + "FTL EEF1A1" + " " + "Predict")
  {
    var j := Join("\n", Lead(ExampleMeta));
    var mid := TagWords() + ["FTL", "EEF1A1", "Predict"];
    ExamplePromptWords();
    JoinHasMiddle(Split(j), mid, PredictWords());
    ExampleMiddle();
  }

  /** The example's knockout prompt, as the words around its middle. */
  lemma ExamplePromptWords()
    ensures PredictionPrompt(ExampleMeta, "MT-CO1 FTL EEF1A1", Some("MT-CO1"))
         == Join(" ", Split(Join("\n", Lead(ExampleMeta)))
                      + (TagWords() + ["FTL", "EEF1A1", "Predict"]) + PredictWords())
  {
    var j := Join("\n", Lead(ExampleMeta));
    var before, after := Split(BeforeSentence(ExampleMeta)), Split(AfterSentence);
    var kept := ["FTL", "EEF1A1"];
    ExampleAgrees();
    ExampleBefore();
    MiddleRegroup(Split(j), TagWords(), kept, "Predict", PredictWords());
    assert kept + ["Predict"] == ["FTL", "EEF1A1", "Predict"];
  }

  lemma ExampleAgrees()
    ensures PredictionPrompt(ExampleMeta, "MT-CO1 FTL EEF1A1", Some("MT-CO1"))
         == Join(" ", Split(BeforeSentence(ExampleMeta)) + ["FTL", "EEF1A1"] + Split(AfterSentence))
  {
    ExampleSentenceShape();
    ExampleGeneOnlyInSentence();
    KnockoutPromptsAgree(ExampleMeta, "MT-CO1 FTL EEF1A1", "MT-CO1");
    ExampleWithout();
  }

  lemma ExampleBefore()
    ensures Split(BeforeSentence(ExampleMeta)) == Split(Join("\n", Lead(ExampleMeta))) + TagWords()
  {
    SplitAround(Join("\n", Lead(ExampleMeta)), '\n', SentenceTag);
  }

  lemma MiddleRegroup(x: seq<string>, t: seq<string>, u: seq<string>, w: string, r: seq<string>)
    ensures (x + t) + u + ([w] + r) == x + (t + (u + [w])) + r
  {
  }

  lemma ExampleWithout()
    ensures Without(["MT-CO1", "FTL", "EEF1A1"], "MT-CO1") == ["FTL", "EEF1A1"]
  {
    var ws := ["MT-CO1", "FTL", "EEF1A1"];
    assert "FTL" != "MT-CO1" && "EEF1A1" != "MT-CO1";
    assert ws[1..] == ["FTL", "EEF1A1"];
    assert ["FTL", "EEF1A1"][1..] == ["EEF1A1"];
    assert Without(["EEF1A1"], "MT-CO1") == ["EEF1A1"];
  }

  /** The words of the sentence tag. */
  function TagWords(): (r: seq<string>)
    ensures Split(SentenceTag) == r
    ensures Join(" ", r) == SentenceTag
  {
    assert SentenceTag == "Aging" + " " + "related" + " " + ("cell" + " " + "sentence:") by {
      assert "Aging related " == "Aging" + " " + "related" + " ";
      assert "cell sentence:" == "cell" + " " + "sentence:";
    }
    assert IsWord("Aging") && IsWord("related") && IsWord("cell") && IsWord("sentence:");
    FourWords("Aging", "related", "cell", "sentence:");
    ["Aging", "related", "cell", "sentence:"]
  }

  lemma FourWords(a: string, b: string, c: string, d: string)
    requires IsWord(a) && IsWord(b) && IsWord(c) && IsWord(d)
    ensures Join(" ", [a, b, c, d]) == a + " " + b + " " + (c + " " + d)
    ensures Split(a + " " + b + " " + (c + " " + d)) == [a, b, c, d]
  {
    var r := [a, b, c, d];
    JoinCons(" ", c, [d]);
    JoinCons(" ", b, [c, d]);
    JoinCons(" ", a, [b, c, d]);
    assert [a] + [b, c, d] == r;
    assert [b] + [c, d] == [b, c, d];
    assert [c] + [d] == [c, d];
    TagRegroup(a, b, c, d);
    SplitJoin(r);
  }

  lemma TagRegroup(a: string, b: string, c: string, d: string)
    ensures a + " " + (b + " " + (c + " " + d)) == a + " " + b + " " + (c + " " + d)
  {
  }

  /** The words after the sentence: "Predict", then the rest of the two
      instruction lines. */
  function PredictWords(): (r: seq<string>)
    ensures Split(AfterSentence) == ["Predict"] + r
  {
    var q1, q2 := "the Age of the donor ", "from whom these cells were taken.";
    assert PredictLine == "Predict" + [' '] + (q1 + q2) by {
      assert "Predict the Age of the donor " == "Predict" + [' '] + q1;
    }
    assert IsWord("Predict");
    AfterWords(PredictLine, AnswerLine, "Predict", q1 + q2);
    Split(q1 + q2) + Split(AnswerLine)
  }

  lemma AfterWords(p: string, a: string, w: string, q: string)
    requires p == w + [' '] + q && IsWord(w)
    ensures Split("\n" + p + "\n" + a) == [w] + (Split(q) + Split(a))
  {
    var x := p + ['\n'] + a;
    LinesShape(p, a);
    BreakThen(x);
    SplitAround(p, '\n', a);
    WordThen(w, q);
    WordsAssoc([w], Split(q), Split(a));
  }

  lemma LinesShape(p: string, a: string)
    ensures "\n" + p + "\n" + a == ['\n'] + (p + ['\n'] + a)
  {
  }

  lemma WordsAssoc(x: seq<string>, y: seq<string>, z: seq<string>)
    ensures x + y + z == x + (y + z)
  {
  }

  lemma BreakThen(x: string)
    ensures Split(['\n'] + x) == Split(x)
  {
    assert (['\n'] + x)[1..] == x;
  }

  lemma WordThen(w: string, q: string)
    requires IsWord(w)
    ensures Split(w + [' '] + q) == [w] + Split(q)
  {
    SplitAround(w, ' ', q);
    SplitJoin([w]);
  }

  lemma ExampleMiddle()
    ensures Join(" ", TagWords() + ["FTL", "EEF1A1", "Predict"]) == SentenceTag + " " + "FTL EEF1A1" + " " + "Predict"
  {
    var w := ["FTL", "EEF1A1", "Predict"];
    JoinAppend(" ", TagWords(), w);
    JoinCons(" ", "EEF1A1", ["Predict"]);
    JoinCons(" ", "FTL", ["EEF1A1", "Predict"]);
    assert ["FTL"] + ["EEF1A1", "Predict"] == w;
    assert ["EEF1A1"] + ["Predict"] == ["EEF1A1", "Predict"];
  }

  /** Knocking MT-CO1 out of "MT-CO1 FTL EEF1A1" with female blood metadata: the
      ages are 45 and 43.5, the delta -1.5, the knockout sentence "FTL EEF1A1",
      and there is no warning. */
  lemma ExampleKnockout(baseUrl: string, model: string)
    ensures var r := InsilicoKnockout(ExampleOracle(), "MT-CO1", "MT-CO1 FTL EEF1A1", baseUrl, model, ExampleMeta, DefaultParams);
      && r.Success?
      && r.value.agePrediction == 45.0
      && r.value.agePredictionWithKnockout == 43.5
      && r.value.deltaAge == -1.5
      && r.value.knockoutGeneSentence == "FTL EEF1A1"
      && r.value.warning == None
  {
    var s, g := "MT-CO1 FTL EEF1A1", "MT-CO1";
    ExampleSentenceWords();
    ExampleKnockoutSentence();
    ExampleBareReply();
    ExamplePaddedReply();
    assert !AllSpace(s) by {
      assert !IsSpace(s[0]);
    }
    ExampleReplies(baseUrl, model);
  }

  /** The example service sees MT-CO1 in the first prompt and not in the second. */
  lemma ExampleReplies(baseUrl: string, model: string)
    ensures var s, g := "MT-CO1 FTL EEF1A1", "MT-CO1";
      && ExampleOracle()(PredictionRequest(baseUrl, model, ExampleMeta, s, DefaultParams, None)) == Success("45")
      && ExampleOracle()(PredictionRequest(baseUrl, model, ExampleMeta, s, DefaultParams, Some(g))) == Success(" 43.5\n")
  {
    ExampleFirstReply(baseUrl, model, ExampleMeta);
    ExampleSecondReply(baseUrl, model);
  }

  lemma ExampleFirstReply(baseUrl: string, model: string, meta: Metadata)
    ensures ExampleOracle()(PredictionRequest(baseUrl, model, meta, "MT-CO1 FTL EEF1A1", DefaultParams, None)) == Success("45")
  {
    ExampleSentenceWords();
    assert Split("MT-CO1 FTL EEF1A1")[0] == "MT-CO1";
    FirstReplyWhenPresent(baseUrl, model, meta, "MT-CO1 FTL EEF1A1");
  }

  lemma FirstReplyWhenPresent(baseUrl: string, model: string, meta: Metadata, s: string)
    requires |Split(s)| > 0 && Split(s)[0] == "MT-CO1"
    ensures ExampleOracle()(PredictionRequest(baseUrl, model, meta, s, DefaultParams, None)) == Success("45")
  {
    SentenceInPrompt(meta, s, 0);
  }

  lemma ExampleSecondReply(baseUrl: string, model: string)
    ensures ExampleOracle()(PredictionRequest(baseUrl, model, ExampleMeta, "MT-CO1 FTL EEF1A1", DefaultParams, Some("MT-CO1")))
      == Success(" 43.5\n")
  {
    ExampleSentenceShape();
    ExampleGeneOnlyInSentence();
    KnockoutPromptWordsAsWritten(ExampleMeta, "MT-CO1 FTL EEF1A1", "MT-CO1");
  }

  /** A gene that is not in the sentence is no error: once both predictions
      succeed, the result carries the warning. */
  lemma {:induction false} ExampleGeneNotFound(oracle: Oracle, baseUrl: string, model: string, meta: Metadata)
    ensures InsilicoKnockout(oracle, "TP53", "MT-CO1 FTL EEF1A1", baseUrl, model, meta, DefaultParams).Success? ==>
      InsilicoKnockout(oracle, "TP53", "MT-CO1 FTL EEF1A1", baseUrl, model, meta, DefaultParams).value.warning
        == Some(NotFoundWarning("TP53"))
  {
    ExampleTP53Absent();
    WarningWhenAbsent(oracle, "TP53", "MT-CO1 FTL EEF1A1", baseUrl, model, meta, DefaultParams);
  }

  lemma ExampleTP53Absent()
    ensures "TP53" !in Split("MT-CO1 FTL EEF1A1")
  {
    ExampleSentenceWords();
    AbsentOfThree("TP53", "MT-CO1", "FTL", "EEF1A1", "MT-CO1 FTL EEF1A1");
  }

  lemma AbsentOfThree(g: string, a: string, b: string, c: string, s: string)
    requires Split(s) == [a, b, c] && g != a && g != b && g != c
    ensures g !in Split(s)
  {
  }

  lemma WarningWhenAbsent(oracle: Oracle, gene: string, sentence: string, baseUrl: string, model: string,
                          meta: Metadata, params: GenerationParams)
    requires gene !in Split(sentence)
    ensures var r := InsilicoKnockout(oracle, gene, sentence, baseUrl, model, meta, params);
      r.Success? ==> r.value.warning == Some(NotFoundWarning(gene))
  {
  }

  lemma ExampleEmptySentence(oracle: Oracle, baseUrl: string, model: string, meta: Metadata)
    ensures InsilicoKnockout(oracle, "FTL", " \t\n", baseUrl, model, meta, DefaultParams) == Failure(EmptySentence)
  {
    assert AllSpace(" \t\n");
  }
}

=== FILE: numbers.dfy ===
/**
 * Decimal integers as text: `str(n)` for the smoking status written into a
 * prompt, and Python's `int(text)` used to read it back.
 */
module Numbers {
  import opened Wrappers
  import opened Text

  /** An ASCII decimal digit. */
  predicate IsDigit(c: char) {
    '0' <= c <= '9'
  }

  predicate AllDigits(s: string) {
    forall i :: 0 <= i < |s| ==> IsDigit(s[i])
  }

  predicate NoDigit(s: string) {
    forall i :: 0 <= i < |s| ==> !IsDigit(s[i])
  }

  function DigitValue(c: char): nat
    requires IsDigit(c)
  {
    (c as int) - ('0' as int)
  }

  function DigitChar(d: nat): (c: char)
    requires d < 10
    ensures IsDigit(c) && DigitValue(c) == d
  {
    (('0' as int) + d) as char
  }

  /** The value of a string of decimal digits, most significant first. */
  function DigitsValue(s: string): nat
    requires AllDigits(s)
    decreases |s|
  {
    if |s| == 0 then 0 else 10 * DigitsValue(s[..|s| - 1]) + DigitValue(s[|s| - 1])
  }

  function Pow10(n: nat): (p: nat)
    ensures p >= 1
  {
    if n == 0 then 1 else 10 * Pow10(n - 1)
  }

  /** Digits written after `a` shift `a`'s value up by one place each. */
  lemma {:induction false} DigitsAppend(a: string, b: string)
    requires AllDigits(a) && AllDigits(b)
    ensures AllDigits(a + b)
    ensures DigitsValue(a + b) == DigitsValue(a) * Pow10(|b|) + DigitsValue(b)
    decreases |b|
  {
    DigitsConcat(a, b);
    if |b| == 0 {
      assert a + b == a;
    } else {
      var b' := b[..|b| - 1];
      DigitsConcat(a, b');
      LastOfConcat(a, b);
      DigitsAppend(a, b');
      ShiftArith(DigitsValue(a), DigitsValue(b'), Pow10(|b'|), DigitValue(b[|b| - 1]));
    }
  }

  lemma DigitsConcat(a: string, b: string)
    requires AllDigits(a) && AllDigits(b)
    ensures AllDigits(a + b)
  {
    forall i | 0 <= i < |a + b| ensures IsDigit((a + b)[i]) {
      if i >= |a| {
        assert (a + b)[i] == b[i - |a|];
      }
    }
  }

  lemma LastOfConcat(a: string, b: string)
    requires |b| > 0
    ensures (a + b)[..|a + b| - 1] == a + b[..|b| - 1]
    ensures (a + b)[|a + b| - 1] == b[|b| - 1]
  {
  }

  lemma ShiftArith(x: nat, y: nat, p: nat, d: nat)
    ensures 10 * (x * p + y) + d == x * (10 * p) + (10 * y + d)
  {
    MulShift(x, p);
  }

  lemma MulShift(x: nat, p: nat)
    ensures 10 * (x * p) == x * (10 * p)
  {
  }

  function NatToString(n: nat): (r: string)
    ensures |r| > 0 && AllDigits(r)
    ensures DigitsValue(r) == n
    ensures |r| > 1 ==> r[0] != '0'
    decreases n
  {
    if n < 10 then [DigitChar(n)]
    else
      var r := NatToString(n / 10) + [DigitChar(n % 10)];
      assert r[..|r| - 1] == NatToString(n / 10);
      r
  }

  /** `str(n)` (and `f"{n}"`) for any integer. */
  function IntToString(n: int): (r: string)
    ensures |r| > 0
    ensures r[0] == '-' <==> n < 0
    ensures forall i :: 0 <= i < |r| ==> IsDigit(r[i]) || (i == 0 && r[i] == '-')
  {
    if n < 0 then "-" + NatToString(-n) else NatToString(n)
  }

  /** The digit part Python's `int()` accepts: digits, with single underscores
      allowed between two digits. */
  predicate IsDigitGroups(s: string)
    decreases |s|
  {
    && |s| > 0
    && IsDigit(s[0])
    && (|s| == 1 || IsDigitGroups(s[1..]) || (|s| > 2 && s[1] == '_' && IsDigitGroups(s[2..])))
  }

  /** `s` with its underscores removed. */
  function DropUnderscores(s: string): (r: string)
    ensures (forall i :: 0 <= i < |s| ==> IsDigit(s[i]) || s[i] == '_') ==> AllDigits(r)
    ensures '_' !in s ==> r == s
    decreases |s|
  {
    if |s| == 0 then ""
    else (if s[0] == '_' then "" else [s[0]]) + DropUnderscores(s[1..])
  }

  lemma {:induction false} DigitGroupsChars(s: string)
    requires IsDigitGroups(s)
    ensures forall i :: 0 <= i < |s| ==> IsDigit(s[i]) || s[i] == '_'
    decreases |s|
  {
    if |s| > 1 {
      if IsDigitGroups(s[1..]) {
        DigitGroupsChars(s[1..]);
        assert forall i :: 1 <= i < |s| ==> s[i] == s[1..][i - 1];
      } else {
        DigitGroupsChars(s[2..]);
        assert forall i :: 2 <= i < |s| ==> s[i] == s[2..][i - 2];
      }
    }
  }

  /** The value of an accepted digit part. */
  function DigitGroupsValue(s: string): nat
    requires IsDigitGroups(s)
  {
    DigitGroupsChars(s);
    DigitsValue(DropUnderscores(s))
  }

  /** Python's `int(text)` in base 10: optional surrounding whitespace, an optional
      sign, then digit groups; `None` where Python raises `ValueError`. */
  function ParseInt(text: string): (r: Option<int>)
    ensures var s := Strip(text); |s| > 0 && AllDigits(s) ==> r == Some(DigitsValue(s))
    ensures r.Some? && r.value < 0 ==> |Strip(text)| > 0 && Strip(text)[0] == '-'
  {
    var s := Strip(text);
    PlainDigits(s);
    if |s| > 0 && (s[0] == '-' || s[0] == '+') then
      var body := s[1..];
      if IsDigitGroups(body) then
        var v: int := DigitGroupsValue(body);
        Some(if s[0] == '-' then -v else v)
      else None
    else if IsDigitGroups(s) then
      Some(DigitGroupsValue(s))
    else None
  }

  lemma {:induction false} AllDigitsAreGroups(s: string)
    requires |s| > 0 && AllDigits(s)
    ensures IsDigitGroups(s)
    decreases |s|
  {
    if |s| > 1 {
      AllDigitsAreGroups(s[1..]);
    }
  }

  /** The shape of a text `int()` accepts once stripped: an optional sign,
      then digits with single underscores between them. */
  predicate IntText(s: string) {
    && |s| > 0
    && IsDigit(s[|s| - 1])
    && (IsDigit(s[0]) || (|s| > 1 && (s[0] == '+' || s[0] == '-') && IsDigit(s[1])))
    && (forall i :: 0 < i < |s| ==> IsDigit(s[i]) || s[i] == '_')
  }

  lemma {:induction false} DigitGroupsEnd(s: string)
    requires IsDigitGroups(s)
    ensures IsDigit(s[|s| - 1])
    decreases |s|
  {
    if |s| > 1 {
      if IsDigitGroups(s[1..]) {
        DigitGroupsEnd(s[1..]);
      } else {
        DigitGroupsEnd(s[2..]);
      }
    }
  }

  /** `int()` refuses every text that is not, once stripped, a sign and digit
      groups: no digit, a letter, a decimal point, an inner space or a
      trailing underscore all make it `None`. */
  lemma ParseIntAccepts(text: string)
    ensures ParseInt(text).Some? ==> IntText(Strip(text))
  {
    var s := Strip(text);
    if |s| > 0 && (s[0] == '-' || s[0] == '+') {
      if IsDigitGroups(s[1..]) {
        SignedIntText(s);
      }
    } else if IsDigitGroups(s) {
      GroupsIntText(s);
    }
  }

  lemma SignedIntText(s: string)
    requires |s| > 0 && (s[0] == '-' || s[0] == '+') && IsDigitGroups(s[1..])
    ensures IntText(s)
  {
    var body := s[1..];
    DigitGroupsChars(body);
    DigitGroupsEnd(body);
    forall i | 0 < i < |s| ensures IsDigit(s[i]) || s[i] == '_' {
      assert s[i] == body[i - 1];
    }
  }

  lemma GroupsIntText(s: string)
    requires IsDigitGroups(s)
    ensures IntText(s)
  {
    DigitGroupsChars(s);
    DigitGroupsEnd(s);
  }

  /** A word is not an integer. */
  lemma ExampleWordRefused()
    ensures ParseInt("yes") == None
  {
    Refused("yes", 0);
  }

  /** Nor is a decimal fraction. */
  lemma ExampleFractionRefused()
    ensures ParseInt("1.5") == None
  {
    Refused("1.5", 1);
  }

  /** A trimmed text with a character other than a digit or '_' after its
      first is refused. */
  lemma Refused(s: string, k: nat)
    requires Trimmed(s) && k < |s| && !IsDigit(s[k]) && s[k] != '_' && s[k] != '+' && s[k] != '-'
    ensures ParseInt(s) == None
  {
    NotIntText(s, k);
    StripTrimmed(s);
    ParseIntAccepts(s);
  }

  lemma NotIntText(s: string, k: nat)
    requires k < |s| && !IsDigit(s[k]) && s[k] != '_' && s[k] != '+' && s[k] != '-'
    ensures !IntText(s)
  {
    if k > 0 {
      assert !(IsDigit(s[k]) || s[k] == '_');
    }
  }

  /** Plain digits are an accepted digit part with nothing to drop. */
  lemma PlainDigits(s: string)
    ensures |s| > 0 && AllDigits(s) ==> IsDigitGroups(s) && DropUnderscores(s) == s
  {
    if |s| > 0 && AllDigits(s) {
      AllDigitsAreGroups(s);
    }
  }

  /** Text without surrounding whitespace is returned unchanged by `str.strip()`. */
  lemma StripTrimmed(s: string)
    requires Trimmed(s)
    ensures Strip(s) == s
  {
    assert s[0..0 + |s|] == s;
    assert s[..0] == [] && s[|s|..] == [];
    StripPadded(s, s, 0);
  }

  /** `int(str(n)) == n`. */
  lemma ParseIntToString(n: int)
    ensures ParseInt(IntToString(n)) == Some(n)
  {
    var s := IntToString(n);
    assert !IsSpace(s[0]) && !IsSpace(s[|s| - 1]);
    StripTrimmed(s);
    var digits := NatToString(if n < 0 then -n else n);
    AllDigitsAreGroups(digits);
    assert '_' !in digits;
    if n < 0 {
      assert s[1..] == digits;
    } else {
      assert s == digits;
      assert s[0] != '-' && s[0] != '+';
    }
  }
}

=== FILE: prompt.dfy ===
/**
 * The text sent to the age-prediction model: a fixed header, the optional
 * donor metadata lines, the cell sentence and the answer cue, one per line;
 * and the surgery that takes a gene symbol out of such a prompt for a
 * knockout experiment.
 */
module Prompt {
  import opened Wrappers
  import opened Text
  import opened Numbers

  /** Optional donor metadata. `smokingStatus` is 0 for a non-smoker and 1 for a
      smoker, but any integer is accepted. */
  datatype Metadata = Metadata(
    sex: Option<string>,
    smokingStatus: Option<int>,
    tissue: Option<string>,
    cellType: Option<string>)

  const NoMetadata := Metadata(None, None, None, None)

  /** Python truthiness of an optional string: present and non-empty. */
  predicate Given(v: Option<string>) {
    v.Some? && |v.value| > 0
  }

  // The fixed wording of the prompt. Long lines are spelled in short pieces.

  const Header: string := "The following is a list of aging " + "related gene names ordered by "
    + "descending expression level " + "in a cell."
  const SexTag: string := "Sex:"
  const SmokingTag: string := "Smoking status:"
  const TissueTag: string := "Tissue:"
  const CellTypeTag: string := "Cell type:"
  const SentenceTag: string := "Aging related " + "cell sentence:"
  const PredictLine: string := "Predict the Age of the donor " + "from whom these cells were taken."
  const AnswerLine: string := "Answer only with age value " + "in years:"

  /** A labelled line, `f"{tag} {value}"`. */
  function Line(tag: string, value: string): string {
    tag + " " + value
  }

  /** The line for an optional text field, present only when the value is truthy. */
  function TextLine(tag: string, v: Option<string>): seq<string> {
    if Given(v) then [Line(tag, v.value)] else []
  }

  /** The smoking line is present whenever a value is given, even 0. */
  function SmokingLine(v: Option<int>): seq<string> {
    if v.Some? then [Line(SmokingTag, IntToString(v.value))] else []
  }

  function MetadataLines(m: Metadata): seq<string> {
    TextLine(SexTag, m.sex) + SmokingLine(m.smokingStatus)
    + TextLine(TissueTag, m.tissue) + TextLine(CellTypeTag, m.cellType)
  }

  function Tail(sentence: string): seq<string> {
    [Line(SentenceTag, sentence), PredictLine, AnswerLine]
  }

  /** The prompt as built: `"\n".join(parts)` where the first part is the header
      with its own trailing newline, so a blank line follows it. */
  function BuildPrompt(m: Metadata, sentence: string): string {
    Join("\n", [Header + "\n"] + MetadataLines(m) + Tail(sentence))
  }

  /** The lines of the prompt, as `prompt.split('\n')` sees them. */
  function PromptLines(m: Metadata, sentence: string): seq<string> {
    [Header, ""] + MetadataLines(m) + Tail(sentence)
  }

  predicate OneLine(s: string) {
    '\n' !in s
  }

  predicate MetadataOneLine(m: Metadata) {
    && (m.sex.Some? ==> OneLine(m.sex.value))
    && (m.tissue.Some? ==> OneLine(m.tissue.value))
    && (m.cellType.Some? ==> OneLine(m.cellType.value))
  }

  lemma OneLineAppend(a: string, b: string)
    requires OneLine(a) && OneLine(b)
    ensures OneLine(a + b)
  {
  }

  lemma HeaderOneLine()
    ensures OneLine(Header)
  {
    var p1, p2 := "The following is a list of aging ", "related gene names ordered by ";
    var p3, p4 := "descending expression level ", "in a cell.";
    assert OneLine(p1) && OneLine(p2);
    assert OneLine(p3) && OneLine(p4);
    OneLineAppend(p1, p2);
    OneLineAppend(p1 + p2, p3);
    OneLineAppend(p1 + p2 + p3, p4);
  }

  lemma FixedLinesOneLine()
    ensures OneLine(SentenceTag) && OneLine(PredictLine) && OneLine(AnswerLine)
  {
    var s1, s2 := "Aging related ", "cell sentence:";
    var q1, q2 := "Predict the Age of the donor ", "from whom these cells were taken.";
    var a1, a2 := "Answer only with age value ", "in years:";
    assert OneLine(s1) && OneLine(s2);
    assert OneLine(q1) && OneLine(q2);
    assert OneLine(a1) && OneLine(a2);
    OneLineAppend(s1, s2);
    OneLineAppend(q1, q2);
    OneLineAppend(a1, a2);
  }

  lemma TagsOneLine()
    ensures OneLine(SexTag) && OneLine(SmokingTag) && OneLine(TissueTag) && OneLine(CellTypeTag)
  {
  }

  lemma IntToStringOneLine(n: int)
    ensures OneLine(IntToString(n))
  {
    var s := IntToString(n);
    assert forall i :: 0 <= i < |s| ==> s[i] != '\n';
  }

  lemma LinesOneLine(m: Metadata, sentence: string)
    requires MetadataOneLine(m) && OneLine(sentence)
    ensures forall i :: 0 <= i < |PromptLines(m, sentence)| ==> OneLine(PromptLines(m, sentence)[i])
  {
    HeaderOneLine();
    FixedLinesOneLine();
    TagsOneLine();
    if m.smokingStatus.Some? {
      IntToStringOneLine(m.smokingStatus.value);
    }
  }

  /** With newline-free metadata values and sentence, splitting the prompt on
      newlines gives the header, a blank line, one line per metadata field
      present, the sentence line and the two instruction lines. */
  lemma BuildPromptLines(m: Metadata, sentence: string)
    requires MetadataOneLine(m) && OneLine(sentence)
    ensures SplitOn(BuildPrompt(m, sentence), '\n') == PromptLines(m, sentence)
  {
    BlankAfterHeader(Header, MetadataLines(m), Tail(sentence));
    LinesOneLine(m, sentence);
    SplitOnJoin(PromptLines(m, sentence), '\n');
  }

  lemma BlankAfterHeader(h: string, a: seq<string>, b: seq<string>)
    requires |b| > 0
    ensures Join("\n", [h + "\n"] + a + b) == Join("\n", [h, ""] + a + b)
  {
    assert [h + "\n"] + a + b == [h + "\n"] + (a + b);
    assert [h, ""] + a + b == [h, ""] + (a + b);
    BlankAfterFirst(h, a + b);
  }

  /** A part ending in the separator reads as that part followed by an empty one. */
  lemma {:induction false} BlankAfterFirst(h: string, rest: seq<string>)
    requires |rest| > 0
    ensures Join("\n", [h + "\n"] + rest) == Join("\n", [h, ""] + rest)
  {
    var j := Join("\n", rest);
    var built, lines := [h + "\n"] + rest, [h, ""] + rest;
    assert built[1..] == rest;
    assert Join("\n", built) == (h + "\n") + "\n" + j;
    assert ([""] + rest)[1..] == rest;
    assert Join("\n", [""] + rest) == "" + "\n" + j;
    assert lines[1..] == [""] + rest;
    assert Join("\n", lines) == h + "\n" + ("" + "\n" + j);
  }

  // ---------------------------------------------------------------------------
  // Removing a gene symbol

  /** `[w for w in ws if w != g]`. */
  function Without(ws: seq<string>, g: string): (r: seq<string>)
    ensures g !in r
    ensures AllWords(ws) ==> AllWords(r)
  {
    if |ws| == 0 then []
    else
      var rest := Without(ws[1..], g);
      if ws[0] == g then rest else [ws[0]] + rest
  }

  /** Every other word keeps its number of occurrences, and exactly the
      occurrences of `g` are gone. */
  lemma {:induction false} WithoutCounts(ws: seq<string>, g: string)
    ensures forall w :: w != g ==> multiset(Without(ws, g))[w] == multiset(ws)[w]
    ensures |Without(ws, g)| == |ws| - multiset(ws)[g]
    decreases |ws|
  {
    if |ws| > 0 {
      WithoutCounts(ws[1..], g);
      assert ws == [ws[0]] + ws[1..];
    }
  }

  /** Filtering commutes with concatenation, so it keeps the order of the
      remaining words. */
  lemma {:induction false} WithoutAppend(a: seq<string>, b: seq<string>, g: string)
    ensures Without(a + b, g) == Without(a, g) + Without(b, g)
    decreases |a|
  {
    if |a| == 0 {
      assert a + b == b;
    } else {
      assert (a + b)[0] == a[0];
      assert (a + b)[1..] == a[1..] + b;
      WithoutAppend(a[1..], b, g);
    }
  }

  /** Filtering out a word that is not there changes nothing. */
  lemma {:induction false} WithoutAbsent(ws: seq<string>, g: string)
    requires g !in ws
    ensures Without(ws, g) == ws
    decreases |ws|
  {
    if |ws| > 0 {
      assert g !in ws[1..];
      WithoutAbsent(ws[1..], g);
    }
  }

  /** Removing the gene from the whole prompt, as the knockout prediction
      intends it: every whitespace-separated token equal to the gene is dropped
      and whitespace runs become one space. When no gene is given the prompt is
      left alone. */
  function RemoveGene(prompt: string, gene: Option<string>): (r: string)
    ensures !Given(gene) ==> r == prompt
    ensures Given(gene) ==> Split(r) == Without(Split(prompt), gene.value)
    ensures Given(gene) ==> gene.value !in Split(r)
  {
    if Given(gene) then
      var ws := Without(Split(prompt), gene.value);
      SplitJoin(ws);
      Join(" ", ws)
    else prompt
  }

  /** The removal as the code performs it: three plain substring replacements,
      `" g "` by `" "`, then `" g"` and `"g "` by nothing, followed by
      `re.sub(r'\s+', ' ', ...)`. */
  function RemoveGeneAsWritten(prompt: string, gene: Option<string>): (r: string)
    ensures !Given(gene) ==> r == prompt
    ensures Given(gene) ==> SingleSpaced(r)
    ensures Given(gene) && !Contains(prompt, gene.value) ==> r == Collapse(prompt)
  {
    if Given(gene) then
      var g := gene.value;
      var a := ReplaceAll(prompt, " " + g + " ", " ");
      var b := ReplaceAll(a, " " + g, "");
      var c := ReplaceAll(b, g + " ", "");
      CollapseIsSingleSpaced(c);
      PassesKeepAbsent(prompt, g);
      Collapse(c)
    else prompt
  }

  /** Each pattern built around `g` occurs only where `g` does. */
  lemma NoWiderOccurrence(s: string, g: string)
    ensures Contains(s, " " + g + " ") ==> Contains(s, g)
    ensures Contains(s, " " + g) ==> Contains(s, g)
    ensures Contains(s, g + " ") ==> Contains(s, g)
  {
    if Contains(s, " " + g + " ") {
      ContainsInner(s, " ", g, " ");
    }
    if Contains(s, " " + g) {
      assert " " + g + "" == " " + g;
      ContainsInner(s, " ", g, "");
    }
    if Contains(s, g + " ") {
      assert "" + g + " " == g + " ";
      ContainsInner(s, "", g, " ");
    }
  }

  /** None of the three replacements changes text without the gene. */
  lemma PassesKeepAbsent(s: string, g: string)
    requires |g| > 0
    ensures !Contains(s, g) ==> ReplaceAll(s, " " + g + " ", " ") == s
    ensures !Contains(s, g) ==> ReplaceAll(s, " " + g, "") == s
    ensures !Contains(s, g) ==> ReplaceAll(s, g + " ", "") == s
  {
    if !Contains(s, g) {
      NoWiderOccurrence(s, g);
      ReplaceAbsent(s, " " + g + " ", " ");
      ReplaceAbsent(s, " " + g, "");
      ReplaceAbsent(s, g + " ", "");
    }
  }

  /** When the gene does not occur in the prompt at all, the code as written
      and the token removal keep the same words: the prompt's own. */
  lemma RemovalAgreesWhenAbsent(prompt: string, g: string)
    requires |g| > 0 && !Contains(prompt, g)
    ensures Split(RemoveGeneAsWritten(prompt, Some(g))) == Split(prompt)
    ensures Split(RemoveGene(prompt, Some(g))) == Split(prompt)
  {
    SplitCollapse(prompt);
    if g in Split(prompt) {
      var k :| 0 <= k < |Split(prompt)| && Split(prompt)[k] == g;
      SplitWordOccurs(prompt, k);
    }
    WithoutAbsent(Split(prompt), g);
  }

  /** The substring replacement also eats the gene's symbol out of a longer
      symbol that starts with it. For any word `x`, gene `g` and one further
      character `b`, the text `x g gb` loses `g`, then the " g" in front of
      `gb`, and what is left of `gb` is glued to `x`: the result is `xb`. */
  lemma FusesNeighbours(x: string, g: string, b: char)
    requires IsWord(x) && IsWord(g) && !IsSpace(b)
    ensures RemoveGeneAsWritten(x + " " + g + " " + g + [b], Some(g)) == x + [b]
  {
    var p1, p2, p3 := " " + g + " ", " " + g, g + " ";
    var s := x + " " + g + " " + g + [b];
    assert forall i :: 0 <= i < |x| ==> x[i] != ' ';
    assert p1[0] == ' ' && p2[0] == ' ' && p3[|g|] == ' ';
    // " g " becomes " "
    assert s == x + (p1 + (g + [b]));
    ReplaceAcrossWord(x, p1 + (g + [b]), p1, " ");
    ReplaceHit(p1, g + [b], " ");
    ReplaceShort(g + [b], p1, " ");
    var a := x + (" " + (g + [b]));
    // " g" becomes ""
    assert a == x + (p2 + [b]);
    ReplaceAcrossWord(x, p2 + [b], p2, "");
    ReplaceHit(p2, [b], "");
    ReplaceShort([b], p2, "");
    var c := x + [b];
    assert x + ("" + [b]) == c;
    // "g " does not occur any more, and there is no whitespace to collapse
    assert forall i :: 0 <= i < |c| ==> !IsSpace(c[i]);
    NoSpaceNoOccurrence(c, p3, |g|);
    ReplaceAbsent(c, p3, "");
    CollapseWord(c, "");
    assert c + "" == c;
  }

  /** Token removal on the same text keeps `x` and `gb` as they were. */
  lemma TokenRemovalKeeps(x: string, g: string, b: char)
    requires IsWord(x) && IsWord(g) && !IsSpace(b) && x != g
    ensures RemoveGene(x + " " + g + " " + g + [b], Some(g)) == x + " " + g + [b]
  {
    var gb := g + [b];
    assert IsWord(gb);
    AppendAssoc(x + " " + g + " ", g, [b]);
    ThreeWords(x, g, gb);
    WithoutMiddle(x, g, gb);
    TwoWords(x, gb);
    AppendAssoc(x + " ", g, [b]);
  }

  lemma ThreeWords(x: string, g: string, y: string)
    requires IsWord(x) && IsWord(g) && IsWord(y)
    ensures Split(x + " " + g + " " + y) == [x, g, y]
  {
    var ws := [x, g, y];
    JoinCons(" ", g, [y]);
    JoinCons(" ", x, [g, y]);
    assert ws == [x] + [g, y] && [g, y] == [g] + [y];
    assert Join(" ", ws) == x + " " + (g + " " + y);
    assert x + " " + (g + " " + y) == x + " " + g + " " + y;
    SplitJoin(ws);
  }

  lemma WithoutMiddle(x: string, g: string, y: string)
    requires x != g && y != g
    ensures Without([x, g, y], g) == [x, y]
  {
    var ws := [x, g, y];
    assert [y][1..] == [];
    assert Without([y], g) == [y] + Without([], g);
    assert ws[1..] == [g, y] && ws[1..][1..] == [y];
    assert Without(ws, g) == [x] + Without([y], g);
  }

  lemma TwoWords(x: string, y: string)
    ensures Join(" ", [x, y]) == x + " " + y
  {
    JoinCons(" ", x, [y]);
    assert [x, y] == [x] + [y];
  }

  /** Knocking FOS out of "JUN FOS FOSB": the code as written leaves "JUNB",
      another gene's symbol; token removal leaves "JUN FOSB". */
  lemma AsWrittenFusesNeighbours()
    ensures RemoveGeneAsWritten("JUN" + " " + "FOS" + " " + "FOS" + "B", Some("FOS")) == "JUN" + "B"
    ensures RemoveGene("JUN" + " " + "FOS" + " " + "FOS" + "B", Some("FOS")) == "JUN" + " " + "FOS" + "B"
  {
    assert IsWord("JUN") && IsWord("FOS") && !IsSpace('B') && "JUN" != "FOS";
    assert "B" == ['B'];
    FusesNeighbours("JUN", "FOS", 'B');
    TokenRemovalKeeps("JUN", "FOS", 'B');
  }
}

=== FILE: removal.dfy ===
/**
 * What the three substring replacements of the knockout prompt actually do to
 * a run of space-separated words, worked out pass by pass: `" g "` by `" "`,
 * then `" g"` by `""`, then `"g "` by `""`. For words that neither start nor
 * end with the gene's symbol (other than the symbol itself) the result keeps
 * exactly the words that differ from it, which is what removing the gene as a
 * token does.
 */
module GeneRemoval {
  import opened Wrappers
  import opened Text
  import opened Prompt

  /** Every word is the gene itself or neither starts nor ends with it: no
      other symbol has the gene's symbol as a prefix or a suffix. */
  predicate Isolated(ws: seq<string>, g: string) {
    forall i :: 0 <= i < |ws| ==> ws[i] == g || (!StartsWith(ws[i], g) && !EndsWith(ws[i], g))
  }

  /** Each word preceded by one space: `" " + " ".join(u)` for non-empty `u`. */
  function Spaced(u: seq<string>): (r: string)
    ensures |u| > 0 ==> |r| > 0 && r[0] == ' '
  {
    if |u| == 0 then "" else " " + u[0] + Spaced(u[1..])
  }

  /** The words left by the first pass, `" g "` by `" "`, on `Spaced(u)`:
      every `g` that has a word after it is dropped, except the one right
      after a dropped `g`, whose leading space the scan has already used. */
  function FirstPassWords(u: seq<string>, g: string): (r: seq<string>)
    ensures |r| <= |u|
    ensures |u| > 0 ==> |r| > 0
    decreases |u|
  {
    if |u| == 0 then []
    else if u[0] == g && |u| > 1 then [u[1]] + FirstPassWords(u[2..], g)
    else [u[0]] + FirstPassWords(u[1..], g)
  }

  // ---------------------------------------------------------------------------
  // Facts about the three patterns at one word

  /** Text that starts with a word and then whitespace (or ends) starts with
      `g` only if the word does. */
  lemma StartsOnlyInWord(w: string, rest: string, g: string)
    requires forall i :: 0 <= i < |w| ==> !IsSpace(w[i])
    requires IsWord(g) && (|rest| == 0 || IsSpace(rest[0]))
    requires StartsWith(w + rest, g)
    ensures StartsWith(w, g)
  {
    if |g| <= |w| {
      assert (w + rest)[..|g|] == w[..|g|];
    } else {
      CharOfOccurrence(w + rest, g, 0, |w|);
      assert false;
    }
  }

  /** Each character of an occurrence is the pattern's character. */
  lemma CharOfOccurrence(s: string, t: string, i: nat, k: nat)
    requires OccursAt(s, t, i) || (i == 0 && StartsWith(s, t))
    requires k < |t|
    ensures s[i + k] == t[k]
  {
    assert s[i..i + |t|][k] == s[i + k];
  }

  /** ... and it starts with `g + " "` only if the word is `g` and what
      follows is a ' '. */
  lemma StartsWithWordSpace(w: string, rest: string, g: string)
    requires forall i :: 0 <= i < |w| ==> !IsSpace(w[i])
    requires IsWord(g) && (|rest| == 0 || IsSpace(rest[0]))
    requires StartsWith(w + rest, g + " ")
    ensures w == g && |rest| > 0 && rest[0] == ' '
  {
    assert (w + rest)[..|g| + 1][..|g|] == g;
    assert StartsWith(w + rest, g);
    StartsOnlyInWord(w, rest, g);
    assert (w + rest)[..|g| + 1][|g|] == ' ';
    assert w == w[..|g|];
  }

  /** A pattern that begins with a space and then `p` is at the start of
      `" " + t` exactly when `p` is at the start of `t`. */
  lemma StartsAfterSpace(t: string, p: string)
    ensures StartsWith([' '] + t, [' '] + p) <==> StartsWith(t, p)
  {
    if |p| <= |t| {
      assert ([' '] + t)[..|p| + 1] == [' '] + t[..|p|];
      assert ([' '] + t[..|p|])[1..] == t[..|p|];
      assert ([' '] + p)[1..] == p;
    }
  }

  /** Scanning for `g + " "` over a word that does not end with `g` copies the
      word. */
  lemma {:induction false} ThirdPassWord(w: string, t: string, g: string)
    requires forall i :: 0 <= i < |w| ==> !IsSpace(w[i])
    requires IsWord(g) && !EndsWith(w, g) && (|t| == 0 || IsSpace(t[0]))
    ensures ReplaceAll(w + t, g + " ", "") == w + ReplaceAll(t, g + " ", "")
    decreases |w|
  {
    if |w| == 0 {
      assert w + t == t;
    } else {
      if StartsWith(w + t, g + " ") {
        StartsWithWordSpace(w, t, g);
        EndsWithSelf(g);
        assert false;
      }
      assert w + t == [w[0]] + (w[1..] + t);
      ReplaceMiss(w[0], w[1..] + t, g + " ", "");
      if EndsWith(w[1..], g) {
        EndsWithTail(w, g);
        assert false;
      }
      ThirdPassWord(w[1..], t, g);
      HeadTail(w);
      AppendAssoc([w[0]], w[1..], ReplaceAll(t, g + " ", ""));
    }
  }

  lemma EndsWithSelf(g: string)
    ensures EndsWith(g, g)
  {
    assert g[|g| - |g|..] == g;
  }

  /** A suffix of the tail is a suffix of the whole. */
  lemma EndsWithTail(w: string, g: string)
    requires |w| > 0 && EndsWith(w[1..], g)
    ensures EndsWith(w, g)
  {
    assert w[|w| - |g|..] == w[1..][|w[1..]| - |g|..];
  }

  // ---------------------------------------------------------------------------
  // The three passes over `Spaced(u) + t`

  /** First pass: `" g "` by `" "`. */
  lemma {:induction false} FirstPass(u: seq<string>, t: string, g: string)
    requires AllWords(u) && IsWord(g)
    requires |t| == 0 || (IsSpace(t[0]) && t[0] != ' ')
    requires !Contains(t, " " + g + " ")
    ensures ReplaceAll(Spaced(u) + t, " " + g + " ", " ") == Spaced(FirstPassWords(u, g)) + t
    decreases |u|
  {
    var p := " " + g + " ";
    if |u| == 0 {
      assert Spaced(u) + t == t;
      ReplaceAbsent(t, p, " ");
    } else {
      var k := if u[0] == g && |u| > 1 then 2 else 1;
      var x, tail := u[k - 1], u[k..];
      assert AllWords(tail) by {
        forall i | 0 <= i < |tail| ensures IsWord(tail[i]) { assert tail[i] == u[i + k]; }
      }
      if k == 2 {
        FirstPassHit(u, t, g);
      } else {
        FirstPassMiss(u, t, g);
      }
      var s2 := Spaced(FirstPassWords(tail, g));
      assert ReplaceAll(Spaced(tail) + t, p, " ") == s2 + t by {
        FirstPass(tail, t, g);
      }
      assert Spaced(FirstPassWords(u, g)) == " " + x + s2 by {
        assert FirstPassWords(u, g) == [x] + FirstPassWords(tail, g);
        assert ([x] + FirstPassWords(tail, g))[1..] == FirstPassWords(tail, g);
      }
      Regroup(" ", x, s2, t);
    }
  }

  /** A `g` with a word after it: `" g "` is replaced and the next word kept. */
  lemma FirstPassHit(u: seq<string>, t: string, g: string)
    requires AllWords(u) && IsWord(g) && |u| > 1 && u[0] == g
    ensures ReplaceAll(Spaced(u) + t, " " + g + " ", " ")
         == " " + (u[1] + ReplaceAll(Spaced(u[2..]) + t, " " + g + " ", " "))
  {
    var p, x, rest := " " + g + " ", u[1], Spaced(u[2..]) + t;
    assert IsWord(x);
    SpacedHead2(u, t);
    ReplaceHit(p, x + rest, " ");
    ReplaceAcrossWord(x, rest, p, " ");
  }

  /** Any other word: the scan copies the space and the word. */
  lemma FirstPassMiss(u: seq<string>, t: string, g: string)
    requires AllWords(u) && IsWord(g) && |u| > 0 && !(u[0] == g && |u| > 1)
    requires |t| == 0 || (IsSpace(t[0]) && t[0] != ' ')
    ensures ReplaceAll(Spaced(u) + t, " " + g + " ", " ")
         == " " + (u[0] + ReplaceAll(Spaced(u[1..]) + t, " " + g + " ", " "))
  {
    var p, w, rest := " " + g + " ", u[0], Spaced(u[1..]) + t;
    assert IsWord(w);
    assert |rest| == 0 || IsSpace(rest[0]);
    SpacedHead(u, t);
    assert p == [' '] + (g + " ");
    if StartsWith([' '] + (w + rest), p) {
      StartsAfterSpace(w + rest, g + " ");
      StartsWithWordSpace(w, rest, g);
    }
    ReplaceMiss(' ', w + rest, p, " ");
    ReplaceAcrossWord(w, rest, p, " ");
  }

  lemma SpacedHead(u: seq<string>, t: string)
    requires |u| > 0
    ensures Spaced(u) + t == [' '] + (u[0] + (Spaced(u[1..]) + t))
  {
  }

  lemma SpacedHead2(u: seq<string>, t: string)
    requires |u| > 1
    ensures Spaced(u) + t == (" " + u[0] + " ") + (u[1] + (Spaced(u[2..]) + t))
  {
    var w, x, r := u[0], u[1], Spaced(u[2..]);
    assert Spaced(u[1..]) == " " + x + r by {
      assert u[1..][0] == x && u[1..][1..] == u[2..];
    }
    assert Spaced(u) == " " + w + (" " + x + r);
    Regroup5(" ", w, x, r, t);
  }

  lemma Regroup5(sp: string, w: string, x: string, r: string, t: string)
    ensures sp + w + (sp + x + r) + t == (sp + w + sp) + (x + (r + t))
  {
  }

  lemma Regroup(a: string, b: string, c: string, d: string)
    ensures a + (b + (c + d)) == a + b + c + d
  {
  }

  /** Second pass: `" g"` by `""`. */
  lemma {:induction false} SecondPass(v: seq<string>, t: string, g: string)
    requires AllWords(v) && IsWord(g)
    requires forall i :: 0 <= i < |v| ==> v[i] == g || !StartsWith(v[i], g)
    requires |t| == 0 || IsSpace(t[0])
    requires !Contains(t, " " + g)
    ensures ReplaceAll(Spaced(v) + t, " " + g, "") == Spaced(Without(v, g)) + t
    decreases |v|
  {
    var p := " " + g;
    if |v| == 0 {
      assert Spaced(v) + t == t;
      ReplaceAbsent(t, p, "");
    } else {
      var w, tail := v[0], v[1..];
      forall i | 0 <= i < |tail| ensures IsWord(tail[i]) && (tail[i] == g || !StartsWith(tail[i], g)) {
        assert tail[i] == v[i + 1];
      }
      var s2 := Spaced(Without(tail, g));
      assert ReplaceAll(Spaced(tail) + t, p, "") == s2 + t by {
        SecondPass(tail, t, g);
      }
      if w == g {
        SecondPassHit(v, t, g);
      } else {
        SecondPassMiss(v, t, g);
        assert Spaced(Without(v, g)) == " " + w + s2 by {
          assert Without(v, g) == [w] + Without(tail, g);
          assert ([w] + Without(tail, g))[1..] == Without(tail, g);
        }
        Regroup(" ", w, s2, t);
      }
    }
  }

  /** The gene itself: `" g"` is dropped. */
  lemma SecondPassHit(v: seq<string>, t: string, g: string)
    requires IsWord(g) && |v| > 0 && v[0] == g
    ensures ReplaceAll(Spaced(v) + t, " " + g, "") == ReplaceAll(Spaced(v[1..]) + t, " " + g, "")
  {
    var p, rest := " " + g, Spaced(v[1..]) + t;
    SpacedHead(v, t);
    assert Spaced(v) + t == p + rest;
    ReplaceHit(p, rest, "");
  }

  /** A word that does not start with the gene: the space and the word are
      copied. */
  lemma SecondPassMiss(v: seq<string>, t: string, g: string)
    requires AllWords(v) && IsWord(g) && |v| > 0 && !StartsWith(v[0], g)
    requires |t| == 0 || IsSpace(t[0])
    ensures ReplaceAll(Spaced(v) + t, " " + g, "") == " " + (v[0] + ReplaceAll(Spaced(v[1..]) + t, " " + g, ""))
  {
    var p, w, rest := " " + g, v[0], Spaced(v[1..]) + t;
    assert IsWord(w);
    assert |rest| == 0 || IsSpace(rest[0]);
    SpacedHead(v, t);
    if StartsWith([' '] + (w + rest), p) {
      StartsAfterSpace(w + rest, g);
      StartsOnlyInWord(w, rest, g);
    }
    ReplaceMiss(' ', w + rest, p, "");
    ReplaceAcrossWord(w, rest, p, "");
  }

  /** Third pass: `"g "` by `""` finds nothing once no word ends with `g`. */
  lemma {:induction false} ThirdPass(x: seq<string>, t: string, g: string)
    requires AllWords(x) && IsWord(g)
    requires forall i :: 0 <= i < |x| ==> !EndsWith(x[i], g)
    requires |t| == 0 || IsSpace(t[0])
    requires !Contains(t, g + " ")
    ensures ReplaceAll(Spaced(x) + t, g + " ", "") == Spaced(x) + t
    decreases |x|
  {
    var p := g + " ";
    if |x| == 0 {
      assert Spaced(x) + t == t;
      ReplaceAbsent(t, p, "");
    } else {
      var w, tail := x[0], x[1..];
      forall i | 0 <= i < |tail| ensures IsWord(tail[i]) && !EndsWith(tail[i], g) {
        assert tail[i] == x[i + 1];
      }
      var rest := Spaced(tail) + t;
      assert ReplaceAll(rest, p, "") == rest by {
        ThirdPass(tail, t, g);
      }
      ThirdPassStep(x, t, g);
      SpacedHead(x, t);
    }
  }

  lemma ThirdPassStep(x: seq<string>, t: string, g: string)
    requires AllWords(x) && IsWord(g) && |x| > 0 && !EndsWith(x[0], g)
    requires |t| == 0 || IsSpace(t[0])
    ensures ReplaceAll(Spaced(x) + t, g + " ", "") == [' '] + (x[0] + ReplaceAll(Spaced(x[1..]) + t, g + " ", ""))
  {
    var p, w, rest := g + " ", x[0], Spaced(x[1..]) + t;
    assert IsWord(w);
    assert |rest| == 0 || IsSpace(rest[0]);
    SpacedHead(x, t);
    ReplaceSkip(' ', w + rest, p, "");
    ThirdPassWord(w, rest, g);
  }

  // ---------------------------------------------------------------------------
  // What the passes leave

  lemma {:induction false} FirstPassKeeps(u: seq<string>, g: string)
    requires AllWords(u) && Isolated(u, g)
    ensures AllWords(FirstPassWords(u, g)) && Isolated(FirstPassWords(u, g), g)
    ensures Without(FirstPassWords(u, g), g) == Without(u, g)
    decreases |u|
  {
    if |u| > 0 {
      var k := if u[0] == g && |u| > 1 then 2 else 1;
      var tail := u[k..];
      forall i | 0 <= i < |tail| ensures IsWord(tail[i]) && (tail[i] == g || (!StartsWith(tail[i], g) && !EndsWith(tail[i], g))) {
        assert tail[i] == u[i + k];
      }
      FirstPassKeeps(tail, g);
      var w := u[k - 1];
      var r := FirstPassWords(u, g);
      assert r == [w] + FirstPassWords(tail, g);
      assert r[1..] == FirstPassWords(tail, g);
      assert forall i :: 1 <= i < |r| ==> r[i] == FirstPassWords(tail, g)[i - 1];
      if k == 2 {
        assert u[1..][1..] == tail;
        assert Without(u, g) == Without(u[1..], g);
        assert u[1..][0] == w;
      }
    }
  }

  lemma {:induction false} WithoutKeeps(v: seq<string>, g: string)
    requires Isolated(v, g)
    ensures forall i :: 0 <= i < |Without(v, g)| ==> !EndsWith(Without(v, g)[i], g)
    decreases |v|
  {
    if |v| > 0 {
      var tail := v[1..];
      forall i | 0 <= i < |tail| ensures tail[i] == g || (!StartsWith(tail[i], g) && !EndsWith(tail[i], g)) {
        assert tail[i] == v[i + 1];
      }
      WithoutKeeps(tail, g);
      var r := Without(v, g);
      if v[0] != g {
        assert r == [v[0]] + Without(tail, g);
        assert forall i :: 1 <= i < |r| ==> r[i] == Without(tail, g)[i - 1];
      }
    }
  }

  /** `str.split()` of words each preceded by a space, followed by text that
      starts with whitespace. */
  lemma {:induction false} SplitSpaced(y: seq<string>, t: string)
    requires AllWords(y) && (|t| == 0 || IsSpace(t[0]))
    ensures Split(Spaced(y) + t) == y + Split(t)
    decreases |y|
  {
    if |y| == 0 {
      assert Spaced(y) + t == t;
    } else {
      var w, tail := y[0], y[1..];
      assert AllWords(tail) by {
        forall i | 0 <= i < |tail| ensures IsWord(tail[i]) { assert tail[i] == y[i + 1]; }
      }
      assert Split(Spaced(tail) + t) == tail + Split(t) by {
        SplitSpaced(tail, t);
      }
      SplitSpacedStep(y, t);
      assert y == [w] + tail;
    }
  }

  lemma SplitSpacedStep(y: seq<string>, t: string)
    requires AllWords(y) && |y| > 0 && (|t| == 0 || IsSpace(t[0]))
    ensures Split(Spaced(y) + t) == [y[0]] + Split(Spaced(y[1..]) + t)
  {
    var w, rest := y[0], Spaced(y[1..]) + t;
    assert IsWord(w);
    assert |rest| == 0 || IsSpace(rest[0]);
    SpacedHead(y, t);
    var s := [' '] + (w + rest);
    assert s[1..] == w + rest;
    WordLengthOfWord(w, rest);
    assert (w + rest)[..|w|] == w && (w + rest)[|w|..] == rest;
  }

  /** `" ".join` of a non-empty list: the first word, then the others each
      after a space. */
  lemma {:induction false} JoinSpaced(ws: seq<string>)
    requires |ws| > 0
    ensures Join(" ", ws) == ws[0] + Spaced(ws[1..])
    decreases |ws|
  {
    if |ws| == 1 {
      assert ws[0] + "" == ws[0];
    } else {
      JoinSpaced(ws[1..]);
      assert ws[1..][1..] == ws[2..];
    }
  }

  lemma SpacedJoin(ws: seq<string>)
    requires |ws| > 0
    ensures Spaced(ws) == " " + Join(" ", ws)
  {
    JoinSpaced(ws);
  }

  // ---------------------------------------------------------------------------
  // The removal as written, on words in context

  /** No pattern built from `g` and at most one space on each side starts
      inside `a` when `a` does not contain `g`, does not end in whitespace, and
      is followed by whitespace. */
  lemma NoneStartsInPrefix(a: string, x: string, pat: string, l: string, g: string, r: string)
    requires pat == l + g + r
    requires IsWord(g) && !Contains(a, g) && (l == "" || l == " ")
    requires |a| == 0 || !IsSpace(a[|a| - 1])
    requires |x| == 0 || IsSpace(x[0])
    ensures forall j :: 0 <= j < |a| ==> !OccursAt(a + x, pat, j)
  {
    var s := a + x;
    forall j | 0 <= j < |a| ensures !OccursAt(s, pat, j) {
      if OccursAt(s, pat, j) {
        var q := j + |l|;
        InnerOccurrence(s, l, g, r, j);
        if q + |g| <= |a| {
          OccursInPrefix(a, x, g, q);
          assert false;
        } else if q < |a| {
          CharOfOccurrence(s, g, q, |a| - q);
          assert false;
        } else {
          CharOfOccurrence(s, pat, j, 0);
          assert false;
        }
      }
    }
  }

  /** An occurrence that ends within `a` is an occurrence in `a`. */
  lemma OccursInPrefix(a: string, x: string, g: string, q: nat)
    requires OccursAt(a + x, g, q) && q + |g| <= |a|
    ensures OccursAt(a, g, q)
  {
    assert a[q..q + |g|] == (a + x)[q..q + |g|];
  }

  /** An occurrence of `l + g + r` holds an occurrence of `g`. */
  lemma InnerOccurrence(s: string, l: string, g: string, r: string, j: nat)
    requires OccursAt(s, l + g + r, j)
    ensures OccursAt(s, g, j + |l|)
  {
    var pat := l + g + r;
    forall k | 0 <= k < |g| ensures s[j + |l| + k] == g[k] {
      assert s[j + |l| + k] == s[j..j + |pat|][|l| + k] == pat[|l| + k];
    }
  }

  /** The code's removal on a prompt of the shape `a`, then the words `ws`
      each after a space, then `t`: when the gene's symbol occurs in neither
      `a` nor `t` and no other word starts or ends with it, the result is the
      prompt without the gene's words, whitespace collapsed. */
  lemma AsWrittenInContext(a: string, ws: seq<string>, t: string, g: string)
    requires IsWord(g) && AllWords(ws) && Isolated(ws, g)
    requires !Contains(a, g) && !Contains(t, g)
    requires |a| == 0 || !IsSpace(a[|a| - 1])
    requires |t| == 0 || (IsSpace(t[0]) && t[0] != ' ')
    ensures RemoveGeneAsWritten(a + (Spaced(ws) + t), Some(g)) == Collapse(a + (Spaced(Without(ws, g)) + t))
  {
    ThreePasses(a, ws, t, g);
    AsWrittenIsPasses(a + (Spaced(ws) + t), g);
  }

  /** The three replacements, one after the other, before the collapse. */
  function Passes(s: string, g: string): string
    requires |g| > 0
  {
    ReplaceAll(ReplaceAll(ReplaceAll(s, " " + g + " ", " "), " " + g, ""), g + " ", "")
  }

  lemma AsWrittenIsPasses(s: string, g: string)
    requires |g| > 0
    ensures RemoveGeneAsWritten(s, Some(g)) == Collapse(Passes(s, g))
  {
  }

  lemma ThreePasses(a: string, ws: seq<string>, t: string, g: string)
    requires IsWord(g) && AllWords(ws) && Isolated(ws, g)
    requires !Contains(a, g) && !Contains(t, g)
    requires |a| == 0 || !IsSpace(a[|a| - 1])
    requires |t| == 0 || (IsSpace(t[0]) && t[0] != ' ')
    ensures Passes(a + (Spaced(ws) + t), g) == a + (Spaced(Without(ws, g)) + t)
  {
    NoWiderOccurrence(t, g);
    var u := FirstPassWords(ws, g);
    FirstPassKeeps(ws, g);
    var v := Without(ws, g);
    WithoutKeeps(ws, g);
    var b := ReplaceAll(a + (Spaced(ws) + t), " " + g + " ", " ");
    assert b == a + (Spaced(u) + t) by {
      FirstPassInContext(a, ws, t, g);
    }
    var c := ReplaceAll(b, " " + g, "");
    assert c == a + (Spaced(v) + t) by {
      SecondPassInContext(a, u, t, g);
    }
    assert ReplaceAll(c, g + " ", "") == c by {
      ThirdPassInContext(a, v, t, g);
    }
  }

  lemma FirstPassInContext(a: string, ws: seq<string>, t: string, g: string)
    requires IsWord(g) && AllWords(ws)
    requires !Contains(a, g) && !Contains(t, " " + g + " ")
    requires |a| == 0 || !IsSpace(a[|a| - 1])
    requires |t| == 0 || (IsSpace(t[0]) && t[0] != ' ')
    ensures ReplaceAll(a + (Spaced(ws) + t), " " + g + " ", " ") == a + (Spaced(FirstPassWords(ws, g)) + t)
  {
    var x := Spaced(ws) + t;
    SpacedThen(ws, t);
    NoneStartsInPrefix(a, x, " " + g + " ", " ", g, " ");
    KeepPrefix(a, x, " " + g + " ", " ");
    FirstPass(ws, t, g);
  }

  lemma SecondPassInContext(a: string, u: seq<string>, t: string, g: string)
    requires IsWord(g) && AllWords(u) && Isolated(u, g)
    requires !Contains(a, g) && !Contains(t, " " + g)
    requires |a| == 0 || !IsSpace(a[|a| - 1])
    requires |t| == 0 || IsSpace(t[0])
    ensures ReplaceAll(a + (Spaced(u) + t), " " + g, "") == a + (Spaced(Without(u, g)) + t)
  {
    var x := Spaced(u) + t;
    SpacedThen(u, t);
    Affixes(g);
    NoneStartsInPrefix(a, x, " " + g, " ", g, "");
    KeepPrefix(a, x, " " + g, "");
    SecondPass(u, t, g);
  }

  lemma ThirdPassInContext(a: string, v: seq<string>, t: string, g: string)
    requires IsWord(g) && AllWords(v)
    requires forall i :: 0 <= i < |v| ==> !EndsWith(v[i], g)
    requires !Contains(a, g) && !Contains(t, g + " ")
    requires |a| == 0 || !IsSpace(a[|a| - 1])
    requires |t| == 0 || IsSpace(t[0])
    ensures ReplaceAll(a + (Spaced(v) + t), g + " ", "") == a + (Spaced(v) + t)
  {
    var x := Spaced(v) + t;
    SpacedThen(v, t);
    Affixes(g);
    NoneStartsInPrefix(a, x, g + " ", "", g, " ");
    KeepPrefix(a, x, g + " ", "");
    ThirdPass(v, t, g);
  }

  lemma SpacedThen(u: seq<string>, t: string)
    requires |t| == 0 || IsSpace(t[0])
    ensures |Spaced(u) + t| == 0 || IsSpace((Spaced(u) + t)[0])
  {
  }

  lemma Affixes(g: string)
    ensures " " + g + "" == " " + g && "" + g + " " == g + " "
  {
  }

  // ---------------------------------------------------------------------------
  // The removal as written, on a bare sentence

  /** The code's removal on a sentence `" ".join(ws)`: when no other word
      starts or ends with the gene's symbol, it keeps exactly the words that
      differ from the gene, single-spaced; except that when every word is the
      gene, the last one has no space around it and survives. */
  lemma AsWrittenOnWords(ws: seq<string>, g: string)
    requires IsWord(g) && AllWords(ws) && |ws| > 0 && Isolated(ws, g)
    ensures RemoveGeneAsWritten(Join(" ", ws), Some(g))
         == if Without(ws, g) == [] then g else Join(" ", Without(ws, g))
  {
    var w0, u := ws[0], ws[1..];
    assert IsWord(w0);
    assert w0 == g || (!StartsWith(w0, g) && !EndsWith(w0, g));
    assert AllWords(u) && Isolated(u, g) by {
      forall i | 0 <= i < |u| ensures IsWord(u[i]) && (u[i] == g || (!StartsWith(u[i], g) && !EndsWith(u[i], g))) {
        assert u[i] == ws[i + 1];
      }
    }
    JoinSpaced(ws);
    AsWrittenIsPasses(Join(" ", ws), g);
    var v := Without(u, g);
    FirstTwoOnWords(w0, u, g);
    WithoutKeeps(u, g);
    ThirdOnWords(w0, v, g);
    assert ws == [w0] + u;
    if w0 == g {
      assert Without(ws, g) == v;
      if |v| == 0 {
        CollapseWord(g, "");
        assert g + "" == g;
      } else {
        CollapseJoinWords(v);
      }
    } else {
      assert Without(ws, g) == [w0] + v;
      JoinSpaced([w0] + v);
      assert ([w0] + v)[1..] == v;
      CollapseJoinWords([w0] + v);
    }
  }

  /** The first two passes leave the first word and drop every later `g`. */
  lemma FirstTwoOnWords(w0: string, u: seq<string>, g: string)
    requires IsWord(w0) && IsWord(g) && AllWords(u) && Isolated(u, g)
    ensures ReplaceAll(ReplaceAll(w0 + Spaced(u), " " + g + " ", " "), " " + g, "") == w0 + Spaced(Without(u, g))
  {
    var p1, p2 := " " + g + " ", " " + g;
    assert p1[0] == ' ' && p2[0] == ' ';
    assert forall i :: 0 <= i < |w0| ==> w0[i] != ' ';
    var f := FirstPassWords(u, g);
    FirstPassKeeps(u, g);
    assert ReplaceAll(Spaced(u), p1, " ") == Spaced(f) by {
      AbsentChar("", p1, 0);
      FirstPass(u, "", g);
      assert Spaced(u) + "" == Spaced(u) && Spaced(f) + "" == Spaced(f);
    }
    ReplaceAcrossWord(w0, Spaced(u), p1, " ");
    assert ReplaceAll(Spaced(f), p2, "") == Spaced(Without(u, g)) by {
      AbsentChar("", p2, 0);
      SecondPass(f, "", g);
      assert Spaced(f) + "" == Spaced(f);
      assert Spaced(Without(f, g)) + "" == Spaced(Without(f, g));
    }
    ReplaceAcrossWord(w0, Spaced(f), p2, "");
  }

  /** The third pass: a first word that is the gene goes with the space after
      it; any other first word stays, and so does every later word. */
  lemma ThirdOnWords(w0: string, v: seq<string>, g: string)
    requires IsWord(w0) && IsWord(g) && AllWords(v)
    requires w0 == g || !EndsWith(w0, g)
    requires forall i :: 0 <= i < |v| ==> !EndsWith(v[i], g)
    ensures ReplaceAll(w0 + Spaced(v), g + " ", "")
         == if w0 != g then w0 + Spaced(v) else if |v| == 0 then g else Join(" ", v)
  {
    if w0 != g {
      ThirdKeepsFirst(w0, v, g);
    } else if |v| == 0 {
      assert w0 + Spaced(v) == g;
      ReplaceShort(g, g + " ", "");
    } else {
      ThirdDropsGene(v, g);
    }
  }

  lemma ThirdKeepsFirst(w0: string, v: seq<string>, g: string)
    requires IsWord(w0) && IsWord(g) && AllWords(v) && !EndsWith(w0, g)
    requires forall i :: 0 <= i < |v| ==> !EndsWith(v[i], g)
    ensures ReplaceAll(w0 + Spaced(v), g + " ", "") == w0 + Spaced(v)
  {
    AbsentChar("", g + " ", |g|);
    ThirdPassWord(w0, Spaced(v), g);
    ThirdPass(v, "", g);
    assert Spaced(v) + "" == Spaced(v);
  }

  lemma ThirdDropsGene(v: seq<string>, g: string)
    requires IsWord(g) && AllWords(v) && |v| > 0
    requires forall i :: 0 <= i < |v| ==> !EndsWith(v[i], g)
    ensures ReplaceAll(g + Spaced(v), g + " ", "") == Join(" ", v)
  {
    var p, v0, r := g + " ", v[0], v[1..];
    AbsentChar("", p, |g|);
    assert IsWord(v0) && !EndsWith(v0, g);
    assert AllWords(r) && forall i :: 0 <= i < |r| ==> !EndsWith(r[i], g) by {
      forall i | 0 <= i < |r| ensures IsWord(r[i]) && !EndsWith(r[i], g) {
        assert r[i] == v[i + 1];
      }
    }
    GeneSpacedHead(g, v);
    var x := v0 + Spaced(r);
    assert ReplaceAll(g + Spaced(v), p, "") == ReplaceAll(x, p, "") by {
      ReplaceHit(p, x, "");
      assert "" + ReplaceAll(x, p, "") == ReplaceAll(x, p, "");
    }
    assert ReplaceAll(x, p, "") == x by {
      ThirdPassWord(v0, Spaced(r), g);
      ThirdPass(r, "", g);
      assert Spaced(r) + "" == Spaced(r);
    }
    assert x == Join(" ", v) by {
      JoinSpaced(v);
    }
  }

  lemma GeneSpacedHead(g: string, v: seq<string>)
    requires |v| > 0
    ensures g + Spaced(v) == (g + " ") + (v[0] + Spaced(v[1..]))
  {
    var x, y := v[0], Spaced(v[1..]);
    assert Spaced(v) == (" " + x) + y;
    AppendAssoc(" ", x, y);
    AppendAssoc(g, " ", x + y);
  }

  /** Words joined by single spaces have no whitespace left to collapse. */
  lemma CollapseJoinWords(xs: seq<string>)
    requires AllWords(xs) && |xs| > 0
    ensures Collapse(Join(" ", xs)) == Join(" ", xs)
  {
    JoinSpaced(xs);
    assert IsWord(xs[0]);
    assert AllWords(xs[1..]) by {
      forall i | 0 <= i < |xs[1..]| ensures IsWord(xs[1..][i]) { assert xs[1..][i] == xs[i + 1]; }
    }
    CollapseWord(xs[0], Spaced(xs[1..]));
    CollapseSpaced(xs[1..]);
  }

  lemma {:induction false} CollapseSpaced(v: seq<string>)
    requires AllWords(v)
    ensures Collapse(Spaced(v)) == Spaced(v)
    decreases |v|
  {
    if |v| > 0 {
      var w, r := v[0], v[1..];
      assert IsWord(w);
      assert AllWords(r) by {
        forall i | 0 <= i < |r| ensures IsWord(r[i]) { assert r[i] == v[i + 1]; }
      }
      SpacedHead(v, "");
      assert Spaced(v) == [' '] + (w + Spaced(r)) by {
        assert Spaced(v) + "" == Spaced(v) && Spaced(r) + "" == Spaced(r);
      }
      CollapseSpace(' ', w + Spaced(r));
      CollapseWord(w, Spaced(r));
      CollapseSpaced(r);
    }
  }

  /** Whenever some word other than the gene remains, the code's removal on a
      bare sentence is the token removal. */
  lemma AsWrittenRemovesWord(ws: seq<string>, g: string)
    requires IsWord(g) && AllWords(ws) && |ws| > 0 && Isolated(ws, g)
    requires Without(ws, g) != []
    ensures Split(RemoveGeneAsWritten(Join(" ", ws), Some(g))) == Without(ws, g)
    ensures RemoveGeneAsWritten(Join(" ", ws), Some(g)) == RemoveGene(Join(" ", ws), Some(g))
  {
    AsWrittenOnWords(ws, g);
    SplitJoin(ws);
    SplitJoin(Without(ws, g));
  }

  // ---------------------------------------------------------------------------
  // The two removals compared

  /** On a prompt of the shape `a`, the words `ws` each after a space, then
      `t`, with the gene's symbol in neither `a` nor `t` and no other word
      starting or ending with it, the code's removal and the token removal
      keep the same words: those of `a`, the words of `ws` other than the
      gene, and those of `t`. */
  lemma AsWrittenAgreesInContext(a: string, ws: seq<string>, t: string, g: string)
    requires IsWord(g) && AllWords(ws) && Isolated(ws, g)
    requires !Contains(a, g) && !Contains(t, g)
    requires |a| == 0 || !IsSpace(a[|a| - 1])
    requires |t| == 0 || (IsSpace(t[0]) && t[0] != ' ')
    ensures Split(RemoveGeneAsWritten(a + (Spaced(ws) + t), Some(g))) == Split(a) + Without(ws, g) + Split(t)
    ensures Split(RemoveGene(a + (Spaced(ws) + t), Some(g))) == Split(a) + Without(ws, g) + Split(t)
  {
    AsWrittenWordsInContext(a, ws, t, g);
    TokenWordsInContext(a, ws, t, g);
  }

  lemma AsWrittenWordsInContext(a: string, ws: seq<string>, t: string, g: string)
    requires IsWord(g) && AllWords(ws) && Isolated(ws, g)
    requires !Contains(a, g) && !Contains(t, g)
    requires |a| == 0 || !IsSpace(a[|a| - 1])
    requires |t| == 0 || (IsSpace(t[0]) && t[0] != ' ')
    ensures Split(RemoveGeneAsWritten(a + (Spaced(ws) + t), Some(g))) == Split(a) + Without(ws, g) + Split(t)
  {
    AsWrittenKeepsWords(a, ws, t, g);
    SplitAroundWords(a, Without(ws, g), t);
  }

  /** The words of `a`, then of `v` each after a space, then of `t`. */
  lemma SplitAroundWords(a: string, v: seq<string>, t: string)
    requires AllWords(v) && (|t| == 0 || IsSpace(t[0]))
    ensures Split(a + (Spaced(v) + t)) == Split(a) + v + Split(t)
  {
    var x := Spaced(v) + t;
    assert Split(a + x) == Split(a) + Split(x) by {
      SpacedThen(v, t);
      SplitThenSpace(a, x);
    }
    assert Split(x) == v + Split(t) by {
      SplitSpaced(v, t);
    }
    SeqAssoc(Split(a), v, Split(t));
  }

  lemma SeqAssoc(p: seq<string>, q: seq<string>, r: seq<string>)
    ensures p + (q + r) == p + q + r
  {
  }

  lemma AsWrittenKeepsWords(a: string, ws: seq<string>, t: string, g: string)
    requires IsWord(g) && AllWords(ws) && Isolated(ws, g)
    requires !Contains(a, g) && !Contains(t, g)
    requires |a| == 0 || !IsSpace(a[|a| - 1])
    requires |t| == 0 || (IsSpace(t[0]) && t[0] != ' ')
    ensures Split(RemoveGeneAsWritten(a + (Spaced(ws) + t), Some(g))) == Split(a + (Spaced(Without(ws, g)) + t))
  {
    AsWrittenInContext(a, ws, t, g);
    SplitCollapse(a + (Spaced(Without(ws, g)) + t));
  }

  lemma TokenWordsInContext(a: string, ws: seq<string>, t: string, g: string)
    requires AllWords(ws) && !Contains(a, g) && !Contains(t, g) && |g| > 0
    requires |t| == 0 || IsSpace(t[0])
    ensures Split(RemoveGene(a + (Spaced(ws) + t), Some(g))) == Split(a) + Without(ws, g) + Split(t)
  {
    SplitAroundWords(a, ws, t);
    NotAWord(a, g);
    NotAWord(t, g);
    WithoutAppend(Split(a) + ws, Split(t), g);
    WithoutAppend(Split(a), ws, g);
    WithoutAbsent(Split(a), g);
    WithoutAbsent(Split(t), g);
  }

  /** Text that starts with whitespace adds its words after those of `a`. */
  lemma SplitThenSpace(a: string, x: string)
    requires |x| == 0 || IsSpace(x[0])
    ensures Split(a + x) == Split(a) + Split(x)
  {
    if |x| == 0 {
      assert a + x == a;
    } else {
      assert a + x == a + [x[0]] + x[1..];
      SplitAround(a, x[0], x[1..]);
    }
  }

  /** A symbol that does not occur in the text is none of its words. */
  lemma NotAWord(s: string, g: string)
    requires !Contains(s, g)
    ensures g !in Split(s)
  {
    if g in Split(s) {
      var k :| 0 <= k < |Split(s)| && Split(s)[k] == g;
      SplitWordOccurs(s, k);
    }
  }

  /** When the text also starts and ends with non-whitespace, the code's
      removal in that context is exactly the token removal. */
  lemma AsWrittenIsTokenRemoval(a: string, ws: seq<string>, t: string, g: string)
    requires IsWord(g) && AllWords(ws) && Isolated(ws, g)
    requires !Contains(a, g) && !Contains(t, g)
    requires |a| > 0 && !IsSpace(a[0]) && !IsSpace(a[|a| - 1])
    requires |t| > 0 && IsSpace(t[0]) && t[0] != ' ' && !IsSpace(t[|t| - 1])
    ensures RemoveGeneAsWritten(a + (Spaced(ws) + t), Some(g)) == RemoveGene(a + (Spaced(ws) + t), Some(g))
    ensures RemoveGeneAsWritten(a + (Spaced(ws) + t), Some(g)) == Join(" ", Split(a) + Without(ws, g) + Split(t))
  {
    AsWrittenContextJoin(a, ws, t, g);
    ContextWords(a, ws, t, g);
  }

  lemma AsWrittenContextJoin(a: string, ws: seq<string>, t: string, g: string)
    requires IsWord(g) && AllWords(ws) && Isolated(ws, g)
    requires !Contains(a, g) && !Contains(t, g)
    requires |a| > 0 && !IsSpace(a[0]) && !IsSpace(a[|a| - 1])
    requires |t| > 0 && IsSpace(t[0]) && t[0] != ' ' && !IsSpace(t[|t| - 1])
    ensures RemoveGeneAsWritten(a + (Spaced(ws) + t), Some(g))
         == Join(" ", Split(a + (Spaced(Without(ws, g)) + t)))
  {
    var e := a + (Spaced(Without(ws, g)) + t);
    assert Trimmed(e) by {
      assert e[0] == a[0] && e[|e| - 1] == t[|t| - 1];
    }
    AsWrittenInContext(a, ws, t, g);
    CollapseTrimmed(e);
  }

  lemma ContextWords(a: string, ws: seq<string>, t: string, g: string)
    requires IsWord(g) && AllWords(ws) && Isolated(ws, g)
    requires !Contains(a, g) && !Contains(t, g)
    requires |a| > 0 && !IsSpace(a[0]) && !IsSpace(a[|a| - 1])
    requires |t| > 0 && IsSpace(t[0]) && t[0] != ' ' && !IsSpace(t[|t| - 1])
    ensures Split(a + (Spaced(Without(ws, g)) + t)) == Without(Split(a + (Spaced(ws) + t)), g)
    ensures Split(a + (Spaced(Without(ws, g)) + t)) == Split(a) + Without(ws, g) + Split(t)
  {
    SplitAroundWords(a, Without(ws, g), t);
    TokenWordsInContext(a, ws, t, g);
  }
}

=== FILE: server.dfy ===
/**
 * The three tools the server offers: a prediction from a bare cell sentence,
 * a prediction with donor metadata, and the knockout experiment. Predictions
 * here never fail for want of a number in the reply: the age is then absent.
 */
module Server {
  import opened Wrappers
  import opened Text
  import opened Numbers
  import opened Failures
  import opened Inference
  import opened AgeParser
  import opened Prompt
  import opened Knockout

  /** The endpoint and model the server was started with. */
  datatype ServerConfig = ServerConfig(baseUrl: string, model: string)

  const DefaultConfig := ServerConfig(DefaultBaseUrl, DefaultModel)

  datatype AgePrediction = AgePrediction(
    predictedAge: Option<real>,
    rawResponse: string,
    promptUsed: string,
    model: string)

  /** The prompt of `predict_age`, a template of its own: the header, a blank
      line, the sentence line and the two instruction lines. Its wording is the
      builder's, so the fixed lines are the same constants. */
  function PlainPrompt(sentence: string): string {
    (Header + "\n") + "\n" + (Line(SentenceTag, sentence) + "\n" + (PredictLine + "\n" + AnswerLine))
  }

  /** The plain template is exactly the metadata builder with no metadata. */
  lemma PlainPromptIsBuilt(sentence: string)
    ensures PlainPrompt(sentence) == BuildPrompt(NoMetadata, sentence)
  {
    var a, b, c, d := Header + "\n", Line(SentenceTag, sentence), PredictLine, AnswerLine;
    assert MetadataLines(NoMetadata) == [];
    FourParts(a, MetadataLines(NoMetadata), Tail(sentence));
    JoinFour(a, b, c, d);
  }

  lemma FourParts(a: string, none: seq<string>, t: seq<string>)
    requires none == [] && |t| == 3
    ensures [a] + none + t == [a, t[0], t[1], t[2]]
  {
  }

  lemma JoinFour(a: string, b: string, c: string, d: string)
    ensures Join("\n", [a, b, c, d]) == a + "\n" + (b + "\n" + (c + "\n" + d))
  {
    JoinCons("\n", c, [d]);
    assert [c] + [d] == [c, d];
    JoinCons("\n", b, [c, d]);
    assert [b] + [c, d] == [b, c, d];
    JoinCons("\n", a, [b, c, d]);
    assert [a] + [b, c, d] == [a, b, c, d];
  }

  /** One lenient prediction: any failure of the service is re-raised under the
      server's message; otherwise the reply is stripped and the age is its first
      number, or absent. */
  function Predict(oracle: Oracle, config: ServerConfig, prompt: string, params: GenerationParams): (r: Result<AgePrediction, Error>)
    ensures var reply := oracle(MakeRequest(config.baseUrl, config.model, prompt, params));
      && (r.Failure? <==> reply.Failure?)
      && (reply.Failure? ==> r.error == PredictionFailed(reply.error))
      && (reply.Success? ==> r.value.rawResponse == Strip(reply.value))
    ensures r.Success? ==> r.value.promptUsed == prompt && r.value.model == config.model
    ensures r.Success? ==> Trimmed(r.value.rawResponse)
    ensures r.Success? ==> (r.value.predictedAge.None? <==> NoDigit(r.value.rawResponse))
    ensures r.Success? ==> forall m :: IsFirstNumber(r.value.rawResponse, m) ==> r.value.predictedAge == Some(Value(m))
  {
    match oracle(MakeRequest(config.baseUrl, config.model, prompt, params))
    case Failure(e) => Failure(PredictionFailed(e))
    case Success(text) =>
      var raw := Strip(text);
      Success(AgePrediction(ParseAgeLenient(raw), raw, prompt, config.model))
  }

  /** `predict_age`. */
  function PredictAge(oracle: Oracle, config: ServerConfig, sentence: string, params: GenerationParams): Result<AgePrediction, Error> {
    Predict(oracle, config, PlainPrompt(sentence), params)
  }

  /** `predict_age_with_metadata`. */
  function PredictAgeWithMetadata(oracle: Oracle, config: ServerConfig, sentence: string, meta: Metadata,
                                  params: GenerationParams): Result<AgePrediction, Error> {
    Predict(oracle, config, BuildPrompt(meta, sentence), params)
  }

  /** `insilico_knockout`, run against the server's own endpoint and model. */
  function KnockoutTool(oracle: Oracle, config: ServerConfig, gene: string, sentence: string, meta: Metadata,
                        params: GenerationParams): (r: Result<KnockoutResult, Error>)
    ensures r.Success? ==> r.value.model == config.model && r.value.geneKnockedOut == gene
    ensures r.Success? ==> r.value.deltaAge == r.value.agePredictionWithKnockout - r.value.agePrediction
    ensures r.Success? ==> r.value.originalGeneSentence == sentence
    ensures AllSpace(sentence) ==> r == Failure(EmptySentence)
    ensures r.Success? <==>
      && !AllSpace(sentence)
      && PredictAgeFromSentence(oracle, sentence, config.baseUrl, config.model, meta, params, None).Success?
      && PredictAgeFromSentence(oracle, sentence, config.baseUrl, config.model, meta, params, Some(gene)).Success?
    ensures r.Success? ==>
      && PredictAgeFromSentence(oracle, sentence, config.baseUrl, config.model, meta, params, None)
           == Success(r.value.agePrediction)
      && PredictAgeFromSentence(oracle, sentence, config.baseUrl, config.model, meta, params, Some(gene))
           == Success(r.value.agePredictionWithKnockout)
    ensures r.Success? ==>
      var served := PredictAgeWithMetadata(oracle, config, sentence, meta, params);
      served.Success? && served.value.predictedAge == Some(r.value.agePrediction)
  {
    ServerAgreesWithKnockoutPath(oracle, config, sentence, meta, params);
    InsilicoKnockout(oracle, gene, sentence, config.baseUrl, config.model, meta, params)
  }

  /** Predicting without metadata is predicting with none given. */
  lemma PredictAgeWithoutMetadata(oracle: Oracle, config: ServerConfig, sentence: string, params: GenerationParams)
    ensures PredictAge(oracle, config, sentence, params) == PredictAgeWithMetadata(oracle, config, sentence, NoMetadata, params)
  {
    PlainPromptIsBuilt(sentence);
  }

  /** The server and the knockout experiment send the same request for the same
      sentence and metadata, and agree on the age: the server reports an age
      exactly when the strict parse succeeds, and it is the same number. */
  lemma ServerAgreesWithKnockoutPath(oracle: Oracle, config: ServerConfig, sentence: string, meta: Metadata,
                                     params: GenerationParams)
    ensures var served := PredictAgeWithMetadata(oracle, config, sentence, meta, params);
      var strict := PredictAgeFromSentence(oracle, sentence, config.baseUrl, config.model, meta, params, None);
      && (served.Success? && served.value.predictedAge.Some? <==> strict.Success?)
      && (strict.Success? ==> served.value.predictedAge == Some(strict.value))
  {
    var req := MakeRequest(config.baseUrl, config.model, BuildPrompt(meta, sentence), params);
    assert PredictionRequest(config.baseUrl, config.model, meta, sentence, params, None) == req;
    match oracle(req)
    case Failure(_) =>
    case Success(text) =>
      LenientMatchesStrict(Strip(text));
  }

  // Worked examples

  /** A given sex and tissue each get their line, in the builder's order,
      between the blank line and the sentence line. */
  lemma SexAndTissueLines(sex: string, tissue: string, sentence: string)
    requires |sex| > 0 && |tissue| > 0 && OneLine(sex) && OneLine(tissue) && OneLine(sentence)
    ensures var meta := Metadata(Some(sex), None, Some(tissue), None);
      SplitOn(BuildPrompt(meta, sentence), '\n')
        == [Header, ""] + [Line(SexTag, sex), Line(TissueTag, tissue)] + Tail(sentence)
  {
    var meta := Metadata(Some(sex), None, Some(tissue), None);
    BuildPromptLines(meta, sentence);
    SexAndTissueOnly(sex, tissue);
  }

  lemma SexAndTissueOnly(sex: string, tissue: string)
    requires |sex| > 0 && |tissue| > 0
    ensures MetadataLines(Metadata(Some(sex), None, Some(tissue), None)) == [Line(SexTag, sex), Line(TissueTag, tissue)]
  {
    var meta := Metadata(Some(sex), None, Some(tissue), None);
    assert MetadataLines(meta) == [Line(SexTag, sex)] + [] + [Line(TissueTag, tissue)] + [];
  }

  /** A smoking status is written whatever its value, 0 included (the test is
      `is not None`), while an empty sex is not (the test is truthiness). */
  lemma SmokingKeptEmptySexDropped(n: int, sentence: string)
    requires OneLine(sentence)
    ensures var meta := Metadata(Some(""), Some(n), None, None);
      SplitOn(BuildPrompt(meta, sentence), '\n')
        == [Header, ""] + [Line(SmokingTag, IntToString(n))] + Tail(sentence)
  {
    var meta := Metadata(Some(""), Some(n), None, None);
    assert OneLine("");
    BuildPromptLines(meta, sentence);
    OnlySmokingLine(n);
  }

  lemma OnlySmokingLine(n: int)
    ensures MetadataLines(Metadata(Some(""), Some(n), None, None)) == [Line(SmokingTag, IntToString(n))]
  {
    var meta := Metadata(Some(""), Some(n), None, None);
    assert !Given(meta.sex);
    assert MetadataLines(meta) == [] + [Line(SmokingTag, IntToString(n))] + [] + [];
  }
}

=== FILE: text.dfy ===
/**
 * The Python `str` operations the prompt code relies on, over `seq<char>`:
 * `str.split()`, `str.split(c)`, `str.strip()`, `str.rstrip(c)`, `str.join`,
 * `str.startswith`, `str.replace` and `re.sub(r'\s+', ' ', s)`.
 */
module Text {

  /** Python's `str.isspace`; `str.split()`, `str.strip()` and the regex class `\s`
      all use this same set of characters. */
  predicate IsSpace(c: char) {
    || c == ' '
    || ('\t' <= c <= '\r')
    || ('\U{1C}' <= c <= '\U{1F}')
    || c == '\U{85}' || c == '\U{A0}' || c == '\U{1680}'
    || ('\U{2000}' <= c <= '\U{200A}')
    || c == '\U{2028}' || c == '\U{2029}' || c == '\U{202F}' || c == '\U{205F}'
    || c == '\U{3000}'
  }

  predicate AllSpace(s: string) {
    forall i :: 0 <= i < |s| ==> IsSpace(s[i])
  }

  /** A non-empty run of non-whitespace characters: what `str.split()` produces. */
  predicate IsWord(w: string) {
    |w| > 0 && forall i :: 0 <= i < |w| ==> !IsSpace(w[i])
  }

  predicate AllWords(ws: seq<string>) {
    forall i :: 0 <= i < |ws| ==> IsWord(ws[i])
  }

  /** Neither starts nor ends with whitespace: a fixed point of `str.strip()`. */
  predicate Trimmed(s: string) {
    |s| == 0 || (!IsSpace(s[0]) && !IsSpace(s[|s| - 1]))
  }

  /** Whitespace only ever appears as a single ' ' between non-whitespace. */
  ghost predicate SingleSpaced(s: string) {
    && (forall i :: 0 <= i < |s| && IsSpace(s[i]) ==> s[i] == ' ')
    && (forall i, j :: 0 <= i && j == i + 1 && j < |s| ==> !(IsSpace(s[i]) && IsSpace(s[j])))
  }

  predicate StartsWith(s: string, p: string) {
    |p| <= |s| && s[..|p|] == p
  }

  predicate EndsWith(s: string, p: string) {
    |p| <= |s| && s[|s| - |p|..] == p
  }

  predicate OccursAt(s: string, t: string, i: nat) {
    i + |t| <= |s| && s[i..i + |t|] == t
  }

  /** Python's `t in s` for strings. */
  ghost predicate Contains(s: string, t: string) {
    exists i: nat :: OccursAt(s, t, i)
  }

  /** `sep.join(parts)`. */
  function Join(sep: string, parts: seq<string>): string {
    if |parts| == 0 then ""
    else if |parts| == 1 then parts[0]
    else parts[0] + sep + Join(sep, parts[1..])
  }

  // ---------------------------------------------------------------------------
  // str.split() with no separator

  /** Length of the run of non-whitespace characters at the start of `s`. */
  function WordLength(s: string): (n: nat)
    ensures n <= |s|
    ensures forall i :: 0 <= i < n ==> !IsSpace(s[i])
    ensures n == |s| || IsSpace(s[n])
    decreases |s|
  {
    if |s| == 0 || IsSpace(s[0]) then 0 else 1 + WordLength(s[1..])
  }

  /** `s.split()`: the maximal runs of non-whitespace, in order. */
  function Split(s: string): (r: seq<string>)
    ensures AllWords(r)
    decreases |s|
  {
    if |s| == 0 then []
    else if IsSpace(s[0]) then Split(s[1..])
    else
      var n := WordLength(s);
      [s[..n]] + Split(s[n..])
  }

  // ---------------------------------------------------------------------------
  // str.strip()

  function StripLeft(s: string): (r: string)
    ensures |r| <= |s| && r == s[|s| - |r|..]
    ensures AllSpace(s[..|s| - |r|])
    ensures |r| == 0 || !IsSpace(r[0])
    ensures |s| > 0 && IsSpace(s[0]) ==> |r| < |s|
    decreases |s|
  {
    if |s| > 0 && IsSpace(s[0]) then
      var r := StripLeft(s[1..]);
      assert s[..|s| - |r|] == [s[0]] + s[1..][..|s| - 1 - |r|];
      r
    else s
  }

  function StripRight(s: string): (r: string)
    ensures |r| <= |s| && r == s[..|r|]
    ensures AllSpace(s[|r|..])
    ensures |r| == 0 || !IsSpace(r[|r| - 1])
    decreases |s|
  {
    if |s| > 0 && IsSpace(s[|s| - 1]) then
      var r := StripRight(s[..|s| - 1]);
      assert s[|r|..] == s[..|s| - 1][|r|..] + [s[|s| - 1]];
      r
    else s
  }

  /** `s` is `r` surrounded by whitespace only, with `r` starting at `a`. */
  predicate Padded(s: string, r: string, a: nat) {
    && a + |r| <= |s|
    && s[a..a + |r|] == r
    && AllSpace(s[..a])
    && AllSpace(s[a + |r|..])
  }

  /** `s.strip()`. */
  function Strip(s: string): (r: string)
    ensures Trimmed(r)
    ensures exists a: nat :: Padded(s, r, a)
  {
    StripBoth(s);
    StripRight(StripLeft(s))
  }

  lemma StripBoth(s: string)
    ensures Trimmed(StripRight(StripLeft(s)))
    ensures Padded(s, StripRight(StripLeft(s)), |s| - |StripLeft(s)|)
  {
    var l := StripLeft(s);
    var r := StripRight(l);
    assert |l| <= |s| && l == s[|s| - |l|..] && AllSpace(s[..|s| - |l|]);
    assert |r| <= |l| && r == l[..|r|] && AllSpace(l[|r|..]);
    StripPieces(s, l, r);
  }

  /** The two halves of `Strip` fit together. */
  lemma StripPieces(s: string, l: string, r: string)
    requires |l| <= |s| && l == s[|s| - |l|..] && AllSpace(s[..|s| - |l|])
    requires |l| == 0 || !IsSpace(l[0])
    requires |r| <= |l| && r == l[..|r|] && AllSpace(l[|r|..])
    requires |r| == 0 || !IsSpace(r[|r| - 1])
    ensures Trimmed(r) && Padded(s, r, |s| - |l|)
  {
    var a := |s| - |l|;
    assert |r| == 0 || r[0] == l[0];
    assert s[a..a + |r|] == l[..|r|];
    assert s[a + |r|..] == l[|r|..];
  }

  // ---------------------------------------------------------------------------
  // str.rstrip(c)

  /** `s.rstrip(c)` for a single character `c`. */
  function TrimEnd(s: string, c: char): (r: string)
    ensures |r| <= |s| && r == s[..|r|]
    ensures forall i :: |r| <= i < |s| ==> s[i] == c
    ensures |r| == 0 || r[|r| - 1] != c
    decreases |s|
  {
    if |s| > 0 && s[|s| - 1] == c then TrimEnd(s[..|s| - 1], c) else s
  }

  // ---------------------------------------------------------------------------
  // str.split(c) and str.split(c, 1)

  function IndexOf(s: string, c: char): (i: nat)
    requires c in s
    ensures i < |s| && s[i] == c && c !in s[..i]
    decreases |s|
  {
    if s[0] == c then 0
    else
      var i := 1 + IndexOf(s[1..], c);
      assert s[..i] == [s[0]] + s[1..][..i - 1];
      i
  }

  /** `s.split(c)` for a one-character separator: keeps empty pieces. */
  function SplitOn(s: string, c: char): (r: seq<string>)
    ensures |r| > 0
    ensures forall i :: 0 <= i < |r| ==> c !in r[i]
    ensures Join([c], r) == s
    decreases |s|
  {
    if c !in s then [s]
    else
      var i := IndexOf(s, c);
      var rest := SplitOn(s[i + 1..], c);
      assert s == s[..i] + [c] + s[i + 1..];
      [s[..i]] + rest
  }

  /** `s.split(c, 1)[1]`: everything after the first `c`. */
  function AfterFirst(s: string, c: char): string
    requires c in s
  {
    s[IndexOf(s, c) + 1..]
  }

  // ---------------------------------------------------------------------------
  // str.replace(pat, rep) and re.sub(r'\s+', ' ', s)

  /** `s.replace(pat, rep)`: leftmost, non-overlapping occurrences, scanning on
      after each replaced one. */
  function ReplaceAll(s: string, pat: string, rep: string): string
    requires |pat| > 0
    decreases |s|
  {
    if |s| < |pat| then s
    else if s[..|pat|] == pat then rep + ReplaceAll(s[|pat|..], pat, rep)
    else [s[0]] + ReplaceAll(s[1..], pat, rep)
  }

  /** `re.sub(r'\s+', ' ', s)`: every maximal whitespace run becomes one ' '. */
  function Collapse(s: string): (r: string)
    ensures |r| <= |s|
    ensures |r| == 0 <==> |s| == 0
    ensures |s| > 0 ==> (IsSpace(s[0]) <==> r[0] == ' ')
    decreases |s|
  {
    if |s| == 0 then ""
    else if IsSpace(s[0]) then " " + Collapse(StripLeft(s))
    else [s[0]] + Collapse(s[1..])
  }

  // ---------------------------------------------------------------------------
  // Lemmas

  lemma ContainsTail(s: string, t: string)
    requires |s| > 0
    ensures Contains(s[1..], t) ==> Contains(s, t)
  {
    if Contains(s[1..], t) {
      var i: nat :| OccursAt(s[1..], t, i);
      assert s[i + 1..i + 1 + |t|] == s[1..][i..i + |t|];
      assert OccursAt(s, t, i + 1);
    }
  }

  /** A string containing `a + t + b` contains `t`. */
  lemma ContainsInner(s: string, a: string, t: string, b: string)
    requires Contains(s, a + t + b)
    ensures Contains(s, t)
  {
    var i: nat :| OccursAt(s, a + t + b, i);
    var u := a + t + b;
    forall k | 0 <= k < |t| ensures s[i + |a| + k] == t[k] {
      assert s[i + |a| + k] == s[i..i + |u|][|a| + k] == u[|a| + k];
    }
    assert s[i + |a|..i + |a| + |t|] == t;
    assert OccursAt(s, t, i + |a|);
  }

  /** `a + t + b` contains `t`. */
  lemma ContainsMiddle(a: string, t: string, b: string)
    ensures Contains(a + t + b, t)
  {
    assert (a + t + b)[|a|..|a| + |t|] == t;
    assert OccursAt(a + t + b, t, |a|);
  }

  /** `s.split()` is empty exactly when `s` is all whitespace. */
  lemma {:induction false} SplitEmptyIff(s: string)
    ensures Split(s) == [] <==> AllSpace(s)
    decreases |s|
  {
    if |s| > 0 {
      if IsSpace(s[0]) {
        SplitEmptyIff(s[1..]);
        assert AllSpace(s[1..]) ==> AllSpace(s) by {
          if AllSpace(s[1..]) {
            forall i | 0 <= i < |s| ensures IsSpace(s[i]) {
              if i > 0 { assert s[i] == s[1..][i - 1]; }
            }
          }
        }
      } else {
        assert !AllSpace(s);
      }
    }
  }

  /** The first word of `w + rest` is `w` when `rest` is empty or starts with whitespace. */
  lemma {:induction false} WordLengthOfWord(w: string, rest: string)
    requires forall i :: 0 <= i < |w| ==> !IsSpace(w[i])
    requires |rest| == 0 || IsSpace(rest[0])
    ensures WordLength(w + rest) == |w|
    decreases |w|
  {
    if |w| > 0 {
      assert (w + rest)[1..] == w[1..] + rest;
      WordLengthOfWord(w[1..], rest);
    } else {
      assert w + rest == rest;
    }
  }

  /** `str.split()` undoes `" ".join` on words. */
  lemma {:induction false} SplitJoin(ws: seq<string>)
    requires AllWords(ws)
    ensures Split(Join(" ", ws)) == ws
    decreases |ws|
  {
    if |ws| == 1 {
      WordLengthOfWord(ws[0], "");
      assert ws[0] + "" == ws[0];
      assert ws[0][..|ws[0]|] == ws[0];
      assert ws[0][|ws[0]|..] == "";
    } else if |ws| > 1 {
      var w, j := ws[0], Join(" ", ws[1..]);
      var s := w + (" " + j);
      assert Join(" ", ws) == s;
      WordLengthOfWord(w, " " + j);
      assert s[..|w|] == w;
      assert s[|w|..] == " " + j;
      assert (" " + j)[1..] == j;
      SplitJoin(ws[1..]);
      assert [w] + ws[1..] == ws;
    }
  }

  /** Leading whitespace does not change `str.split()`. */
  lemma {:induction false} SplitStripLeft(s: string)
    ensures Split(StripLeft(s)) == Split(s)
    decreases |s|
  {
    if |s| > 0 && IsSpace(s[0]) {
      SplitStripLeft(s[1..]);
    }
  }

  /** `Collapse` copies a leading run of non-whitespace unchanged. */
  lemma {:induction false} CollapseWord(w: string, rest: string)
    requires forall i :: 0 <= i < |w| ==> !IsSpace(w[i])
    ensures Collapse(w + rest) == w + Collapse(rest)
    decreases |w|
  {
    var s := w + rest;
    if |w| == 0 {
      assert s == rest;
    } else {
      var c := w[0];
      assert s[0] == c && !IsSpace(c);
      assert s[1..] == w[1..] + rest;
      CollapseWord(w[1..], rest);
      assert Collapse(s) == [c] + Collapse(s[1..]);
      assert [c] + (w[1..] + Collapse(rest)) == ([c] + w[1..]) + Collapse(rest);
      assert [c] + w[1..] == w;
    }
  }

  /** Collapsing whitespace keeps exactly the same words. */
  lemma {:induction false} SplitCollapse(s: string)
    ensures Split(Collapse(s)) == Split(s)
    decreases |s|
  {
    if |s| == 0 {
    } else if IsSpace(s[0]) {
      var t := StripLeft(s);
      SplitCollapse(t);
      SplitStripLeft(s);
      assert (" " + Collapse(t))[1..] == Collapse(t);
    } else {
      var n := WordLength(s);
      var w, rest := s[..n], s[n..];
      assert s == w + rest;
      CollapseWord(w, rest);
      var c := Collapse(rest);
      WordLengthOfWord(w, c);
      assert (w + c)[..n] == w;
      assert (w + c)[n..] == c;
      SplitCollapse(rest);
    }
  }

  lemma SingleSpacedTail(s: string)
    requires |s| > 0 && SingleSpaced(s)
    ensures SingleSpaced(s[1..])
  {
    var t := s[1..];
    forall i, j | 0 <= i && j == i + 1 && j < |t|
      ensures !(IsSpace(t[i]) && IsSpace(t[j]))
    {
      assert t[i] == s[i + 1] && t[j] == s[j + 1];
    }
  }

  lemma SingleSpacedHead(s: string)
    requires |s| > 0 && SingleSpaced(s) && IsSpace(s[0])
    ensures s[0] == ' ' && (|s| == 1 || !IsSpace(s[1]))
  {
  }

  /** Text that is already single-spaced is left alone by `Collapse`. */
  lemma {:induction false} CollapseSingleSpaced(s: string)
    requires SingleSpaced(s)
    ensures Collapse(s) == s
    decreases |s|
  {
    if |s| > 0 {
      SingleSpacedTail(s);
      CollapseSingleSpaced(s[1..]);
      if IsSpace(s[0]) {
        SingleSpacedHead(s);
        CollapseSpaceHead(s);
      } else {
        CollapseWordHead(s);
      }
    }
  }

  lemma CollapseSpaceHead(s: string)
    requires |s| > 0 && s[0] == ' ' && (|s| == 1 || !IsSpace(s[1]))
    requires Collapse(s[1..]) == s[1..]
    ensures Collapse(s) == s
  {
    var t := s[1..];
    assert StripLeft(t) == t;
    assert StripLeft(s) == t;
    HeadTail(s);
  }

  lemma CollapseWordHead(s: string)
    requires |s| > 0 && !IsSpace(s[0])
    requires Collapse(s[1..]) == s[1..]
    ensures Collapse(s) == s
  {
    HeadTail(s);
  }

  /** Whatever the input, `Collapse` leaves only single ' ' characters as whitespace. */
  lemma {:induction false} CollapseIsSingleSpaced(s: string)
    ensures SingleSpaced(Collapse(s))
    decreases |s|
  {
    if |s| > 0 {
      var r := Collapse(s);
      var t := if IsSpace(s[0]) then StripLeft(s) else s[1..];
      CollapseIsSingleSpaced(t);
      var c := Collapse(t);
      assert r == [r[0]] + c;
      assert IsSpace(r[0]) ==> r[0] == ' ' && (|c| == 0 || !IsSpace(c[0]));
      SingleSpacedCons(r[0], c);
    }
  }

  /** A character in front of single-spaced text keeps it single-spaced when it
      is not whitespace, or is one ' ' not followed by whitespace. */
  lemma SingleSpacedCons(x: char, c: string)
    requires SingleSpaced(c)
    requires IsSpace(x) ==> x == ' ' && (|c| == 0 || !IsSpace(c[0]))
    ensures SingleSpaced([x] + c)
  {
    var r := [x] + c;
    forall i | 0 <= i < |r| && IsSpace(r[i]) ensures r[i] == ' ' {
      if i > 0 { assert r[i] == c[i - 1]; }
    }
    forall i, j | 0 <= i && j == i + 1 && j < |r| ensures !(IsSpace(r[i]) && IsSpace(r[j])) {
      if i > 0 { assert r[i] == c[i - 1] && r[j] == c[j - 1]; } else { assert r[j] == c[0]; }
    }
  }

  /** `Collapse` is idempotent. */
  lemma CollapseIdempotent(s: string)
    ensures Collapse(Collapse(s)) == Collapse(s)
  {
    CollapseIsSingleSpaced(s);
    CollapseSingleSpaced(Collapse(s));
  }

  /** The trimmed core of a padded string is unique. */
  lemma StripUnique(s: string, r: string, a: nat, r2: string, a2: nat)
    requires Trimmed(r) && Padded(s, r, a)
    requires Trimmed(r2) && Padded(s, r2, a2)
    ensures r == r2
  {
    if |r| > 0 && |r2| > 0 {
      assert s[a] == r[0] && s[a2] == r2[0];
      var e, e2 := a + |r|, a2 + |r2|;
      assert s[e - 1] == r[|r| - 1] && s[e2 - 1] == r2[|r2| - 1];
      assert a == a2 && e == e2;
      assert s[a..e] == s[a2..e2];
    }
  }

  /** `str.strip()` returns the unique trimmed text between whitespace padding. */
  lemma StripPadded(s: string, r: string, a: nat)
    requires Trimmed(r) && Padded(s, r, a)
    ensures Strip(s) == r
  {
    var r2 := Strip(s);
    var a2: nat :| Padded(s, r2, a2);
    StripUnique(s, r, a, r2, a2);
  }

  /** `str.strip()` is idempotent. */
  lemma StripIdempotent(s: string)
    ensures Strip(Strip(s)) == Strip(s)
  {
    var r := Strip(s);
    assert r[0..0 + |r|] == r;
    StripPadded(r, r, 0);
  }

  /** `sep.join` then `split(sep)` gives the pieces back when none holds `c`. */
  lemma {:induction false} SplitOnJoin(parts: seq<string>, c: char)
    requires |parts| > 0
    requires forall i :: 0 <= i < |parts| ==> c !in parts[i]
    ensures SplitOn(Join([c], parts), c) == parts
    decreases |parts|
  {
    var s := Join([c], parts);
    if |parts| == 1 {
    } else {
      var p, j := parts[0], Join([c], parts[1..]);
      assert s == p + [c] + j;
      assert (p + [c] + j)[|p|] == c;
      assert IndexOf(s, c) == |p|;
      assert s[..|p|] == p;
      assert s[|p| + 1..] == j;
      SplitOnJoin(parts[1..], c);
      assert [p] + parts[1..] == parts;
    }
  }

  /** After the first `c` of a line starting with `tag`, where `tag`'s only
      `c` is its last character. */
  lemma AfterLabel(line: string, tag: string, c: char)
    requires StartsWith(line, tag)
    requires |tag| > 0 && tag[|tag| - 1] == c && c !in tag[..|tag| - 1]
    ensures c in line
    ensures AfterFirst(line, c) == line[|tag|..]
  {
    assert line[|tag| - 1] == tag[|tag| - 1];
    assert line[..|tag| - 1] == tag[..|tag| - 1];
  }

  /** A whitespace character separates words: `str.split()` of the two sides
      concatenates. */
  lemma {:induction false} SplitAround(a: string, c: char, b: string)
    requires IsSpace(c)
    ensures Split(a + [c] + b) == Split(a) + Split(b)
    decreases |a|
  {
    var s := a + [c] + b;
    if |a| == 0 {
      assert s == [c] + b;
      assert s[1..] == b;
    } else if IsSpace(a[0]) {
      assert s[1..] == a[1..] + [c] + b;
      SplitAround(a[1..], c, b);
    } else {
      var n := WordLength(a);
      SplitAround(a[n..], c, b);
      WordThenSpace(a, c, b);
    }
  }

  /** The first word of `a` stays the first word when more text follows after
      a whitespace character. */
  lemma WordThenSpace(a: string, c: char, b: string)
    requires IsSpace(c) && |a| > 0 && !IsSpace(a[0])
    ensures Split(a + [c] + b) == [a[..WordLength(a)]] + Split(a[WordLength(a)..] + [c] + b)
  {
    var s := a + [c] + b;
    var n := WordLength(a);
    var w, rest := a[..n], a[n..];
    assert a == w + rest;
    assert s == w + (rest + [c] + b);
    WordLengthOfWord(w, rest + [c] + b);
    assert s[..n] == w;
    assert s[n..] == rest + [c] + b;
  }

  /** Every word `str.split()` returns occurs in the text it came from. */
  lemma {:induction false} SplitWordOccurs(s: string, k: nat)
    requires k < |Split(s)|
    ensures Contains(s, Split(s)[k])
    decreases |s|
  {
    if IsSpace(s[0]) {
      SplitWordOccurs(s[1..], k);
      ContainsTail(s, Split(s)[k]);
    } else {
      var n := WordLength(s);
      var w := Split(s)[k];
      if k == 0 {
        assert OccursAt(s, w, 0);
      } else {
        SplitWordOccurs(s[n..], k - 1);
        var i: nat :| OccursAt(s[n..], w, i);
        assert s[n + i..n + i + |w|] == s[n..][i..i + |w|];
        assert OccursAt(s, w, n + i);
      }
    }
  }

  /** `str.split()` of lines joined by a whitespace separator: the words of
      each line, in order. */
  function Words(lines: seq<string>): (r: seq<string>)
    ensures AllWords(r)
  {
    if |lines| == 0 then [] else Split(lines[0]) + Words(lines[1..])
  }

  lemma {:induction false} SplitJoinLines(c: char, lines: seq<string>)
    requires IsSpace(c)
    ensures Split(Join([c], lines)) == Words(lines)
    decreases |lines|
  {
    if |lines| == 1 {
      assert Words(lines) == Split(lines[0]) + [];
    } else if |lines| > 1 {
      SplitAround(lines[0], c, Join([c], lines[1..]));
      SplitJoinLines(c, lines[1..]);
    }
  }

  lemma {:induction false} WordsAppend(a: seq<string>, b: seq<string>)
    ensures Words(a + b) == Words(a) + Words(b)
    decreases |a|
  {
    if |a| > 0 {
      assert (a + b)[1..] == a[1..] + b;
      WordsAppend(a[1..], b);
    } else {
      assert a + b == b;
    }
  }

  /** `" ".join(s.split())`, the words of `s` put back together, is `s`
      stripped and with its whitespace runs collapsed. */
  lemma JoinSplit(s: string)
    ensures Join(" ", Split(s)) == Collapse(Strip(s))
  {
    SplitStrip(s);
    CollapseTrimmed(Strip(s));
  }

  /** Surrounding whitespace does not change `str.split()`. */
  lemma SplitStrip(s: string)
    ensures Split(Strip(s)) == Split(s)
  {
    var l := StripLeft(s);
    var r := StripRight(l);
    SplitStripLeft(s);
    StripRightParts(l);
    SplitTrailingSpace(r, l[|r|..]);
  }

  lemma StripRightParts(l: string)
    ensures l == StripRight(l) + l[|StripRight(l)|..]
  {
  }

  /** Trailing whitespace does not change `str.split()`. */
  lemma SplitTrailingSpace(r: string, e: string)
    requires AllSpace(e)
    ensures Split(r + e) == Split(r)
  {
    if |e| == 0 {
      assert r + e == r;
    } else {
      var t := e[1..];
      assert AllSpace(t) by {
        forall i | 0 <= i < |t| ensures IsSpace(t[i]) {
          assert t[i] == e[i + 1];
        }
      }
      assert r + e == r + [e[0]] + t;
      SplitAround(r, e[0], t);
      SplitEmptyIff(t);
      assert Split(r) + [] == Split(r);
    }
  }

  /** For text without surrounding whitespace, collapsing the whitespace runs
      is joining the words with single spaces. */
  lemma {:induction false} CollapseTrimmed(t: string)
    requires Trimmed(t)
    ensures Collapse(t) == Join(" ", Split(t))
    decreases |t|
  {
    if |t| > 0 {
      var n := WordLength(t);
      if n == |t| {
        CollapseOneWord(t);
      } else {
        var r := StripLeft(t[n..]);
        assert Trimmed(r) by {
          assert t[n..][|t[n..]| - 1] == t[|t| - 1];
          StripLeftKeepsEnd(t[n..]);
        }
        CollapseTrimmed(r);
        CollapseTrimmedStep(t, n);
      }
    }
  }

  lemma CollapseOneWord(t: string)
    requires |t| > 0 && WordLength(t) == |t|
    ensures Collapse(t) == Join(" ", Split(t))
  {
    CollapseWord(t, []);
    WordLengthOfWord(t, []);
    assert t + [] == t;
    assert t[..|t|] == t && t[|t|..] == [];
  }

  /** Text ending in non-whitespace keeps its last character when stripped
      on the left. */
  lemma {:induction false} StripLeftKeepsEnd(s: string)
    requires |s| > 0 && !IsSpace(s[|s| - 1])
    ensures |StripLeft(s)| > 0 && StripLeft(s)[|StripLeft(s)| - 1] == s[|s| - 1]
    decreases |s|
  {
    if IsSpace(s[0]) {
      assert |s| > 1;
      assert s[1..][|s| - 2] == s[|s| - 1];
      StripLeftKeepsEnd(s[1..]);
    }
  }

  lemma CollapseAfterWord(t: string, n: nat)
    requires n <= |t| && n == WordLength(t)
    ensures Collapse(t) == t[..n] + Collapse(t[n..])
  {
    assert t == t[..n] + t[n..];
    CollapseWord(t[..n], t[n..]);
  }

  /** One word, the whitespace after it, and the rest already joined. */
  lemma CollapseTrimmedStep(t: string, n: nat)
    requires 0 < n < |t| && n == WordLength(t)
    requires Collapse(StripLeft(t[n..])) == Join(" ", Split(StripLeft(t[n..])))
    requires Trimmed(t)
    ensures Collapse(t) == Join(" ", Split(t))
  {
    var w, r := t[..n], StripLeft(t[n..]);
    StepCollapse(t, n);
    StepJoin(t, n);
    AppendAssoc(w, " ", Collapse(r));
  }

  lemma StepCollapse(t: string, n: nat)
    requires 0 < n < |t| && n == WordLength(t)
    ensures Collapse(t) == t[..n] + (" " + Collapse(StripLeft(t[n..])))
  {
    var rest := t[n..];
    CollapseAfterWord(t, n);
    assert IsSpace(rest[0]);
  }

  lemma StepJoin(t: string, n: nat)
    requires 0 < n < |t| && n == WordLength(t) && Trimmed(t)
    ensures Join(" ", Split(t)) == t[..n] + " " + Join(" ", Split(StripLeft(t[n..])))
  {
    SplitAtWord(t, n);
    SplitStripLeft(t[n..]);
    RestHasWord(t, n);
    JoinCons(" ", t[..n], Split(StripLeft(t[n..])));
  }

  lemma SplitAtWord(t: string, n: nat)
    requires 0 < n < |t| && n == WordLength(t) && Trimmed(t)
    ensures Split(t) == [t[..n]] + Split(t[n..])
  {
  }

  /** A trimmed string ends in a word, so whatever follows its first word
      still holds one once the whitespace before it is dropped. */
  lemma RestHasWord(t: string, n: nat)
    requires 0 < n < |t| && Trimmed(t)
    ensures |Split(StripLeft(t[n..]))| > 0
  {
    var rest := t[n..];
    assert rest[|rest| - 1] == t[|t| - 1];
    StripLeftKeepsEnd(rest);
    SplitEmptyIff(StripLeft(rest));
  }

  /** `sep.join` of two non-empty lists of parts, one after the other. */
  lemma {:induction false} JoinAppend(sep: string, a: seq<string>, b: seq<string>)
    requires |a| > 0 && |b| > 0
    ensures Join(sep, a + b) == Join(sep, a) + sep + Join(sep, b)
    decreases |a|
  {
    if |a| == 1 {
      JoinCons(sep, a[0], b);
      assert [a[0]] + b == a + b;
    } else {
      assert (a + b)[1..] == a[1..] + b;
      JoinAppend(sep, a[1..], b);
      JoinCons(sep, a[0], a[1..] + b);
      assert [a[0]] + (a[1..] + b) == a + b;
    }
  }

  /** A character missing from `s` rules out every text containing it. */
  lemma AbsentChar(s: string, t: string, k: nat)
    requires k < |t| && t[k] !in s
    ensures !Contains(s, t)
  {
    forall i: nat | i + |t| <= |s| ensures !OccursAt(s, t, i) {
      assert s[i..i + |t|][k] == s[i + k];
    }
  }

  /** Leading whitespace is stripped from the front of `p + q` as from `p`
      alone, unless all of `p` is whitespace and `q` starts with more. */
  lemma {:induction false} StripLeftConcat(p: string, q: string)
    requires |StripLeft(p)| > 0 || |q| == 0 || !IsSpace(q[0])
    ensures StripLeft(p + q) == StripLeft(p) + q
    decreases |p|
  {
    if |p| == 0 {
      assert p + q == q;
    } else if IsSpace(p[0]) {
      assert (p + q)[1..] == p[1..] + q;
      StripLeftConcat(p[1..], q);
    }
  }

  /** `Collapse` works piecewise wherever the cut does not fall inside a run
      of whitespace. */
  lemma {:induction false} CollapseConcat(p: string, q: string)
    requires |p| == 0 || |q| == 0 || !IsSpace(p[|p| - 1]) || !IsSpace(q[0])
    ensures Collapse(p + q) == Collapse(p) + Collapse(q)
    decreases |p|
  {
    if |p| == 0 {
      assert p + q == q;
    } else if !IsSpace(p[0]) {
      assert |p[1..]| == 0 || p[1..][|p[1..]| - 1] == p[|p| - 1];
      CollapseConcat(p[1..], q);
      HeadTail(p);
      CollapseConcatKeep(p[0], p[1..], q);
    } else {
      var l := StripLeft(p);
      StripLeftEnd(p, q);
      CollapseConcat(l, q);
      CollapseConcatSpace(p, q);
    }
  }

  lemma CollapseConcatKeep(c: char, t: string, q: string)
    requires !IsSpace(c)
    requires Collapse(t + q) == Collapse(t) + Collapse(q)
    ensures Collapse([c] + t + q) == Collapse([c] + t) + Collapse(q)
  {
    AppendAssoc([c], t, q);
    CollapseKeep(c, t + q);
    CollapseKeep(c, t);
    AppendAssoc([c], Collapse(t), Collapse(q));
  }

  /** Skipping the leading whitespace of `p` keeps the cut condition and
      commutes with appending `q`. */
  lemma StripLeftEnd(p: string, q: string)
    requires |p| > 0 && IsSpace(p[0])
    requires |q| == 0 || !IsSpace(p[|p| - 1]) || !IsSpace(q[0])
    ensures var l := StripLeft(p);
      && (|l| == 0 || |q| == 0 || !IsSpace(l[|l| - 1]) || !IsSpace(q[0]))
      && StripLeft(p + q) == l + q
  {
    if |StripLeft(p)| == 0 {
      StripLeftAllGone(p);
    } else {
      StripLeftLast(p);
    }
    StripLeftConcat(p, q);
  }

  lemma StripLeftAllGone(p: string)
    requires |p| > 0 && |StripLeft(p)| == 0
    ensures IsSpace(p[|p| - 1])
  {
    assert AllSpace(p[..|p|]);
    assert IsSpace(p[..|p|][|p| - 1]);
  }

  lemma StripLeftLast(p: string)
    requires |StripLeft(p)| > 0
    ensures StripLeft(p)[|StripLeft(p)| - 1] == p[|p| - 1]
  {
  }

  lemma CollapseConcatSpace(p: string, q: string)
    requires |p| > 0 && IsSpace(p[0]) && StripLeft(p + q) == StripLeft(p) + q
    requires Collapse(StripLeft(p) + q) == Collapse(StripLeft(p)) + Collapse(q)
    ensures Collapse(p + q) == Collapse(p) + Collapse(q)
  {
    var l := StripLeft(p);
    assert (p + q)[0] == p[0];
    assert Collapse(p + q) == " " + Collapse(l + q);
    assert Collapse(p) == " " + Collapse(l);
    AppendAssoc(" ", Collapse(l), Collapse(q));
  }

  // ---------------------------------------------------------------------------
  // Single steps of the scans, for working through concrete inputs

  lemma ReplaceSkip(c: char, t: string, pat: string, rep: string)
    requires |pat| > 0 && pat[0] != c
    ensures ReplaceAll([c] + t, pat, rep) == [c] + ReplaceAll(t, pat, rep)
  {
    var s := [c] + t;
    assert s[1..] == t;
    if |s| >= |pat| {
      assert s[..|pat|][0] == c;
    }
  }

  /** Text in which the pattern does not occur comes back unchanged. */
  lemma {:induction false} ReplaceAbsent(s: string, pat: string, rep: string)
    requires |pat| > 0 && !Contains(s, pat)
    ensures ReplaceAll(s, pat, rep) == s
    decreases |s|
  {
    if |s| >= |pat| {
      assert !OccursAt(s, pat, 0);
      ContainsTail(s, pat);
      ReplaceAbsent(s[1..], pat, rep);
      HeadTail(s);
    }
  }

  /** Where the pattern does not start, the scan copies one character. */
  lemma ReplaceMiss(c: char, t: string, pat: string, rep: string)
    requires |pat| > 0 && !StartsWith([c] + t, pat)
    ensures ReplaceAll([c] + t, pat, rep) == [c] + ReplaceAll(t, pat, rep)
  {
    assert ([c] + t)[1..] == t;
  }

  /** `str.replace` replaces the leftmost occurrence first: when the first
      occurrence of `pat` in `u + pat + v` is the one after `u`, the text `u`
      is kept, that occurrence is replaced, and the scan resumes on `v`. */
  lemma ReplaceLeftmost(u: string, v: string, pat: string, rep: string)
    requires |pat| > 0
    requires forall j :: 0 <= j < |u| ==> !OccursAt(u + pat + v, pat, j)
    ensures ReplaceAll(u + pat + v, pat, rep) == u + rep + ReplaceAll(v, pat, rep)
  {
    var s, x := u + pat + v, pat + v;
    assert s == u + x;
    forall j | 0 <= j < |u| ensures !OccursAt(u + x, pat, j) {
      assert !OccursAt(s, pat, j);
    }
    KeepPrefix(u, x, pat, rep);
    ReplaceHit(pat, v, rep);
  }

  /** No occurrence of `pat` starting inside `a`: the scan copies `a`. */
  lemma {:induction false} KeepPrefix(a: string, x: string, pat: string, rep: string)
    requires |pat| > 0
    requires forall j :: 0 <= j < |a| ==> !OccursAt(a + x, pat, j)
    ensures ReplaceAll(a + x, pat, rep) == a + ReplaceAll(x, pat, rep)
    decreases |a|
  {
    if |a| == 0 {
      assert a + x == x;
    } else {
      var c, w := a[0], a[1..];
      assert !OccursAt(a + x, pat, 0);
      assert a + x == [c] + (w + x);
      ReplaceMiss(c, w + x, pat, rep);
      NoEarlierInTail(a + x, pat, |a|);
      assert (a + x)[1..] == w + x;
      KeepPrefix(w, x, pat, rep);
      HeadTail(a);
      AppendAssoc([c], w, ReplaceAll(x, pat, rep));
    }
  }
  lemma NoEarlierInTail(s: string, pat: string, i: nat)
    requires 0 < i <= |s|
    requires forall j :: 0 <= j < i ==> !OccursAt(s, pat, j)
    ensures forall j :: 0 <= j < i - 1 ==> !OccursAt(s[1..], pat, j)
  {
    forall j | 0 <= j < i - 1 ensures !OccursAt(s[1..], pat, j) {
      SliceShift(s, pat, j);
    }
  }

  /** An occurrence in `s[1..]` is an occurrence in `s` one place later. */
  lemma SliceShift(s: string, pat: string, j: nat)
    requires |s| > 0
    ensures OccursAt(s[1..], pat, j) <==> OccursAt(s, pat, j + 1)
  {
    if j + |pat| <= |s| - 1 {
      assert s[1..][j..j + |pat|] == s[j + 1..j + 1 + |pat|];
    }
  }

  lemma ReplaceHit(pat: string, t: string, rep: string)
    requires |pat| > 0
    ensures ReplaceAll(pat + t, pat, rep) == rep + ReplaceAll(t, pat, rep)
  {
    var s := pat + t;
    assert s[..|pat|] == pat;
    assert s[|pat|..] == t;
  }

  lemma ReplaceShort(s: string, pat: string, rep: string)
    requires 0 < |pat| && |s| < |pat|
    ensures ReplaceAll(s, pat, rep) == s
  {
  }

  lemma CollapseKeep(c: char, t: string)
    requires !IsSpace(c)
    ensures Collapse([c] + t) == [c] + Collapse(t)
  {
    assert ([c] + t)[1..] == t;
  }

  lemma CollapseSpace(c: char, t: string)
    requires IsSpace(c) && (|t| == 0 || !IsSpace(t[0]))
    ensures Collapse([c] + t) == " " + Collapse(t)
  {
    var s := [c] + t;
    assert s[1..] == t;
    assert StripLeft(t) == t;
    assert StripLeft(s) == t;
  }

  lemma JoinCons(sep: string, x: string, rest: seq<string>)
    requires |rest| > 0
    ensures Join(sep, [x] + rest) == x + sep + Join(sep, rest)
  {
    assert ([x] + rest)[1..] == rest;
  }

  lemma JoinHead(sep: string, parts: seq<string>)
    requires |parts| > 0 && |parts[0]| > 0
    ensures |Join(sep, parts)| > 0 && Join(sep, parts)[0] == parts[0][0]
  {
  }

  /** A character in neither the separator nor any part is not in the join. */
  lemma {:induction false} CharNotInJoin(c: char, sep: string, parts: seq<string>)
    requires c !in sep && forall i :: 0 <= i < |parts| ==> c !in parts[i]
    ensures c !in Join(sep, parts)
    decreases |parts|
  {
    if |parts| > 1 {
      assert forall i :: 0 <= i < |parts[1..]| ==> parts[1..][i] == parts[i + 1];
      CharNotInJoin(c, sep, parts[1..]);
    }
  }

  /** A run of parts joined by spaces occurs in any space-join that has it in
      the middle. */
  lemma JoinHasMiddle(p: seq<string>, m: seq<string>, q: seq<string>)
    requires |m| > 0
    ensures Contains(Join(" ", p + m + q), Join(" ", m))
  {
    var jm := Join(" ", m);
    if |q| == 0 {
      assert p + m + q == p + m;
      if |p| == 0 {
        assert p + m == m;
        ContainsMiddle("", jm, "");
        assert "" + jm + "" == jm;
      } else {
        JoinAppend(" ", p, m);
        ContainsMiddle(Join(" ", p) + " ", jm, "");
        assert Join(" ", p) + " " + jm + "" == Join(" ", p) + " " + jm;
      }
    } else {
      var jq := Join(" ", q);
      JoinAppend(" ", p + m, q);
      if |p| == 0 {
        assert p + m == m;
        ContainsMiddle("", jm, " " + jq);
        assert "" + jm + (" " + jq) == jm + " " + jq;
      } else {
        JoinAppend(" ", p, m);
        ContainsMiddle(Join(" ", p) + " ", jm, " " + jq);
        assert Join(" ", p) + " " + jm + (" " + jq) == Join(" ", p) + " " + jm + " " + jq;
      }
    }
  }

  /** Scanning over a word none of whose characters can start the pattern
      copies the word. */
  lemma {:induction false} ReplaceAcrossWord(x: string, t: string, pat: string, rep: string)
    requires |pat| > 0 && forall i :: 0 <= i < |x| ==> x[i] != pat[0]
    ensures ReplaceAll(x + t, pat, rep) == x + ReplaceAll(t, pat, rep)
    decreases |x|
  {
    if |x| == 0 {
      assert x + t == t;
    } else {
      ReplaceAcrossWord(x[1..], t, pat, rep);
      HeadTail(x);
      AppendAssoc([x[0]], x[1..], t);
      ReplaceSkip(x[0], x[1..] + t, pat, rep);
      AppendAssoc([x[0]], x[1..], ReplaceAll(t, pat, rep));
    }
  }

  /** A pattern with a space in it does not occur in text without whitespace. */
  lemma NoSpaceNoOccurrence(s: string, pat: string, k: nat)
    requires forall i :: 0 <= i < |s| ==> !IsSpace(s[i])
    requires k < |pat| && pat[k] == ' '
    ensures !Contains(s, pat)
  {
    forall i: nat | i + |pat| <= |s| ensures !OccursAt(s, pat, i) {
      assert s[i..i + |pat|][k] == s[i + k];
    }
  }

  lemma AppendAssoc(a: string, b: string, c: string)
    ensures a + (b + c) == (a + b) + c
  {
  }

  lemma HeadTail(x: string)
    requires |x| > 0
    ensures [x[0]] + x[1..] == x
  {
  }

  lemma ConsPair(a: string, b: string, c: string)
    ensures [a, b, c] == [a] + [b, c]
  {
  }

  lemma WordsOne(x: string)
    ensures Words([x]) == Split(x)
  {
    assert [x][1..] == [];
  }
}

=== FILE: wrappers.dfy ===
/** Failure-compatible Option and Result types used throughout the model. */
module Wrappers {

  datatype Option<+T> = None | Some(value: T) {

    predicate IsFailure() {
      None?
    }

    function PropagateFailure<U>(): Option<U>
      requires None?
    {
      None
    }

    function Extract(): T
      requires Some?
    {
      value
    }

    /** The value, or `default` when there is none. */
    function GetOr(default: T): T {
      match this
      case Some(v) => v
      case None => default
    }
  }

  datatype Result<+R, +E> = Success(value: R) | Failure(error: E) {

    predicate IsFailure() {
      Failure?
    }

    function PropagateFailure<U>(): Result<U, E>
      requires Failure?
    {
      Failure(error)
    }

    function Extract(): R
      requires Success?
    {
      value
    }
  }
}
